=== FILE: README.md ===
# automationexercise page objects, modelled in Dafny

The system is a Selenium page-object framework for the automationexercise.com
shop. A `BasePage` wraps the WebDriver with waits, retries, polling, typing and
screenshots. Page objects and components build on it; each is a set of locators
plus methods that click, type, read or check. A `Navigator` hands out page
objects. `ConfigReader` layers a per-environment YAML file over a base file.
The assertion helpers attach failure details to a report before raising.

The model replaces the browser by a DOM oracle (`PageKit.Dom`). The oracle
records which locators are present, visible and ticked, their texts and their
element lists. Every page method becomes a pure function from a `Dom` to a
`Run`: the commands it issued, in order, and how it ended. It ends with a
value or with a raised exception class (`Exceptions.Result`), which follows
Python's class hierarchy and ordered `except` clauses. The lower-level
`BasePage` loops are modelled against answers supplied per attempt or per
poll: `safe_click` retries, and `find_all` polls on a clock counted in
quarter-second ticks.
`PageFlow` joins the page methods into one navigation graph: a table of which
method of which page leads where. `Walk` is proved to follow that table
exactly along any sequence of method calls.

Modules, one per source class: `Exceptions`, `Ascii` (the `str` methods the
code uses), `BasePage`, `PageKit` (the command vocabulary and DOM oracle),
`ConfigReader`, `Assertions`, `HeaderComponent`, `CategorySidebar`,
`ProductsPage`, `ProductDetailsPage`, `CheckoutPage`, `PaymentPage`,
`OrderPlacedPage`, `LoginPage`, `SignupPage`, `AccountCreatedPage`,
`AccountDeletedPage`, `TestCasesPage`, `ContactUsPage`, `HomePage`,
`GuestPage`, `Navigator`, `PageFlow`.

## Model

| member | source | states |
|---|---|---|
| Exceptions.Parent | src/pages/base_page.py:109-115 | Only BaseException has no base class; every other class is exactly one level below its parent. |
| Exceptions.SubclassTransitive | src/pages/base_page.py:109-115 | `issubclass` is transitive, so a clause naming a base class catches all its descendants. |
| Exceptions.SubclassDepth | src/pages/base_page.py:109-115 | A subclass sits at least as deep as its base, and at the same depth only if it is the base itself. |
| Exceptions.SubclassAntisymmetric | src/pages/base_page.py:109-115 | Two classes that are subclasses of each other are the same class. |
| Exceptions.HierarchyFacts | src/pages/base_page.py:109-115 | Everything but BaseException and KeyboardInterrupt is an Exception; the WebDriver family is exactly WebDriverException and its six modelled subclasses, TimeoutException among them. |
| Exceptions.FirstCatching | src/pages/base_page.py:109-115 | The except-clause that handles an exception is the first one naming one of its base classes; no earlier clause catches it. |
| Ascii.Lower | src/pages/products_page.py:81 | `str.lower` keeps the length and lowers each letter in place. |
| Ascii.Upper | src/components/category_sidebar_component.py:47 | `str.upper` keeps the length and raises each letter in place. |
| Ascii.LowerForgetsCase | src/pages/products_page.py:81 | Lowering is idempotent and erases any earlier upper-casing. |
| Ascii.UpperForgetsCase | src/components/category_sidebar_component.py:47 | Upper-casing is idempotent and erases any earlier lowering. |
| Ascii.Strip | src/pages/products_page.py:70 | `str.strip` returns the input with blank runs cut from both ends and no blank left at either end. |
| Ascii.StripUnique | src/pages/base_page.py:130-138 | A stripped text padded with blanks strips back to exactly itself. |
| Ascii.StripIdempotent | src/pages/products_page.py:70 | Stripping twice is stripping once. |
| Ascii.StripEmptyIffBlank | src/pages/products_page.py:70 | A text strips to "" exactly when it is all blanks, which is what the name filter drops. |
| Ascii.Contains | src/pages/products_page.py:81 | Python's `in` on strings holds exactly when the needle occurs at some offset. |
| Ascii.ContainsTransitive | src/pages/products_page.py:81 | A substring of a substring is a substring. |
| Ascii.ContainsTrivial | src/utilities/assertions.py:39-45 | The empty string and the text itself occur in every text. |
| Ascii.LowerPreservesContains | src/pages/products_page.py:81 | A case-sensitive match survives lowering both sides, so the case-insensitive test is weaker than `in`. |
| BasePage.InstanceTimeout | src/pages/base_page.py:32-38 | The constructor keeps a truthy timeout and replaces None or 0 by DEFAULT_TIMEOUT = 10; the result is never 0. |
| BasePage.EffectiveTimeout | src/pages/base_page.py:41-49 | A wait uses its own truthy timeout, else the instance timeout. |
| BasePage.TimeoutFallbackChain | src/pages/base_page.py:32-49 | A wait's timeout is the first truthy value among explicit, constructor and 10; passing 0 is the same as passing nothing. |
| BasePage.Probe | src/pages/base_page.py:149-171 | `is_displayed`/`is_present` answer True when found and False on a TimeoutException (subclasses included); any other exception escapes unchanged. |
| BasePage.GetText | src/pages/base_page.py:130-138 | `get_text` succeeds exactly when the visibility wait does; a missing text reads as "" and a present one comes back stripped. |
| BasePage.GetAttribute | src/pages/base_page.py:140-147 | `get_attribute` gives the attribute's value when the element has it and None otherwise; wait failures escape. |
| BasePage.SendKeys | src/pages/base_page.py:119-128 | Typing succeeds exactly when the wait, the optional clear and the typing all succeed; the field is cleared only when asked and reachable; on success the events are clear-then-type. |
| BasePage.WaitAndSendKeys | src/pages/base_page.py:237-247 | True, with nothing attached, exactly when `send_keys` succeeds. When it raises an Exception, the handler attaches the failure screenshot and answers False. A non-Exception escapes, and so does a capture error that is not a WebDriverException. |
| BasePage.SendKeysFailureIsPhotographed | src/pages/base_page.py:243-247 | A failed send with a captured screenshot answers False with exactly that screenshot attached under the `wait_and_send_key_failure_` name. |
| BasePage.SendKeysCaptureErrorEscapes | src/pages/base_page.py:243-247 | When the handler's own capture raises a non-WebDriver Exception, that exception escapes instead of False. |
| BasePage.HandleFailure | src/pages/base_page.py:216-223 | The shared handler: False with the capture's screenshot when there are bytes and none otherwise; a non-WebDriver capture error escapes with nothing attached. |
| BasePage.TakeScreenshot | src/pages/base_page.py:203-214 | The capture is returned as is; a WebDriverException gives empty bytes; any other exception escapes. |
| BasePage.AttachScreenshot | src/pages/base_page.py:216-223 | One attachment when the capture has bytes, none when it is empty or failed with a WebDriverException. |
| BasePage.StepOf | src/pages/base_page.py:104-117 | An attempt ends the loop with True exactly when the click went through. |
| BasePage.ClickLoop | src/pages/base_page.py:104-117 | The retry loop runs at most retries + 1 attempts; it answers True exactly when the last attempt clicked; every earlier attempt was retried; it pauses once per retried attempt; an uncaught exception escapes from the attempt that threw it. |
| BasePage.WebDriverIsRetried | src/pages/base_page.py:109-112 | Every WebDriverException, TimeoutException included, is caught by the first (retrying) clause. |
| BasePage.TimeoutClauseIsDead | src/pages/base_page.py:113-115 | As written, no exception ever reaches the TimeoutException clause. |
| BasePage.TimeoutFirstStops | src/pages/base_page.py:113-115 | With the timeout clause first, a timeout gives up instead of retrying. |
| BasePage.Classified | src/pages/base_page.py:104-117 | The loop over per-attempt answers classified by a clause list keeps the ClickLoop guarantees from attempt 0. |
| BasePage.LoopAllAgain | src/pages/base_page.py:104-117 | If every attempt is retried, the loop uses up the whole budget, pauses each time and answers False. |
| BasePage.AllRetriedExhausts | src/pages/base_page.py:104-117 | The same, stated for classified answers. |
| BasePage.SafeClick | src/pages/base_page.py:98-117 | `safe_click` as written: at most retries + 1 attempts; True exactly when the last attempt clicked; one pause per failed attempt before a success; escaping exceptions are not WebDriverExceptions. |
| BasePage.SafeClickTimeoutFirst | src/pages/base_page.py:98-117 | The corrected loop: the same bounds, and a TimeoutException ends the loop at once with False, as the dedicated timeout clause means. |
| BasePage.OneStaleFaultIsAbsorbed | src/pages/base_page.py:106-112 | A stale element followed by a good click gives True after two attempts and one pause. |
| BasePage.RetryBudgetIsExhausted | src/pages/base_page.py:104-117 | When every attempt raises a WebDriverException, the loop makes retries + 1 attempts and answers False. |
| BasePage.TimeoutIsRetriedAsWritten | src/pages/base_page.py:109-115 | A click that only times out is tried three times as written, but only once with the intended clause order. |
| BasePage.UncaughtEscapes | src/pages/base_page.py:104-117 | A non-WebDriver exception on the first attempt escapes after one attempt and no pause. |
| BasePage.WaitAndClick | src/pages/base_page.py:225-235 | As written: no timeout means no click attempt and the handler runs; otherwise the timeout is the retry budget and the answer is True, with nothing attached, whenever `safe_click` returns. Every Exception goes to the handler's screenshot and False. |
| BasePage.NoTimeoutIsPhotographed | src/pages/base_page.py:229-235 | `wait_and_click(loc, None)` answers False with the failure screenshot attached, or lets a non-WebDriver capture error escape. |
| BasePage.WaitAndClickIgnoresFailure | src/pages/base_page.py:230 | A click that never succeeds is still reported as True, and no failure screenshot is taken. |
| BasePage.WaitAndClickIntended | src/pages/base_page.py:225-235 | Corrected: True exactly when the last attempt clicked, within the default budget; an Exception still leads to the failure screenshot. |
| BasePage.PollLoop | src/pages/base_page.py:75-87 | The polling loop makes at most one call per tick before the deadline; it returns the first non-empty answer, or [] at the deadline; swallowed errors keep it polling; other errors escape. |
| BasePage.FindAll | src/pages/base_page.py:69-87 | `find_all` polls at most timeout × 4 times; [] only if every poll came back empty or swallowed; a non-positive timeout gives [] without polling. |
| BasePage.SteadyDomFindAll | src/pages/base_page.py:69-87 | Against a DOM that does not change, `find_all` answers with its elements, after one poll when there are any. |
| BasePage.SteadyDomLoop | src/pages/base_page.py:75-87 | The loop form of the same fact. |
| ConfigReader.Merge | src/utilities/config_reader.py:64-71 | `_merge_dicts`: the keys are the union; base-only keys keep their values; scalars and new keys take the override; where both hold a mapping the result is a mapping over both key sets (its contents are pinned by `NestedMappingsMerge`). |
| ConfigReader.MergeRightIdentity | src/utilities/config_reader.py:64-71 | An empty override gives back the base. |
| ConfigReader.MergeLeftIdentity | src/utilities/config_reader.py:64-71 | An empty base gives back the override. |
| ConfigReader.SelfCompatible | src/utilities/config_reader.py:64-71 | Merging a mapping into itself never hits the crash case. |
| ConfigReader.MergeIdempotent | src/utilities/config_reader.py:64-71 | Merging a mapping into itself changes nothing. |
| ConfigReader.Lookup | src/utilities/config_reader.py:64-71 | A path that resolves begins with a key of the mapping. |
| ConfigReader.OverrideScalarWins | src/utilities/config_reader.py:64-71 | A scalar the override sets at a key path is what the merged config holds there. |
| ConfigReader.BaseValueSurvives | src/utilities/config_reader.py:64-71 | A base value at a path the override leaves alone survives the merge. |
| ConfigReader.OverrideWins | src/utilities/config_reader.py:64-71 | Any value the override holds at a path is the merged value there, unless both sides hold a mapping there. |
| ConfigReader.NestedMappingsMerge | src/utilities/config_reader.py:64-71 | Where both sides hold a mapping at a path, at any depth, the merged value is the recursive merge of the two. |
| ConfigReader.NothingInvented | src/utilities/config_reader.py:64-71 | Every path the merge resolves resolves in the base or in the override. |
| ConfigReader.IndexOf | src/utilities/config_reader.py:29-30 | `list.index` finds the first occurrence, with no earlier one. |
| ConfigReader.GetEnv | src/utilities/config_reader.py:28-38 | The word after the first `--env` decides when there is one; otherwise a non-empty TEST_ENV; otherwise "dev"; always lower-cased. |
| ConfigReader.EnvIsLowerCase | src/utilities/config_reader.py:28-38 | The chosen environment never holds an upper-case letter. |
| ConfigReader.CommandLineWins | src/utilities/config_reader.py:28-32 | A command-line `--env word` decides whatever TEST_ENV holds. |
| ConfigReader.EqualsFormIsIgnored | src/utilities/config_reader.py:28-38 | `_get_env` on its own: `--env=staging` is not `--env`, so with TEST_ENV unset it falls back to "dev". |
| ConfigReader.FirstEnvFlag | src/utilities/config_reader.py:5 | The first word that is `--env` or starts with `--env=`, with none before it. |
| ConfigReader.GetEnvIntended | src/utilities/config_reader.py:5 | The environment as documented, accepting `--env=NAME` as well as `--env NAME`; never holds an upper-case letter (its meaning is pinned by `EqualsFormSelects` and `SpaceFormSelects`). |
| ConfigReader.EqualsFormIsHonoured | src/utilities/config_reader.py:5 | The documented `pytest --env=staging` selects "staging". |
| ConfigReader.EqualsFormSelects | src/utilities/config_reader.py:5 | For every argument list, the first flag written `--env=NAME` selects NAME, lower-cased, whatever follows and whatever TEST_ENV holds. |
| ConfigReader.SpaceFormSelects | src/utilities/config_reader.py:28-32 | For every argument list, the first flag written `--env NAME` selects NAME under the corrected reading too. |
| ConfigReader.IntendedAgreesWithoutEqualsForm | src/utilities/config_reader.py:28-38 | Without an `--env=NAME` word, the documented reading and the written code agree. |
| ConfigReader.EnvConfigPath | src/utilities/config_reader.py:45 | `os.path.join` puts the file in the config folder, unless the name is absolute. |
| ConfigReader.LoadYaml | src/utilities/config_reader.py:59-61 | An empty document loads as an empty mapping. |
| ConfigReader.GetConfig | src/utilities/config_reader.py:41-61 | FileNotFoundError exactly when the base file is missing; otherwise the base config alone when the environment file is absent, and the base merged with that file when it is present. |
| ConfigReader.EnvFileDecides | src/utilities/config_reader.py:41-56 | A scalar the environment file sets at a key path is the configuration's value there, whatever the base says. |
| ConfigReader.EmptyEnvFileGivesBase | src/utilities/config_reader.py:41-61 | A present but empty environment file leaves the base unchanged. |
| Assertions.AttachFailureDetails | src/utilities/assertions.py:6-27 | The expected/actual comparison is attached first; URL and screenshot follow only with a page; Exceptions from either are swallowed and only non-Exceptions escape. |
| Assertions.Fail | src/utilities/assertions.py:30-54 | A failure raises AssertionError with the message after the details, unless something escaped while attaching. |
| Assertions.AssertTrue | src/utilities/assertions.py:30-36 | Passes exactly when the condition holds, attaching nothing; otherwise it compares "True" with "False" and raises AssertionError. |
| Assertions.AssertTextContains | src/utilities/assertions.py:39-45 | Passes exactly when `expected` occurs in `actual`; a failure attaches expected versus actual first and is AssertionError with the caller's message, unless a non-`Exception` escaped from the page context. |
| Assertions.EmptyExpectedPasses | src/utilities/assertions.py:39-45 | An empty expected text always passes. |
| Assertions.ContextErrorsAreSwallowed | src/utilities/assertions.py:16-27 | A page whose URL or screenshot raises still yields the AssertionError, with the error recorded. |
| Assertions.TextContextErrorsAreSwallowed | src/utilities/assertions.py:16-45 | The same for `assert_text_contains`: a missing text gives AssertionError with the caller's message, with the context error recorded. |
| Assertions.NothingEscapes | src/utilities/assertions.py:16-27 | Attaching failure details lets nothing escape when every context failure is an `Exception`. |
| Assertions.AssertEqual | src/utilities/assertions.py:48-54 | As written: every call raises NameError before comparing or attaching anything. |
| Assertions.AssertEqualRejectsEqualValues | src/utilities/assertions.py:52 | Even equal values fail as written. |
| Assertions.AssertEqualIntended | src/utilities/assertions.py:48-54 | Corrected: passes exactly when the values are equal; otherwise compares and raises AssertionError. |
| PageKit.VisibleWait | src/pages/base_page.py:41-49 | A visibility wait finds the element exactly when it is visible, and otherwise raises TimeoutException. |
| PageKit.PresenceWait | src/pages/base_page.py:41-49 | A presence wait finds the element exactly when it is present, and otherwise raises TimeoutException. |
| PageKit.IsDisplayed | src/pages/base_page.py:149-159 | One check; True exactly when the element is visible; never raises. |
| PageKit.IsPresent | src/pages/base_page.py:161-171 | One check; True exactly when the element is present; never raises. |
| PageKit.GetText | src/pages/base_page.py:130-138 | Reads a visible element's stripped text, "" for no text, TimeoutException when hidden. |
| PageKit.FindAllAgreesWithPolling | src/pages/base_page.py:69-87 | The page-level `find_all` over a steady DOM is what the polling loop returns. |
| PageKit.SendKeys | src/pages/base_page.py:119-128 | Types into a visible field, after clearing when asked; TimeoutException and no command when hidden. |
| PageKit.ClickOn | src/pages/base_page.py:89-96 | Clicks exactly when the element is clickable; otherwise TimeoutException with no command. |
| PageKit.Apply | src/pages/base_page.py:89-96 | Clicks only toggle check boxes; a run without clicks leaves the page unchanged. |
| PageKit.Construct | src/pages/base_page.py:32-38 | A page object built with no timeout gets the default of 10 on its driver. |
| HeaderComponent.LinksAreDistinct | src/components/header_component.py:13-23 | Each header link has its own locator, none of them the header or the logged-in label. |
| HeaderComponent.IsHeaderVisible | src/components/header_component.py:30-35 | One check of the header; True exactly when it is shown. |
| HeaderComponent.IsLoggedUserVisible | src/components/header_component.py:37-42 | One check of the "Logged in as" label; True exactly when it is shown. |
| HeaderComponent.ClickLink | src/components/header_component.py:46-93 | Each `click_*` clicks its own link exactly when that link is clickable, else raises TimeoutException without a click. |
| CategorySidebar.LinkByText | src/components/category_sidebar_component.py:21-31 | A link locator is an XPath matching the link's normalised text. |
| CategorySidebar.GeneratorsCoincide | src/components/category_sidebar_component.py:21-31 | Category and sub-category links are built the same way, and different names give different locators. |
| CategorySidebar.IsVisible | src/components/category_sidebar_component.py:35-40 | One check of the category list. |
| CategorySidebar.ExpectedTitle | src/components/category_sidebar_component.py:47 | The expected title starts with the upper-cased category and adds 12 fixed characters. |
| CategorySidebar.GetCategoryTitle | src/components/category_sidebar_component.py:69-74 | The title's stripped text when shown, else TimeoutException. |
| CategorySidebar.IsCategoryPageFor | src/components/category_sidebar_component.py:42-49 | True exactly when the upper-cased "CATEGORY - SUB PRODUCTS" occurs in the title; reads only, clicks nothing. |
| CategorySidebar.LowerCaseTitleNeverMatches | src/components/category_sidebar_component.py:42-49 | Against a title with no capitals, a category with a lower-case letter never matches. |
| CategorySidebar.ExpandCategory | src/components/category_sidebar_component.py:53-58 | Clicks the category link exactly when it is clickable. |
| CategorySidebar.ClickSubCategory | src/components/category_sidebar_component.py:60-65 | Clicks the sub-category link exactly when it is clickable. |
| ProductsPage.IsProductsPageVisible | src/pages/products_page.py:26-29 | One check of the "All Products" title. |
| ProductsPage.IsProductsListVisible | src/pages/products_page.py:31-34 | One check of the product list. |
| ProductsPage.IsSearchedProductsVisible | src/pages/products_page.py:36-39 | One check of the "Searched Products" title. |
| ProductsPage.ExtractEmbed | src/pages/products_page.py:43-53 | A name placed into a locator template can be read back out. |
| ProductsPage.GeneratorsRoundTrip | src/pages/products_page.py:43-53 | The view, container and add-to-cart locators each carry the product name recoverably. |
| ProductsPage.GeneratorsInjective | src/pages/products_page.py:43-53 | Different product names give different locators for each generator. |
| ProductsPage.SearchProduct | src/pages/products_page.py:57-64 | Types the name, then clicks Search; it succeeds exactly when both are usable; a hidden input issues nothing, and a hidden button leaves only the typing. |
| ProductsPage.NameOf | src/pages/products_page.py:70 | An element with no text raises AttributeError from `.strip()`; a blank one contributes nothing; any other contributes its stripped text. |
| ProductsPage.NamesOf | src/pages/products_page.py:70 | The name list is computed exactly when every element has a text; otherwise AttributeError. |
| ProductsPage.NamesAreClean | src/pages/products_page.py:70 | Every returned name is non-empty and already stripped. |
| ProductsPage.NamesOfMembers | src/pages/products_page.py:70 | A string is a returned name exactly when it is the stripped, non-blank text of some element. |
| ProductsPage.NamesOfAppend | src/pages/products_page.py:70 | The names of two element lists joined are the two name lists joined, in order. |
| ProductsPage.GetDisplayedProductNames | src/pages/products_page.py:66-70 | One collection of the name elements, then the clean names. |
| ProductsPage.AllMention | src/pages/products_page.py:81 | True exactly when every name contains the keyword, ignoring ASCII case. |
| ProductsPage.AreAllProductsRelatedToSearch | src/pages/products_page.py:72-81 | False for an empty listing; otherwise True exactly when every name mentions the keyword case-insensitively; raises when a name has no text. |
| ProductsPage.EmptyKeywordMatchesAll | src/pages/products_page.py:72-81 | The empty keyword matches any non-empty listing. |
| ProductsPage.ClickViewProductOf | src/pages/products_page.py:85-93 | Scrolls to the product's View Product link and clicks it; it succeeds exactly when the link is present and visible. |
| ProductsPage.AddProductToCart | src/pages/products_page.py:95-105 | Scroll to the card, hover it, then click its add button; it succeeds exactly when all three are possible; otherwise it stops before the first impossible one (nothing, the scroll, or the scroll and hover). |
| ProductsPage.AddTargetsOneProduct | src/pages/products_page.py:95-105 | All three commands of an add target the named product and no other. |
| ProductsPage.PlanPrefix | src/pages/products_page.py:107-117 | The commands for the first m products are a prefix of those for the first n. |
| ProductsPage.FailedStep | src/pages/products_page.py:107-117 | A product that cannot be added stops the whole run after a prefix of the plan, and the plan's first impossible command lies inside that product's step. |
| ProductsPage.AddAll | src/pages/products_page.py:107-117 | Each product is added in list order and followed by Continue Shopping; the run succeeds exactly when every command is possible; its trace is always the plan up to its first impossible command. |
| ProductsPage.AddAllDisplayedProductsToCart | src/pages/products_page.py:107-117 | Collects the names once, then adds them all as above, with the trace the collect followed by the plan up to its first impossible command; a nameless element raises before any click. |
| ProductsPage.ContinueShoppingCount | src/pages/products_page.py:107-117 | The modal's Continue Shopping is pressed once after each product but the last: n - 1 times for n products, none for an empty listing. |
| ProductsPage.ClickedButtonsAppend | src/pages/products_page.py:107-117 | The clicked buttons of two traces joined are the two lists joined. |
| ProductsPage.AddsInOrder | src/pages/products_page.py:107-117 | The add-to-cart buttons clicked are those of the products, one each, in listing order. |
| ProductsPage.EmptyListingDoesNothing | src/pages/products_page.py:107-117 | With no products nothing is clicked. |
| ProductsPage.ClickViewCart | src/pages/products_page.py:119-125 | View Cart on the modal, then the cart page, and nothing else. |
| ProductsPage.ContinueShopping | src/pages/products_page.py:127-130 | One call to the modal's Continue Shopping. |
| ProductDetailsPage.IsProductDetailsPageVisible | src/pages/product_details_page.py:38-41 | One check of the product information block. |
| ProductDetailsPage.AreProductDetailsVisible | src/pages/product_details_page.py:43-53 | True exactly when all six labels are shown; the labels are checked in order and checking stops at the first hidden one. |
| ProductDetailsPage.HiddenNameStopsAtOnce | src/pages/product_details_page.py:43-53 | A hidden product name is the only label checked. |
| ProductDetailsPage.IsReviewSectionVisible | src/pages/product_details_page.py:55-61 | Scrolls to the review title, then checks it; an absent title raises TimeoutException from the scroll, and a present one answers whether it is visible. |
| ProductDetailsPage.ReviewSectionShown | src/pages/product_details_page.py:55-61 | On a consistent page a visible title answers True. |
| ProductDetailsPage.SetQuantity | src/pages/product_details_page.py:65-68 | Clears and types the quantity exactly when the field is visible. |
| ProductDetailsPage.ClickAddToCart | src/pages/product_details_page.py:70-76 | Clicks Add to cart exactly when it is clickable. |
| ProductDetailsPage.EnterReviewName | src/pages/product_details_page.py:88-89 | Clears and types the reviewer's name exactly when the field is visible. |
| ProductDetailsPage.EnterReviewEmail | src/pages/product_details_page.py:91-92 | Clears and types the reviewer's email exactly when the field is visible. |
| ProductDetailsPage.EnterReviewContent | src/pages/product_details_page.py:94-95 | Clears and types the review exactly when the field is visible. |
| ProductDetailsPage.ClickSubmit | src/pages/product_details_page.py:97-99 | Clicks the review's Submit exactly when it is clickable. |
| ProductDetailsPage.SubmitProductReview | src/pages/product_details_page.py:78-86 | Name, email and review typed in order, then Submit; it succeeds exactly when the whole form is usable. |
| ProductDetailsPage.SubmitIsTheSingleSteps | src/pages/product_details_page.py:78-99 | Submitting is the four single-step methods in sequence, whichever of them fails. |
| ProductDetailsPage.AddToCartAndViewCart | src/pages/product_details_page.py:103-108 | Add to cart, then the modal's View Cart; when Add to cart is hidden nothing happens and TimeoutException is raised. |
| ProductDetailsPage.NavigateToCartViaModal | src/pages/product_details_page.py:110-112 | The modal's View Cart, then the cart page. |
| ProductDetailsPage.GetReviewSuccessMessage | src/pages/product_details_page.py:116-118 | The success alert's stripped text when shown. |
| CheckoutPage.AddressCondsMean | src/pages/checkout_page.py:30-39 | The address check's conditions hold exactly when both headings are shown and there are at least two address blocks. |
| CheckoutPage.ReviewCondsMean | src/pages/checkout_page.py:41-49 | The review check's conditions hold exactly when the heading is shown and there is at least one order row. |
| CheckoutPage.IsAddressDetailsVisible | src/pages/checkout_page.py:30-39 | True exactly for a shown delivery and billing heading plus two address blocks; a hidden delivery heading is the only thing checked. |
| CheckoutPage.IsReviewOrderVisible | src/pages/checkout_page.py:41-49 | True exactly for a shown heading and a non-empty order table. |
| CheckoutPage.IsCheckoutPageValid | src/pages/checkout_page.py:51-56 | Both sections; the review is not looked at when the address check fails. |
| CheckoutPage.ValidityCheckIsPure | src/pages/checkout_page.py:51-56 | The validity check changes nothing on the page. |
| CheckoutPage.EnterDescription | src/pages/checkout_page.py:60-65 | Clears and types the order comment exactly when the field is visible. |
| CheckoutPage.PlaceOrder | src/pages/checkout_page.py:67-75 | Clicks Place Order, then a payment page on the same driver. |
| PaymentPage.EnterPaymentDetails | src/pages/payment_page.py:28-44 | The five card fields are typed in order, each cleared first, with no click; it succeeds exactly when all are visible; otherwise it types the fields before the first hidden one and stops. |
| PaymentPage.ClickPayAndConfirm | src/pages/payment_page.py:46-54 | One click, then an order-placed page on the same driver. |
| PaymentPage.GetSuccessMessage | src/pages/payment_page.py:58-63 | The success alert's stripped text when shown. |
| OrderPlacedPage.IsOrderSuccessVisible | src/pages/order_placed_page.py:21-26 | One check of the "Order Placed!" heading; no clicks. |
| OrderPlacedPage.GetOrderSuccessMessage | src/pages/order_placed_page.py:30-35 | The confirmation paragraph's stripped text; only reads. |
| OrderPlacedPage.ConfirmationIsStripped | src/pages/order_placed_page.py:17 | The confirmation text the paragraph is found by has no surrounding blanks. |
| OrderPlacedPage.ConfirmationReadsBack | src/pages/order_placed_page.py:17-35 | A paragraph holding that text with any surrounding blanks reads back as exactly the text. |
| OrderPlacedPage.ClickContinue | src/pages/order_placed_page.py:39-47 | One click on Continue, then a home page. |
| LoginPage.GetNewUserSignupMessage | src/pages/login_page.py:20-25 | The sign-up heading's stripped text; only reads. |
| LoginPage.EnterName | src/pages/login_page.py:27-32 | Clears and types the name exactly when the input is visible. |
| LoginPage.EnterEmail | src/pages/login_page.py:34-39 | Clears and types the email exactly when the input is visible. |
| LoginPage.ClickSignup | src/pages/login_page.py:41-47 | Clicks Signup, then a sign-up page on the same driver. |
| SignupPage.GetEnterAccountInformationMessage | src/pages/signup_page.py:37-42 | The heading's stripped text when shown. |
| SignupPage.SelectTitle | src/pages/signup_page.py:44-52 | "mr" or "mrs", in any case, clicks its radio button; any other title does nothing and raises nothing. |
| SignupPage.SelectTitleIgnoresCase | src/pages/signup_page.py:44-52 | A title, its lower-case and its upper-case forms select alike. |
| SignupPage.SelectTitleIsExact | src/pages/signup_page.py:44-52 | "Mr." and " mrs" click nothing, while "MRS" clicks Mrs. |
| SignupPage.FieldsAreDistinct | src/pages/signup_page.py:54-173 | Each `enter_*` method types into its own input. |
| SignupPage.EnterField | src/pages/signup_page.py:54-173 | Each `enter_*` method clears and types into its field exactly when that field is visible. |
| SignupPage.SelectDropdown | src/pages/signup_page.py:68-145 | Each date-of-birth and country choice is one call with its own drop-down and the value. |
| SignupPage.SelectCheckbox | src/pages/signup_page.py:89-103 | Asks whether the box is ticked and clicks it only when it is not. |
| SignupPage.SelectNewsletter | src/pages/signup_page.py:89-95 | The newsletter box is clicked only when it is unticked. |
| SignupPage.SelectOffers | src/pages/signup_page.py:97-103 | The offers box is clicked only when it is unticked. |
| SignupPage.SelectCheckboxIdempotent | src/pages/signup_page.py:89-103 | After one call a shown box is ticked; a second call clicks nothing and changes nothing. |
| SignupPage.TickedBoxStaysTicked | src/pages/signup_page.py:89-103 | A ticked box is never unticked. |
| SignupPage.ClickCreateAccount | src/pages/signup_page.py:175-181 | Clicks Create Account, then an account-created page. |
| AccountCreatedPage.GetAccountCreatedMessage | src/pages/account_created_page.py:18-23 | The heading's stripped text; only reads. |
| AccountCreatedPage.ClickContinue | src/pages/account_created_page.py:25-33 | One click on Continue, then a home page. |
| AccountDeletedPage.GetAccountDeletedMessage | src/pages/account_deleted_page.py:18-23 | The heading's stripped text when shown. |
| AccountDeletedPage.ClickContinue | src/pages/account_deleted_page.py:25-30 | One click on Continue, and no page object. |
| TestCasesPage.IsTestCasesPageVisible | src/pages/test_cases_page.py:17-21 | One check of the title. |
| ContactUsPage.FieldsAreDistinct | src/pages/contact_us_page.py:35-61 | Each `enter_*` method types into its own input, never the submit or upload control. |
| ContactUsPage.GetGetInTouchMessage | src/pages/contact_us_page.py:28-33 | The heading's stripped text; only reads. |
| ContactUsPage.EnterField | src/pages/contact_us_page.py:35-61 | Clears and types into the field exactly when it is visible. |
| ContactUsPage.UploadAttachment | src/pages/contact_us_page.py:63-68 | One upload call on the file input with the path. |
| ContactUsPage.ClickSubmit | src/pages/contact_us_page.py:70-75 | Clicks Submit exactly when it is clickable. |
| ContactUsPage.GetSuccessSubmittedMessage | src/pages/contact_us_page.py:77-82 | The success message's stripped text when shown. |
| ContactUsPage.ClickHome | src/pages/contact_us_page.py:84-92 | Clicks Home, then a guest page. |
| HomePage.IsHomePageVisible | src/pages/home_page.py:15-20 | The header check. |
| HomePage.IsLoggedUserVisible | src/pages/home_page.py:22-27 | The logged-in label check. |
| HomePage.DeleteAccount | src/pages/home_page.py:31-39 | Clicks Delete Account, then an account-deleted page. |
| HomePage.Logout | src/pages/home_page.py:41-49 | Clicks Logout, then a login page. |
| GuestPage.DestinationsAreDistinct | src/pages/guest_page.py:15-68 | Each `navigate_to_*` uses its own header link, never Logout or Delete Account, and lands on its own page, never a home page. |
| GuestPage.NavigateTo | src/pages/guest_page.py:15-68 | Clicks the destination's link exactly when it is clickable, then the destination page. |
| GuestPage.IsHomePageVisible | src/pages/guest_page.py:72-77 | The header check. |
| GuestPage.ScrollToFooter | src/pages/guest_page.py:81-86 | One footer scroll call. |
| GuestPage.ViewProductFromHome | src/pages/guest_page.py:88-96 | One view-product call, then a product-details page. |
| GuestPage.AddProductToCartByItemFromHome | src/pages/guest_page.py:98-103 | One add-by-item call. |
| Navigator.PropertyOf | src/pages/navigator.py:40-92 | Every page kind but the guest page has the property that builds it. |
| Navigator.PropertiesAreDistinct | src/pages/navigator.py:40-92 | The thirteen properties build thirteen different kinds of page, none of them the guest page. |
| Navigator.Access | src/pages/navigator.py:40-92 | A property builds its page on the navigator's driver with the default timeout. |
| Navigator.AccessDependsOnlyOnDriver | src/pages/navigator.py:40-92 | Two navigators on the same driver build the same pages. |
| Navigator.OpenSite | src/pages/navigator.py:31-37 | Navigates to the URL, then returns a home page on the same driver. |
| PageFlow.Step | src/pages/navigator.py:31-92 | A method call on a page does what the navigation table says: AttributeError when the page lacks the method; else it succeeds exactly when its one command is possible, and lands where the table says. |
| PageFlow.Walk | src/pages/navigator.py:31-92 | A chain of calls that completes ends where the table leads, with one command per call on the same driver; a chain the table breaks always raises; AttributeError only for a broken chain. |
| PageFlow.FollowAppend | src/pages/navigator.py:31-92 | Following two chains one after the other is following their concatenation. |
| PageFlow.BrokenStaysBroken | src/pages/navigator.py:31-92 | Once a call fails, no further call recovers. |
| PageFlow.AccountDeletedIsTerminal | src/pages/account_deleted_page.py:25-30 | Continue after deleting the account returns no page, so any further call breaks. |
| PageFlow.OrderPagesHaveOneWayIn | src/pages/checkout_page.py:67-75 | Only Place Order reaches the payment page; only Pay and Confirm reaches the order-placed page; nothing returns a checkout page. |
| PageFlow.GuestPageHasOneWayIn | src/pages/contact_us_page.py:84-92 | Only the contact page's Home button gives a guest page; Logout gives a login page. |
| PageFlow.WalkTakesArrow | src/pages/navigator.py:31-92 | A possible step is taken and the rest of the chain continues from its landing page. |
| PageFlow.SignupJourney | src/pages/guest_page.py:15-24 | Guest → Signup/Login → sign-up → account created → home, one click per step. |
| PageFlow.SigningUpLeadsHome | src/pages/login_page.py:41-47 | From the login page, sign up, create the account and continue to home. |
| PageFlow.CreatingLeadsHome | src/pages/signup_page.py:175-181 | From the sign-up page, create the account and continue to home. |
| PageFlow.PurchaseJourney | src/pages/checkout_page.py:67-75 | Checkout → payment → order placed → home, one click per step. |
| PageFlow.PayingLeadsHome | src/pages/payment_page.py:46-54 | From the payment page, pay and continue to home. |
| PageFlow.ContinuingLeadsHome | src/pages/order_placed_page.py:39-47 | Continue on the order-placed or account-created page lands on a home page. |

## Left out

- Logging and the report library: log lines are dropped, and an attachment is kept as its name and bytes. The clock reading in a failure screenshot's name is a supplied string.
- `time.sleep` and the wall clock: `safe_click` pauses are counted, and `find_all` runs on a tick clock with a supplied cost per poll.
- WebDriverWait internals: a wait is its outcome. At page level, "clickable" is taken to mean "visible", and the DOM does not change while a method runs.
- The WebDriver factory, the data generator, the data loader, file utilities, the user-action helper and the test suite are not part of this model.
- YAML parsing and file I/O: a file is its parsed mapping, or None when empty. `lru_cache` on `get_config` is not modelled, because it does not change the returned value.
- JavaScript payloads: scrolling, hovering, `execute_script`, `switch_to_frame` and `switch_to_default` are modelled as commands, or not at all, with no effect on the DOM.
- The footer, scroll-up, home-products and add-to-cart-modal components: their clicks are single `Delegate` commands.
- `cart_page.py` defines an empty class, so `CartPage` is only a page kind.
- Members the page classes call but never define: `products`, `footer`, `add_to_cart_modal`, `navigate`, `select_dropdown_by_value`, `upload_file` and `is_selected`. They are `Delegate` or `AskSelected` commands. Their outcome is taken to be success, because their code is not part of this model.
- The `header` attribute: it is also never assigned in `BasePage`, and is modelled as the header component.
- Navigator properties build a new page object on each access: the model compares pages by value, so identity is not modelled.
- Unicode: `strip`, `lower` and `upper` are ASCII-only. `strip` treats as blanks the space, tab, newline, vertical tab, form feed, carriage return and the four ASCII separators 0x1C to 0x1F.
- ConfigReader.Merge: a non-mapping YAML value, list or scalar, is an opaque `Scalar`. The merge requires that nowhere does the override hold a mapping where the base holds a `Scalar`. In the source, a string or number base raises AttributeError at `base.copy()`, a list base with a non-empty override raises TypeError, and a list base with an empty override gives a copy of the list; none of these cases is modelled.
- ConfigReader.GetConfig: inherits the requirement of `Merge` when both files are present.
- GuestPage.ViewProductFromHome: always succeeds, because the delegated `products.click_view_product_of` is not interpreted.
- PageFlow.Walk: each step is given its own DOM, `pages(i)`, which stands in for the browser after i clicks, since page loads are not modelled.
- PageFlow.Step: covers the page-changing methods only; the checks and reads of each page are the per-page members above.
- ProductsPage.NamesOf: does not state the length of the name list, only which names it contains and their order under concatenation.
- ProductsPage.AddProductToCart: a product name containing a single quote is not modelled. The name is pasted into a quoted XPath literal, so the locator is malformed and Selenium raises InvalidSelectorException, where the model states TimeoutException. Locators are opaque keys of the page here.
- ProductsPage.ClickViewProductOf: the same gap for a product name containing a single quote.
- ProductsPage.AddAll: the same gap for any listed name containing a single quote.
- ProductsPage.AddAllDisplayedProductsToCart: the same gap for any displayed name containing a single quote.
- CategorySidebar.ExpandCategory: the same gap for a category name containing a single quote.
- CategorySidebar.ClickSubCategory: the same gap for a sub-category name containing a single quote.
- BasePage.FindAll: the `find_all` of page objects uses a steady DOM, with the polling loop proved separately (`PageKit.FindAllAgreesWithPolling`).

## Findings

| source | as written | input that shows it | evidently intended | confidence | as-written member | corrected member |
|---|---|---|---|---|---|---|
| src/pages/base_page.py:109-115 | the WebDriverException clause comes before the TimeoutException clause, so timeouts are retried and the timeout clause is never reached | a click that raises TimeoutException on every attempt, with the default 2 retries: three attempts and three pauses | the docstring retries only stale and intercepted clicks, and the separate timeout clause returns False, so that clause should come first: one attempt, then False | not executed | BasePage.TimeoutIsRetriedAsWritten | BasePage.SafeClickTimeoutFirst |
| src/pages/base_page.py:230 | `wait_and_click` passes its timeout as `safe_click`'s retry count, ignores the returned False, and returns True | a click that raises StaleElementReferenceException on every attempt: `safe_click` gives False, `wait_and_click` gives True | True only when the click went through, with the timeout used for the wait | not executed | BasePage.WaitAndClickIgnoresFailure | BasePage.WaitAndClickIntended |
| src/utilities/config_reader.py:28-38 | `_get_env` looks only for the exact word `--env` and takes the next word | a `ConfigReader()` built directly, outside the `config` fixture, with TEST_ENV unset and `--env=staging` in `sys.argv`: the environment is "dev". Under pytest the fixture (tests/conftest.py:50-55) first copies the parsed option into TEST_ENV, which hides the flaw | the module documentation (line 5) names `--env=staging` as the way to select an environment, so `_get_env` itself should read `--env=NAME` as NAME | not executed; low, since the only caller in the repository sets TEST_ENV first | ConfigReader.EqualsFormIsIgnored | ConfigReader.GetEnvIntended |
| src/utilities/assertions.py:52 | the parameter is named `acutal` but the body reads `actual`, so every call raises NameError | `assert_equal("x", "x")` | pass when the two values are equal, and fail with AssertionError otherwise | not executed | Assertions.AssertEqualRejectsEqualValues | Assertions.AssertEqualIntended |

=== FILE: account_pages.dfy ===
/** `AccountCreatedPage`: the confirmation after sign-up. */
module AccountCreatedPage {
  import opened Exceptions
  import Ascii
  import opened PageKit

  const LblAccountCreated := Locator(XPath, "//b[normalize-space()='Account Created!']")
  const BtnContinue := Locator(XPath, "//a[normalize-space()='Continue']")

  /** `get_account_created_message`. */
  function GetAccountCreatedMessage(d: Dom): (r: Run<string>)
    ensures r.result.Ok? <==> LblAccountCreated in d.visible
    ensures r.result.Ok? && TextOf(d, LblAccountCreated).Some? ==>
      Ascii.TrimOf(TextOf(d, LblAccountCreated).value, r.result.value)
    ensures r.result.Raised? ==> r.result.exc == TimeoutException
    ensures NoEffects(r.trace)
  {
    GetText(d, LblAccountCreated)
  }

  /** `click_continue`: exactly one command, the click on Continue, then a home
      page on the same driver. */
  function ClickContinue(d: Dom, driver: nat): (r: Run<PageObject>)
    ensures r.result.Ok? <==> BtnContinue in d.visible
    ensures r.result.Ok? ==> r.trace == [Click(BtnContinue)] && r.result.value == Construct(Home, driver)
    ensures r.result.Raised? ==> r.trace == [] && r.result.exc == TimeoutException
  {
    ThenPage(ClickOn(d, BtnContinue), Home, driver)
  }
}

/** `AccountDeletedPage`: the confirmation after deleting the account. */
module AccountDeletedPage {
  import opened Exceptions
  import Ascii
  import opened PageKit

  const LblAccountDeleted := Locator(XPath, "//b[contains(text(),'Account Deleted!')]")
  const BtnContinue := Locator(XPath, "//a[@data-qa='continue-button']")

  /** `get_account_deleted_message`. */
  function GetAccountDeletedMessage(d: Dom): (r: Run<string>)
    ensures r.result.Ok? <==> LblAccountDeleted in d.visible
    ensures r.result.Ok? && TextOf(d, LblAccountDeleted).Some? ==>
      Ascii.TrimOf(TextOf(d, LblAccountDeleted).value, r.result.value)
    ensures r.result.Raised? ==> r.result.exc == TimeoutException
  {
    GetText(d, LblAccountDeleted)
  }

  /** `click_continue`: one click; unlike the other Continue buttons it returns
      nothing, so no page object follows. */
  function ClickContinue(d: Dom): (r: Run<()>)
    ensures r.result.Ok? <==> BtnContinue in d.visible
    ensures r.result.Ok? ==> r.trace == [Click(BtnContinue)]
    ensures r.result.Raised? ==> r.trace == [] && r.result.exc == TimeoutException
  {
    ClickOn(d, BtnContinue)
  }
}

/** `TestCasesPage`. */
module TestCasesPage {
  import opened Exceptions
  import opened PageKit

  const LblTestCasesTitle := Locator(XPath, "//b[normalize-space()='Test Cases']")

  /** `is_test_cases_page_visible`. */
  function IsTestCasesPageVisible(d: Dom): (r: Run<bool>)
    ensures r.trace == [Check(LblTestCasesTitle)]
    ensures r.result == Ok(LblTestCasesTitle in d.visible)
  {
    IsDisplayed(d, LblTestCasesTitle)
  }
}

=== FILE: ascii.dfy ===
/** The ASCII fragment of Python's `str.lower`, `str.upper`, `str.strip` and the
    substring test `needle in hay`. Characters outside ASCII are left unchanged by
    the case mappings and are never whitespace here. */
module Ascii {

  /** `str.isspace` on ASCII: tab, line feed, vertical tab, form feed, carriage
      return, the four information separators 0x1C-0x1F, and space. */
  predicate IsSpace(c: char) {
    (9 <= c as int <= 13) || (28 <= c as int <= 32)
  }

  predicate AllSpace(s: string) {
    forall i :: 0 <= i < |s| ==> IsSpace(s[i])
  }

  predicate IsUpperChar(c: char) { 'A' <= c <= 'Z' }

  predicate IsLowerChar(c: char) { 'a' <= c <= 'z' }

  function LowerChar(c: char): char {
    if IsUpperChar(c) then (c as int + 32) as char else c
  }

  function UpperChar(c: char): char {
    if IsLowerChar(c) then (c as int - 32) as char else c
  }

  function Lower(s: string): (r: string)
    ensures |r| == |s|
    ensures forall i :: 0 <= i < |s| ==> r[i] == LowerChar(s[i])
  {
    if s == [] then [] else [LowerChar(s[0])] + Lower(s[1..])
  }

  function Upper(s: string): (r: string)
    ensures |r| == |s|
    ensures forall i :: 0 <= i < |s| ==> r[i] == UpperChar(s[i])
  {
    if s == [] then [] else [UpperChar(s[0])] + Upper(s[1..])
  }

  /** Lower-casing forgets the original case: whatever case a string is written
      in, its lower-case form is the same. */
  lemma LowerForgetsCase(s: string)
    ensures Lower(Lower(s)) == Lower(s)
    ensures Lower(Upper(s)) == Lower(s)
  {
  }

  lemma UpperForgetsCase(s: string)
    ensures Upper(Upper(s)) == Upper(s)
    ensures Upper(Lower(s)) == Upper(s)
  {
  }

  // ---------- strip ----------

  /** Neither end of s is whitespace. */
  predicate IsStripped(s: string) {
    s == [] || (!IsSpace(s[0]) && !IsSpace(s[|s| - 1]))
  }

  /** r is what is left of s after removing whitespace from both ends. */
  ghost predicate TrimOf(s: string, r: string) {
    IsStripped(r) &&
    exists i, j :: 0 <= i <= j <= |s| && r == s[i..j] && AllSpace(s[..i]) && AllSpace(s[j..])
  }

  /** Number of whitespace characters at the start of s. */
  function LeadingSpace(s: string): (n: nat)
    ensures n <= |s|
    ensures forall i :: 0 <= i < n ==> IsSpace(s[i])
    ensures n < |s| ==> !IsSpace(s[n])
  {
    if s == [] || !IsSpace(s[0]) then 0 else 1 + LeadingSpace(s[1..])
  }

  /** Index where the trailing whitespace of s begins. */
  function TrailingStart(s: string): (m: nat)
    ensures m <= |s|
    ensures forall i :: m <= i < |s| ==> IsSpace(s[i])
    ensures 0 < m ==> !IsSpace(s[m - 1])
  {
    if s == [] || !IsSpace(s[|s| - 1]) then |s| else TrailingStart(s[..|s| - 1])
  }

  /** `s.strip()` with no argument. */
  function Strip(s: string): (r: string)
    ensures TrimOf(s, r)
    ensures |r| <= |s|
  {
    var n := LeadingSpace(s);
    if n == |s| then
      assert s[..|s|] == s;
      assert s[|s|..] == [];
      []
    else
      var m := TrailingStart(s);
      assert n < m;
      s[n..m]
  }

  /** Strip is characterised by its contract: whenever s is some all-whitespace
      prefix, a stripped middle and an all-whitespace suffix, Strip returns the
      middle. */
  lemma {:induction false} StripUnique(a: string, r: string, b: string)
    requires AllSpace(a) && AllSpace(b) && IsStripped(r)
    ensures Strip(a + r + b) == r
  {
    var s := a + r + b;
    if r == [] {
      assert s == a + b;
      assert AllSpace(s);
      assert LeadingSpace(s) == |s|;
    } else {
      assert s[|a|] == r[0];
      assert LeadingSpace(s) == |a|;
      assert s[|a| + |r| - 1] == r[|r| - 1];
      assert TrailingStart(s) == |a| + |r|;
      assert s[|a|..|a| + |r|] == r;
    }
  }

  lemma StripIdempotent(s: string)
    ensures Strip(Strip(s)) == Strip(s)
  {
    var r := Strip(s);
    StripUnique([], r, []);
    assert [] + r + [] == r;
  }

  /** A string strips to "" exactly when it is all whitespace. */
  lemma StripEmptyIffBlank(s: string)
    ensures Strip(s) == [] <==> AllSpace(s)
  {
    if AllSpace(s) {
      StripUnique(s, [], []);
      assert s + [] + [] == s;
    }
  }

  // ---------- substring ----------

  /** needle occurs in hay starting at index i. */
  predicate OccursAt(hay: string, needle: string, i: int) {
    0 <= i && i + |needle| <= |hay| && hay[i..i + |needle|] == needle
  }

  /** Python's `needle in hay` on strings. */
  function Contains(hay: string, needle: string): (b: bool)
    ensures b <==> exists i :: OccursAt(hay, needle, i)
    decreases |hay|
  {
    if |needle| <= |hay| && hay[..|needle|] == needle then
      assert OccursAt(hay, needle, 0);
      true
    else if hay == [] then
      false
    else
      var b := Contains(hay[1..], needle);
      assert forall i :: OccursAt(hay[1..], needle, i) ==> OccursAt(hay, needle, i + 1) by {
        forall i | OccursAt(hay[1..], needle, i)
          ensures OccursAt(hay, needle, i + 1)
        {
          assert hay[1..][i..i + |needle|] == hay[i + 1..i + 1 + |needle|];
        }
      }
      assert forall i :: OccursAt(hay, needle, i) ==> i >= 1 && OccursAt(hay[1..], needle, i - 1) by {
        forall i | OccursAt(hay, needle, i)
          ensures i >= 1 && OccursAt(hay[1..], needle, i - 1)
        {
          assert hay[1..][i - 1..i - 1 + |needle|] == hay[i..i + |needle|];
        }
      }
      b
  }

  /** Containment is transitive: a substring of a substring is a substring. */
  lemma ContainsTransitive(a: string, b: string, c: string)
    requires Contains(a, b) && Contains(b, c)
    ensures Contains(a, c)
  {
    var i :| OccursAt(a, b, i);
    var j :| OccursAt(b, c, j);
    var s := a[i + j..i + j + |c|];
    forall k | 0 <= k < |c|
      ensures s[k] == c[k]
    {
      assert c[k] == b[j + k] == a[i + j + k];
    }
    assert s == c;
    assert OccursAt(a, c, i + j);
  }

  /** The empty string occurs in every string, and every string occurs in itself. */
  lemma ContainsTrivial(s: string)
    ensures Contains(s, [])
    ensures Contains(s, s)
  {
    assert OccursAt(s, [], 0);
    assert OccursAt(s, s, 0);
  }

  /** Lower-casing both sides preserves an occurrence. */
  lemma LowerPreservesContains(hay: string, needle: string)
    requires Contains(hay, needle)
    ensures Contains(Lower(hay), Lower(needle))
  {
    var i :| OccursAt(hay, needle, i);
    assert Lower(hay)[i..i + |needle|] == Lower(needle);
    assert OccursAt(Lower(hay), Lower(needle), i);
  }
}

=== FILE: assertions.dfy ===
/** The assertion helpers: each checks one condition, and on failure records
    report attachments before raising AssertionError with the caller's message. */
module Assertions {
  import opened Wrappers
  import opened Exceptions
  import Ascii
  import BasePage

  /** A report attachment made while handling a failure. */
  datatype Detail =
    | Comparison(expected: string, actual: string)
    | FailureUrl(url: string)
    | Screenshot(shot: BasePage.Attachment)
    | ContextError(exc: ExcClass)

  /** What the page object passed for context answers: reading the current URL,
      and capturing a screenshot. */
  datatype PageContext = PageContext(url: Result<string>, capture: Result<seq<bv8>>)

  /** How a helper ended: returned, or raised `exc` with `message`. */
  datatype Verdict = Passed | Failed(exc: ExcClass, message: string)

  /** The attachments made, in order, and how the helper ended. */
  datatype Outcome = Outcome(details: seq<Detail>, verdict: Verdict)

  /** The attachments of `_attach_failure_details`, and an exception that escapes
      it (one that is not an `Exception`). */
  datatype AttachRun = AttachRun(details: seq<Detail>, escaped: Option<ExcClass>)

  const ScreenshotName: string := "assertion_failure_screenshot"

  /** `_attach_failure_details`: the comparison first; then, only with a page
      object, its URL and a screenshot. A failure while capturing that context is
      recorded as a context error instead of propagating, unless it is not an
      `Exception`. */
  function AttachFailureDetails(expected: string, actual: string, page: Option<PageContext>): (r: AttachRun)
    ensures |r.details| >= 1 && r.details[0] == Comparison(expected, actual)
    ensures page.None? ==> r == AttachRun([Comparison(expected, actual)], None)
    ensures r.escaped.Some? ==> page.Some? && !IsSubclass(r.escaped.value, Exception)
    ensures page.Some? && page.value.url.Ok? && page.value.capture.Ok? ==>
      r.escaped.None? && |r.details| >= 2 && r.details[1] == FailureUrl(page.value.url.value)
    ensures page.Some? && page.value.url.Raised? && IsSubclass(page.value.url.exc, Exception) ==>
      r == AttachRun([Comparison(expected, actual), ContextError(page.value.url.exc)], None)
    ensures |r.details| <= 3
  {
    var head := [Comparison(expected, actual)];
    match page
    case None => AttachRun(head, None)
    case Some(ctx) =>
      match ctx.url
      case Raised(e) =>
        if IsSubclass(e, Exception) then AttachRun(head + [ContextError(e)], None)
        else AttachRun(head, Some(e))
      case Ok(u) =>
        var withUrl := head + [FailureUrl(u)];
        match BasePage.AttachScreenshot(ctx.capture, Some(ScreenshotName))
        case Ok(atts) =>
          AttachRun(withUrl + (if atts == [] then [] else [Screenshot(atts[0])]), None)
        case Raised(e) =>
          if IsSubclass(e, Exception) then AttachRun(withUrl + [ContextError(e)], None)
          else AttachRun(withUrl, Some(e))
  }

  /** A failure: the details, then the AssertionError, unless something escaped
      while attaching. */
  function Fail(a: AttachRun, message: string): (o: Outcome)
    ensures o.details == a.details
    ensures a.escaped.None? ==> o.verdict == Failed(AssertionError, message)
    ensures a.escaped.Some? ==> o.verdict.Failed? && o.verdict.exc == a.escaped.value
  {
    match a.escaped
    case None => Outcome(a.details, Failed(AssertionError, message))
    case Some(e) => Outcome(a.details, Failed(e, ""))
  }

  /** `assert_true`: passes exactly when the condition holds, attaching nothing;
      otherwise attaches the comparison (True expected, False seen) first. */
  function AssertTrue(condition: bool, message: string, page: Option<PageContext>): (o: Outcome)
    ensures o.verdict == Passed <==> condition
    ensures condition ==> o.details == []
    ensures !condition ==> o.details != [] && o.details[0] == Comparison("True", "False")
    ensures !condition && page.None? ==> o == Outcome([Comparison("True", "False")], Failed(AssertionError, message))
  {
    if condition then Outcome([], Passed)
    else Fail(AttachFailureDetails("True", "False", page), message)
  }

  /** `assert_text_contains`: passes exactly when `expected` occurs in `actual`. */
  function AssertTextContains(actual: string, expected: string, message: string, page: Option<PageContext>): (o: Outcome)
    ensures o.verdict == Passed <==> exists i :: Ascii.OccursAt(actual, expected, i)
    ensures o.verdict == Passed ==> o.details == []
    ensures o.verdict != Passed ==> |o.details| >= 1 && o.details[0] == Comparison(expected, actual)
    ensures o.verdict.Failed? ==>
      o.verdict == Failed(AssertionError, message) || (page.Some? && !IsSubclass(o.verdict.exc, Exception))
    ensures o.verdict != Passed && page.None? ==>
      o == Outcome([Comparison(expected, actual)], Failed(AssertionError, message))
  {
    if Ascii.Contains(actual, expected) then Outcome([], Passed)
    else Fail(AttachFailureDetails(expected, actual, page), message)
  }

  /** An empty expected text never fails. */
  lemma EmptyExpectedPasses(actual: string, message: string, page: Option<PageContext>)
    ensures AssertTextContains(actual, "", message, page) == Outcome([], Passed)
  {
    Ascii.ContainsTrivial(actual);
  }

  /** A broken page context does not hide the assertion: when reading the URL or
      taking the screenshot raises an `Exception`, AssertionError with the
      caller's message still surfaces, after a context-error attachment. */
  lemma ContextErrorsAreSwallowed(message: string, ctx: PageContext)
    requires ctx.url.Raised? ==> IsSubclass(ctx.url.exc, Exception)
    requires ctx.capture.Raised? ==> IsSubclass(ctx.capture.exc, Exception)
    ensures AssertTrue(false, message, Some(ctx)).verdict == Failed(AssertionError, message)
    ensures ctx.url.Raised? ==> ContextError(ctx.url.exc) in AssertTrue(false, message, Some(ctx)).details
  {
    NothingEscapes("True", "False", ctx);
  }

  /** The same for `assert_text_contains`: a missing text fails with
      AssertionError and the caller's message even when the page context is
      broken. */
  lemma TextContextErrorsAreSwallowed(actual: string, expected: string, message: string, ctx: PageContext)
    requires !Ascii.Contains(actual, expected)
    requires ctx.url.Raised? ==> IsSubclass(ctx.url.exc, Exception)
    requires ctx.capture.Raised? ==> IsSubclass(ctx.capture.exc, Exception)
    ensures AssertTextContains(actual, expected, message, Some(ctx)).verdict == Failed(AssertionError, message)
    ensures ctx.url.Raised? ==>
      ContextError(ctx.url.exc) in AssertTextContains(actual, expected, message, Some(ctx)).details
  {
    NothingEscapes(expected, actual, ctx);
  }

  /** Attaching the failure details lets nothing escape when every failure of the
      page context is an `Exception`. */
  lemma NothingEscapes(expected: string, actual: string, ctx: PageContext)
    requires ctx.url.Raised? ==> IsSubclass(ctx.url.exc, Exception)
    requires ctx.capture.Raised? ==> IsSubclass(ctx.capture.exc, Exception)
    ensures AttachFailureDetails(expected, actual, Some(ctx)).escaped.None?
  {
    if ctx.url.Ok? && ctx.capture.Raised? {
      assert BasePage.AttachScreenshot(ctx.capture, Some(ScreenshotName)).Ok?
        || IsSubclass(BasePage.AttachScreenshot(ctx.capture, Some(ScreenshotName)).exc, Exception);
    }
  }

  /** `assert_equal` as written: its parameter is spelled `acutal` and the
      comparison reads the unbound name `actual`, so every call raises NameError
      before comparing and attaches nothing. */
  function AssertEqual(acutal: string, expected: string, message: string, page: Option<PageContext>): (o: Outcome)
    ensures o.details == []
    ensures o.verdict == Failed(NameError, "name 'actual' is not defined")
  {
    Outcome([], Failed(NameError, "name 'actual' is not defined"))
  }

  /** Even equal values fail as written. */
  lemma AssertEqualRejectsEqualValues(v: string)
    ensures AssertEqual(v, v, "", None).verdict != Passed
  {
  }

  /** `assert_equal` with the parameter read under the name it was given: passes
      exactly when the values are equal. */
  function AssertEqualIntended(actual: string, expected: string, message: string, page: Option<PageContext>): (o: Outcome)
    ensures o.verdict == Passed <==> actual == expected
    ensures actual == expected ==> o.details == []
    ensures actual != expected ==> |o.details| >= 1 && o.details[0] == Comparison(expected, actual)
    ensures actual != expected && page.None? ==> o.verdict == Failed(AssertionError, message)
  {
    if actual != expected then Fail(AttachFailureDetails(expected, actual, page), message)
    else Outcome([], Passed)
  }
}

=== FILE: base_page.dfy ===
/** The interaction primitives of `BasePage` over an abstract driver. Each wait of
    the real driver is summarised by how it ended (`WaitOutcome`); the retry loop of
    `safe_click` and the polling loop of `find_all` read their driver's answers from
    a script indexed by attempt or poll number. Time is counted in integer ticks of
    a quarter second, the poll interval. */
module BasePage {
  import opened Wrappers
  import opened Exceptions
  import Ascii

  // ---------- timeouts ----------

  /** `BasePage.DEFAULT_TIMEOUT`, in seconds. */
  const DefaultTimeout: int := 10

  /** Python's `x or y` for an optional integer: `None` and `0` are both falsy. */
  function OrElse(x: Option<int>, y: int): int {
    if x.Some? && x.value != 0 then x.value else y
  }

  /** The instance timeout set by the constructor: its argument when truthy, else
      the default of 10 seconds. */
  function InstanceTimeout(arg: Option<int>): (t: int)
    ensures t != 0
    ensures arg.Some? && arg.value != 0 ==> t == arg.value
    ensures arg == None || arg == Some(0) ==> t == DefaultTimeout
  {
    OrElse(arg, DefaultTimeout)
  }

  /** The timeout of one wait: the explicit argument when truthy, else the
      instance timeout. */
  function EffectiveTimeout(explicit: Option<int>, instance: int): (t: int)
    ensures explicit.Some? && explicit.value != 0 ==> t == explicit.value
    ensures explicit == None || explicit == Some(0) ==> t == instance
  {
    OrElse(explicit, instance)
  }

  /** Composing the two fallbacks: a wait uses the first truthy value among the
      explicit timeout, the constructor's timeout and 10, and so never waits with
      a zero timeout. Passing 0 is the same as passing nothing. */
  lemma TimeoutFallbackChain(explicit: Option<int>, ctor: Option<int>)
    ensures EffectiveTimeout(explicit, InstanceTimeout(ctor)) != 0
    ensures EffectiveTimeout(explicit, InstanceTimeout(ctor)) ==
      if explicit.Some? && explicit.value != 0 then explicit.value
      else if ctor.Some? && ctor.value != 0 then ctor.value
      else DefaultTimeout
    ensures EffectiveTimeout(Some(0), InstanceTimeout(ctor)) == EffectiveTimeout(None, InstanceTimeout(ctor))
  {
  }

  // ---------- single waits ----------

  /** A located element: its text, which Selenium may report as missing, and its
      attributes. */
  datatype Element = Element(text: Option<string>, attrs: map<string, string>)

  /** How one explicit wait (`find`, `find_visible`, the clickable wait) ended. */
  datatype WaitOutcome = Found(elem: Element) | WaitRaised(exc: ExcClass)

  /** `is_displayed` and `is_present`: True when the wait finds the element, False
      when it raises TimeoutException; any other exception propagates. The two
      differ only in the wait condition, which decides the outcome passed in. */
  function Probe(w: WaitOutcome): (r: Result<bool>)
    ensures r == Ok(true) <==> w.Found?
    ensures r == Ok(false) <==> w.WaitRaised? && IsSubclass(w.exc, TimeoutException)
    ensures r.Raised? ==> w.WaitRaised? && r.exc == w.exc && !IsSubclass(w.exc, TimeoutException)
  {
    match w
    case Found(_) => Ok(true)
    case WaitRaised(e) => if IsSubclass(e, TimeoutException) then Ok(false) else Raised(e)
  }

  /** `get_text`: the visible element's text with surrounding whitespace removed,
      `""` when the text is missing; a failed wait propagates. */
  function GetText(w: WaitOutcome): (r: Result<string>)
    ensures r.Ok? <==> w.Found?
    ensures r.Raised? ==> r.exc == w.exc
    ensures r.Ok? && w.elem.text.None? ==> r.value == ""
    ensures r.Ok? && w.elem.text.Some? ==> Ascii.TrimOf(w.elem.text.value, r.value)
  {
    match w
    case Found(e) => Ok(Ascii.Strip(e.text.GetOr("")))
    case WaitRaised(e) => Raised(e)
  }

  /** `get_attribute`: the attribute of the present element, `None` when it has no
      such attribute; a failed wait propagates. */
  function GetAttribute(w: WaitOutcome, name: string): (r: Result<Option<string>>)
    ensures r.Ok? <==> w.Found?
    ensures r.Raised? ==> r.exc == w.exc
    ensures r.Ok? ==> (r.value.Some? <==> name in w.elem.attrs)
    ensures r.Ok? && r.value.Some? ==> r.value.value == w.elem.attrs[name]
  {
    match w
    case Found(e) => Ok(if name in e.attrs then Some(e.attrs[name]) else None)
    case WaitRaised(e) => Raised(e)
  }

  /** What `send_keys` does to the element once found. */
  datatype KeyEvent = Cleared | Typed(text: string)

  /** The driver's answers for one `send_keys`: the visibility wait, then whether
      `clear()` and `send_keys()` on the element raise. */
  datatype KeyScript = KeyScript(wait: WaitOutcome, clearFails: Option<ExcClass>, typeFails: Option<ExcClass>)

  datatype KeyRun = KeyRun(events: seq<KeyEvent>, result: Result<()>)

  /** `send_keys`: wait for visibility, clear when `clearFirst`, then type. */
  function SendKeys(s: KeyScript, text: string, clearFirst: bool): (r: KeyRun)
    ensures r.result.Ok? <==>
      s.wait.Found? && (clearFirst ==> s.clearFails.None?) && s.typeFails.None?
    ensures r.result.Ok? ==> r.events == (if clearFirst then [Cleared] else []) + [Typed(text)]
    ensures Cleared in r.events <==> clearFirst && s.wait.Found? && s.clearFails.None?
    ensures |r.events| <= 2
  {
    match s.wait
    case WaitRaised(e) => KeyRun([], Raised(e))
    case Found(_) =>
      if clearFirst && s.clearFails.Some? then KeyRun([], Raised(s.clearFails.value))
      else
        var cleared := if clearFirst then [Cleared] else [];
        if s.typeFails.Some? then KeyRun(cleared, Raised(s.typeFails.value))
        else KeyRun(cleared + [Typed(text)], Ok(()))
  }

  /** `wait_and_send_keys`: True exactly when `send_keys` (with its default
      clear-first) returns; an `Exception` goes to the failure handler, which
      attaches a screenshot and answers False; anything else escapes. `stamp` is
      the clock reading that ends the screenshot's name. */
  function WaitAndSendKeys(s: KeyScript, text: string, capture: Result<seq<bv8>>, stamp: string): (r: Handled<Result<bool>>)
    ensures r.report == Ok(true) <==> SendKeys(s, text, true).result.Ok?
    ensures r.report == Ok(true) ==> r.attachments == []
    ensures r.report == Ok(false) <==>
      SendKeys(s, text, true).result.Raised? && IsSubclass(SendKeys(s, text, true).result.exc, Exception)
      && TakeScreenshot(capture).Ok?
    ensures SendKeys(s, text, true).result.Raised? && IsSubclass(SendKeys(s, text, true).result.exc, Exception) ==>
      r.attachments == ShotOf(capture, SendKeysShotPrefix + stamp)
    ensures r.report.Raised? ==>
      r.attachments == [] && (!IsSubclass(r.report.exc, Exception) || (capture.Raised? && r.report.exc == capture.exc))
  {
    var k := SendKeys(s, text, true);
    match k.result
    case Ok(_) => Handled(Ok(true), [])
    case Raised(e) => if IsSubclass(e, Exception) then HandleFailure(capture, SendKeysShotPrefix + stamp) else Handled(Raised(e), [])
  }

  /** A failed send whose screenshot is captured answers False with that one
      screenshot attached. */
  lemma SendKeysFailureIsPhotographed(s: KeyScript, text: string, png: seq<bv8>, stamp: string)
    requires s.wait.WaitRaised? && IsSubclass(s.wait.exc, Exception) && png != []
    ensures WaitAndSendKeys(s, text, Ok(png), stamp) == Handled(Ok(false), [Attachment(SendKeysShotPrefix + stamp, png)])
  {
  }

  /** A failure handler whose own capture raises a non-WebDriver `Exception` lets
      that exception out instead of answering False. */
  lemma SendKeysCaptureErrorEscapes(s: KeyScript, text: string, stamp: string)
    requires s.wait.WaitRaised? && IsSubclass(s.wait.exc, Exception)
    ensures WaitAndSendKeys(s, text, Raised(OSError), stamp) == Handled(Raised(OSError), [])
  {
  }

  // ---------- screenshots ----------

  /** `take_screenshot`: the driver's PNG bytes, or empty bytes when the capture
      raises a WebDriverException; any other exception propagates. */
  function TakeScreenshot(capture: Result<seq<bv8>>): (r: Result<seq<bv8>>)
    ensures capture.Ok? ==> r == capture
    ensures capture.Raised? && IsSubclass(capture.exc, WebDriverException) ==> r == Ok([])
    ensures r.Raised? <==> capture.Raised? && !IsSubclass(capture.exc, WebDriverException)
  {
    match capture
    case Ok(png) => Ok(png)
    case Raised(e) => if IsSubclass(e, WebDriverException) then Ok([]) else Raised(e)
  }

  /** A report attachment, kept as an opaque event with its name. */
  datatype Attachment = Attachment(name: string, png: seq<bv8>)

  /** `attach_screenshot_to_allure`: attaches the capture, under the given name or
      "screenshot", only when it holds bytes. */
  function AttachScreenshot(capture: Result<seq<bv8>>, name: Option<string>): (r: Result<seq<Attachment>>)
    ensures r.Ok? <==> TakeScreenshot(capture).Ok?
    ensures r.Ok? && r.value != [] ==>
      capture.Ok? && capture.value != [] && |r.value| == 1 && r.value[0].png == capture.value
      && r.value[0].name == (if name == None || name == Some("") then "screenshot" else name.value)
    ensures r.Ok? && r.value == [] ==> capture.Raised? || capture.value == []
    ensures capture.Ok? && capture.value != [] ==> r.Ok? && |r.value| == 1
  {
    match TakeScreenshot(capture)
    case Raised(e) => Raised(e)
    case Ok(png) =>
      if png != [] then Ok([Attachment(if name.Some? && name.value != "" then name.value else "screenshot", png)])
      else Ok([])
  }

  /** What a helper with a failure handler returns, and the screenshots that
      handler attached. */
  datatype Handled<R> = Handled(report: R, attachments: seq<Attachment>)

  const SendKeysShotPrefix: string := "wait_and_send_key_failure_"
  const ClickShotPrefix: string := "wait_and_click_failure_"

  /** The screenshot a capture yields under a non-empty name: one attachment
      when it holds bytes, none otherwise. */
  function ShotOf(capture: Result<seq<bv8>>, name: string): seq<Attachment> {
    if capture.Ok? && capture.value != [] then [Attachment(name, capture.value)] else []
  }

  /** The `except Exception` handler of `wait_and_click` and `wait_and_send_keys`:
      attach a screenshot, then answer False. A capture failure that is not a
      WebDriverException escapes from the handler itself. */
  function HandleFailure(capture: Result<seq<bv8>>, name: string): (r: Handled<Result<bool>>)
    requires name != ""
    ensures r.report.Ok? <==> TakeScreenshot(capture).Ok?
    ensures r.report.Ok? ==> r.report.value == false && r.attachments == ShotOf(capture, name)
    ensures r.report.Raised? ==>
      capture.Raised? && r.report.exc == capture.exc && !IsSubclass(capture.exc, WebDriverException) && r.attachments == []
  {
    match AttachScreenshot(capture, Some(name))
    case Ok(atts) => Handled(Ok(false), atts)
    case Raised(e) => Handled(Raised(e), [])
  }

  // ---------- safe_click ----------

  /** The driver's answer to one call of `click` inside the retry loop. */
  datatype Attempt = Clicked | Threw(exc: ExcClass)

  /** What an except-clause of the retry loop does with what it catches. */
  datatype Reaction = Retry | GiveUp

  datatype Handler = Handler(classes: seq<ExcClass>, reaction: Reaction)

  /** The except-clauses of `safe_click` in source order: stale, intercepted and
      any WebDriverException pause and retry; TimeoutException gives up. */
  const AsWrittenHandlers: seq<Handler> := [
    Handler([StaleElementReferenceException, ElementClickInterceptedException, WebDriverException], Retry),
    Handler([TimeoutException], GiveUp)
  ]

  /** The same clauses with the timeout clause first, as the docstring and the
      design intend: a timeout then ends the loop at once. */
  const TimeoutFirstHandlers: seq<Handler> := [AsWrittenHandlers[1], AsWrittenHandlers[0]]

  const DefaultRetries: int := 2

  function ClassesOf(hs: seq<Handler>): (cs: seq<seq<ExcClass>>)
    ensures |cs| == |hs|
    ensures forall i :: 0 <= i < |hs| ==> cs[i] == hs[i].classes
  {
    seq(|hs|, i requires 0 <= i < |hs| => hs[i].classes)
  }

  /** The reaction of the first clause that catches e, or None when e escapes. */
  function React(hs: seq<Handler>, e: ExcClass): Option<Reaction> {
    var i := FirstCatching(ClassesOf(hs), e);
    if i < |hs| then Some(hs[i].reaction) else None
  }

  /** How the loop treats the answer to one attempt. */
  datatype Step = Succeed | Again | Stop | Escape(exc: ExcClass)

  function StepOf(hs: seq<Handler>, a: Attempt): (st: Step)
    ensures st == Succeed <==> a == Clicked
  {
    match a
    case Clicked => Succeed
    case Threw(e) =>
      match React(hs, e)
      case Some(Retry) => Again
      case Some(GiveUp) => Stop
      case None => Escape(e)
  }

  /** Attempts lo..hi-1 all threw an exception that the clauses retry. */
  ghost predicate RetriedBetween(hs: seq<Handler>, outcome: nat -> Attempt, lo: nat, hi: int) {
    forall j: nat :: lo <= j < hi ==> StepOf(hs, outcome(j)) == Again
  }

  ghost predicate AgainBetween(step: nat -> Step, lo: nat, hi: int) {
    forall j: nat :: lo <= j < hi ==> step(j) == Again
  }

  /** Result of the loop: its return value or escaping exception, the number of
      `click` calls made, and the number of half-second pauses taken. */
  datatype ClickReport = ClickReport(verdict: Result<bool>, attempts: nat, pauses: nat)

  /** The `while attempt <= retries` loop from the iteration whose counter is
      `attempt`, over the classified answers `step`; the counter also equals the
      pauses taken so far. */
  function ClickLoop(step: nat -> Step, retries: int, attempt: nat): (r: ClickReport)
    ensures attempt <= r.attempts
    ensures attempt <= retries ==> r.attempts <= retries + 1
    ensures retries < attempt ==> r == ClickReport(Ok(false), attempt, attempt)
    ensures r.verdict == Ok(true) <==> r.attempts > attempt && step(r.attempts - 1) == Succeed
    ensures AgainBetween(step, attempt, r.attempts - 1)
    ensures r.attempts > attempt && step(r.attempts - 1) == Stop ==>
      r.verdict == Ok(false) && r.pauses == r.attempts - 1
    ensures r.verdict == Ok(true) ==>
      r.attempts > attempt && step(r.attempts - 1) == Succeed
      && AgainBetween(step, attempt, r.attempts - 1) && r.pauses == r.attempts - 1
    ensures r.verdict.Raised? ==>
      r.attempts > attempt && step(r.attempts - 1) == Escape(r.verdict.exc)
      && AgainBetween(step, attempt, r.attempts - 1) && r.pauses == r.attempts - 1
    ensures r.verdict == Ok(false) && attempt <= retries ==>
      (r.attempts == retries + 1 && AgainBetween(step, attempt, r.attempts) && r.pauses == r.attempts)
      || (r.attempts > attempt && step(r.attempts - 1) == Stop
          && AgainBetween(step, attempt, r.attempts - 1) && r.pauses == r.attempts - 1)
    decreases if attempt <= retries then retries + 1 - attempt else 0
  {
    if attempt > retries then
      ClickReport(Ok(false), attempt, attempt)
    else
      match step(attempt)
      case Succeed => ClickReport(Ok(true), attempt + 1, attempt)
      case Again => ClickLoop(step, retries, attempt + 1)
      case Stop => ClickReport(Ok(false), attempt + 1, attempt)
      case Escape(e) => ClickReport(Raised(e), attempt + 1, attempt)
  }

  /** Every WebDriverException, TimeoutException included, is caught by the first
      as-written clause and retried. */
  lemma WebDriverIsRetried(e: ExcClass)
    requires IsSubclass(e, WebDriverException)
    ensures React(AsWrittenHandlers, e) == Some(Retry)
  {
    assert IsSubclass(e, ClassesOf(AsWrittenHandlers)[0][2]);
  }

  /** In the as-written order no exception ever reaches the timeout clause. */
  lemma TimeoutClauseIsDead()
    ensures forall e :: React(AsWrittenHandlers, e) != Some(GiveUp)
  {
    forall e
      ensures React(AsWrittenHandlers, e) != Some(GiveUp)
    {
      if IsSubclass(e, TimeoutException) {
        SubclassTransitive(e, TimeoutException, WebDriverException);
        WebDriverIsRetried(e);
      }
    }
  }

  /** With the timeout clause first, a timeout stops the loop. */
  lemma TimeoutFirstStops(e: ExcClass)
    requires IsSubclass(e, TimeoutException)
    ensures React(TimeoutFirstHandlers, e) == Some(GiveUp)
  {
    assert IsSubclass(e, ClassesOf(TimeoutFirstHandlers)[0][0]);
  }

  /** The loop over the answers `outcome`, each classified by the clauses `hs`. */
  function Classified(hs: seq<Handler>, outcome: nat -> Attempt, retries: int): (r: ClickReport)
    ensures r.attempts <= Max(retries + 1, 0)
    ensures retries < 0 ==> r == ClickReport(Ok(false), 0, 0)
    ensures r.verdict == Ok(true) <==> r.attempts > 0 && outcome(r.attempts - 1) == Clicked
    ensures RetriedBetween(hs, outcome, 0, r.attempts - 1)
    ensures r.attempts > 0 && StepOf(hs, outcome(r.attempts - 1)) == Stop ==>
      r.verdict == Ok(false) && r.pauses == r.attempts - 1
    ensures r.verdict == Ok(true) ==> r.pauses == r.attempts - 1
    ensures r.verdict.Raised? ==>
      r.attempts > 0 && StepOf(hs, outcome(r.attempts - 1)) == Escape(r.verdict.exc)
      && RetriedBetween(hs, outcome, 0, r.attempts - 1) && r.pauses == r.attempts - 1
    ensures r.verdict == Ok(false) ==>
      (r.attempts == Max(retries + 1, 0) && r.pauses == r.attempts
       && RetriedBetween(hs, outcome, 0, r.attempts))
      || (r.attempts > 0 && StepOf(hs, outcome(r.attempts - 1)) == Stop
          && RetriedBetween(hs, outcome, 0, r.attempts - 1) && r.pauses == r.attempts - 1)
  {
    var step := (j: nat) => StepOf(hs, outcome(j));
    assert forall j: nat :: step(j) == StepOf(hs, outcome(j));
    ClickLoop(step, retries, 0)
  }

  /** A loop whose every answer is retried runs until the counter passes the
      budget, pausing once per attempt. */
  lemma {:induction false} LoopAllAgain(step: nat -> Step, retries: int, attempt: nat)
    requires forall j: nat :: step(j) == Again
    ensures ClickLoop(step, retries, attempt)
      == ClickReport(Ok(false), Max(retries + 1, attempt), Max(retries + 1, attempt))
    decreases if attempt <= retries then retries + 1 - attempt else 0
  {
    if attempt <= retries {
      LoopAllAgain(step, retries, attempt + 1);
    }
  }

  lemma AllRetriedExhausts(hs: seq<Handler>, outcome: nat -> Attempt, retries: int)
    requires forall j: nat :: StepOf(hs, outcome(j)) == Again
    ensures Classified(hs, outcome, retries)
      == ClickReport(Ok(false), Max(retries + 1, 0), Max(retries + 1, 0))
  {
    var step := (j: nat) => StepOf(hs, outcome(j));
    assert forall j: nat :: step(j) == StepOf(hs, outcome(j));
    LoopAllAgain(step, retries, 0);
  }

  /** `safe_click` as written: at most retries + 1 attempts; True on the first
      attempt that does not raise, with no attempt after it; one pause per retried
      failure; an exception no clause catches escapes after its attempt. Because
      TimeoutException is a WebDriverException, False only ever means the budget
      ran out. */
  function SafeClick(outcome: nat -> Attempt, retries: int): (r: ClickReport)
    ensures r.attempts <= Max(retries + 1, 0)
    ensures retries < 0 ==> r == ClickReport(Ok(false), 0, 0)
    ensures r.verdict == Ok(true) <==> r.attempts > 0 && outcome(r.attempts - 1) == Clicked
    ensures r.verdict == Ok(true) ==>
      RetriedBetween(AsWrittenHandlers, outcome, 0, r.attempts - 1) && r.pauses == r.attempts - 1
    ensures r.verdict.Raised? ==>
      r.attempts > 0 && outcome(r.attempts - 1) == Threw(r.verdict.exc)
      && React(AsWrittenHandlers, r.verdict.exc) == None
      && RetriedBetween(AsWrittenHandlers, outcome, 0, r.attempts - 1) && r.pauses == r.attempts - 1
    ensures r.verdict == Ok(false) ==>
      r.attempts == Max(retries + 1, 0) && r.pauses == r.attempts
      && RetriedBetween(AsWrittenHandlers, outcome, 0, r.attempts)
  {
    TimeoutClauseIsDead();
    Classified(AsWrittenHandlers, outcome, retries)
  }

  /** The corrected loop, with the timeout clause tried first: a timeout ends the
      loop with False at once, without a pause; other failures behave as before. */
  function SafeClickTimeoutFirst(outcome: nat -> Attempt, retries: int): (r: ClickReport)
    ensures r.attempts <= Max(retries + 1, 0)
    ensures r.verdict == Ok(true) <==> r.attempts > 0 && outcome(r.attempts - 1) == Clicked
    ensures RetriedBetween(TimeoutFirstHandlers, outcome, 0, r.attempts - 1)
    ensures (r.attempts > 0 && outcome(r.attempts - 1).Threw?
             && IsSubclass(outcome(r.attempts - 1).exc, TimeoutException)) ==>
      r.verdict == Ok(false) && r.pauses == r.attempts - 1
    ensures 0 <= retries && outcome(0) == Threw(TimeoutException) ==> r == ClickReport(Ok(false), 1, 0)
  {
    TimeoutFirstStops(TimeoutException);
    forall e | IsSubclass(e, TimeoutException)
      ensures React(TimeoutFirstHandlers, e) == Some(GiveUp)
    {
      TimeoutFirstStops(e);
    }
    Classified(TimeoutFirstHandlers, outcome, retries)
  }

  /** A stale element on the first attempt followed by a successful click: True
      after exactly two attempts and one pause. */
  lemma OneStaleFaultIsAbsorbed(outcome: nat -> Attempt)
    requires outcome(0) == Threw(StaleElementReferenceException)
    requires outcome(1) == Clicked
    ensures SafeClick(outcome, DefaultRetries) == ClickReport(Ok(true), 2, 1)
  {
    WebDriverIsRetried(StaleElementReferenceException);
    assert StepOf(AsWrittenHandlers, outcome(0)) == Again;
  }

  /** When every attempt fails with a retried exception (timeouts included), the
      loop makes exactly retries + 1 attempts, pauses after each, and returns
      False. */
  lemma RetryBudgetIsExhausted(outcome: nat -> Attempt, retries: int)
    requires forall j: nat :: outcome(j).Threw? && IsSubclass(outcome(j).exc, WebDriverException)
    ensures SafeClick(outcome, retries) == ClickReport(Ok(false), Max(retries + 1, 0), Max(retries + 1, 0))
  {
    forall j: nat
      ensures StepOf(AsWrittenHandlers, outcome(j)) == Again
    {
      WebDriverIsRetried(outcome(j).exc);
    }
    AllRetriedExhausts(AsWrittenHandlers, outcome, retries);
  }

  /** The counterexample to the docstring: a click that only ever times out is
      tried three times under the default budget, where the timeout clause was
      meant to stop it after one. */
  lemma TimeoutIsRetriedAsWritten(outcome: nat -> Attempt)
    requires forall j: nat :: outcome(j) == Threw(TimeoutException)
    ensures SafeClick(outcome, DefaultRetries) == ClickReport(Ok(false), 3, 3)
    ensures SafeClickTimeoutFirst(outcome, DefaultRetries) == ClickReport(Ok(false), 1, 0)
  {
    RetryBudgetIsExhausted(outcome, DefaultRetries);
  }

  /** An exception that neither clause catches escapes after the attempt that
      raised it. */
  lemma UncaughtEscapes(outcome: nat -> Attempt, retries: int)
    requires 0 <= retries
    requires outcome(0).Threw? && !IsSubclass(outcome(0).exc, WebDriverException)
    ensures SafeClick(outcome, retries) == ClickReport(Raised(outcome(0).exc), 1, 0)
  {
    var e := outcome(0).exc;
    var cs := ClassesOf(AsWrittenHandlers);
    forall k, i | 0 <= k < 2 && 0 <= i < |cs[k]|
      ensures !IsSubclass(e, cs[k][i])
    {
      if IsSubclass(e, cs[k][i]) {
        SubclassTransitive(e, cs[k][i], WebDriverException);
      }
    }
    assert React(AsWrittenHandlers, e) == None;
  }

  // ---------- wait_and_click ----------

  /** `wait_and_click` as written: its `timeout` lands in `safe_click`'s `retries`
      slot and the boolean it returns is dropped. With no timeout, `attempt <= None`
      raises TypeError before any click. Every `Exception` goes to the failure
      handler, which attaches a screenshot and answers False. */
  function WaitAndClick(timeout: Option<int>, outcome: nat -> Attempt, capture: Result<seq<bv8>>, stamp: string): (r: Handled<ClickReport>)
    ensures timeout.None? ==> r.report.attempts == 0 && r.report.pauses == 0
    ensures timeout.None? ==> (r.report.verdict == Ok(false) <==> TakeScreenshot(capture).Ok?)
    ensures r.report.verdict == Ok(true) <==> timeout.Some? && SafeClick(outcome, timeout.value).verdict.Ok?
    ensures r.report.verdict == Ok(true) ==> r.attachments == []
    ensures timeout.Some? ==> r.report.attempts == SafeClick(outcome, timeout.value).attempts
    ensures r.report.verdict == Ok(false) ==> r.attachments == ShotOf(capture, ClickShotPrefix + stamp)
    ensures r.report.verdict.Raised? ==>
      r.attachments == []
      && (!IsSubclass(r.report.verdict.exc, Exception) || (capture.Raised? && r.report.verdict.exc == capture.exc))
  {
    var name := ClickShotPrefix + stamp;
    match timeout
    case None =>
      var h := HandleFailure(capture, name);
      Handled(ClickReport(h.report, 0, 0), h.attachments)
    case Some(t) =>
      var s := SafeClick(outcome, t);
      match s.verdict
      case Ok(_) => Handled(ClickReport(Ok(true), s.attempts, s.pauses), [])
      case Raised(e) =>
        if IsSubclass(e, Exception) then
          var h := HandleFailure(capture, name);
          Handled(ClickReport(h.report, s.attempts, s.pauses), h.attachments)
        else Handled(ClickReport(Raised(e), s.attempts, s.pauses), [])
  }

  /** The counterexample: a click that never succeeds is reported as True, with
      no screenshot taken. */
  lemma WaitAndClickIgnoresFailure(outcome: nat -> Attempt, t: int, capture: Result<seq<bv8>>, stamp: string)
    requires forall j: nat :: outcome(j) == Threw(StaleElementReferenceException)
    ensures WaitAndClick(Some(t), outcome, capture, stamp) == Handled(ClickReport(Ok(true), Max(t + 1, 0), Max(t + 1, 0)), [])
    ensures SafeClick(outcome, t).verdict == Ok(false)
  {
    RetryBudgetIsExhausted(outcome, t);
  }

  /** Without a timeout no click is tried; the handler's screenshot is attached and
      the answer is False, unless the capture itself raises a non-WebDriver
      `Exception`, which then escapes. */
  lemma NoTimeoutIsPhotographed(outcome: nat -> Attempt, png: seq<bv8>, stamp: string)
    requires png != []
    ensures WaitAndClick(None, outcome, Ok(png), stamp) ==
      Handled(ClickReport(Ok(false), 0, 0), [Attachment(ClickShotPrefix + stamp, png)])
    ensures WaitAndClick(None, outcome, Raised(OSError), stamp) == Handled(ClickReport(Raised(OSError), 0, 0), [])
  {
  }

  /** `wait_and_click` as intended: the timeout goes to the wait, the default budget
      of two retries applies, and the click's own verdict is returned; an
      `Exception` still goes to the failure handler. */
  function WaitAndClickIntended(outcome: nat -> Attempt, capture: Result<seq<bv8>>, stamp: string): (r: Handled<ClickReport>)
    ensures r.report.verdict == Ok(true) <==> r.report.attempts > 0 && outcome(r.report.attempts - 1) == Clicked
    ensures r.report.attempts <= DefaultRetries + 1
    ensures r.report.verdict == Ok(true) ==> r.attachments == []
    ensures r.attachments != [] ==>
      r.report.verdict == Ok(false) && r.attachments == ShotOf(capture, ClickShotPrefix + stamp)
    ensures r.report.verdict.Raised? ==>
      r.attachments == []
      && (!IsSubclass(r.report.verdict.exc, Exception) || (capture.Raised? && r.report.verdict.exc == capture.exc))
  {
    var s := SafeClickTimeoutFirst(outcome, DefaultRetries);
    match s.verdict
    case Ok(b) => Handled(s, [])
    case Raised(e) =>
      if IsSubclass(e, Exception) then
        var h := HandleFailure(capture, ClickShotPrefix + stamp);
        Handled(ClickReport(h.report, s.attempts, s.pauses), h.attachments)
      else Handled(ClickReport(Raised(e), s.attempts, s.pauses), [])
  }

  // ---------- find_all ----------

  /** Quarter-second ticks per second: the poll interval is one tick. */
  const TicksPerSecond: int := 4

  /** The driver's answer to one `find_elements` call. */
  datatype Poll = Elements(elems: seq<Element>) | PollRaised(exc: ExcClass)

  /** Result of the polling loop, the number of `find_elements` calls, and the clock
      (ticks since the deadline was set) when it returned. */
  datatype FindReport = FindReport(result: Result<seq<Element>>, polls: nat, elapsed: int)

  /** A poll that lets the loop continue: nothing found yet, or a swallowed
      WebDriverException. */
  predicate Swallowed(p: Poll) {
    (p.Elements? && p.elems == []) || (p.PollRaised? && IsSubclass(p.exc, WebDriverException))
  }

  ghost predicate SwallowedBetween(polls: nat -> Poll, lo: nat, hi: int) {
    forall j: nat :: lo <= j < hi ==> Swallowed(polls(j))
  }

  /** The `while time.time() < end` loop from poll k at clock `now`. Poll j takes
      cost(j) ticks and the sleep after it one tick. */
  function PollLoop(polls: nat -> Poll, cost: nat -> nat, deadline: int, k: nat, now: int): (r: FindReport)
    ensures k <= r.polls && now <= r.elapsed
    ensures r.polls - k <= Max(deadline - now, 0)
    ensures r.polls == k ==> r == FindReport(Ok([]), k, now)
    ensures r.result == Ok([]) ==>
      r.elapsed >= deadline && SwallowedBetween(polls, k, r.polls)
      && (r.polls > k ==> r.elapsed <= deadline + cost(r.polls - 1))
    ensures r.result.Ok? && r.result.value != [] ==>
      r.polls > k && polls(r.polls - 1) == Elements(r.result.value)
      && SwallowedBetween(polls, k, r.polls - 1) && r.elapsed < deadline + cost(r.polls - 1)
    ensures r.result.Raised? ==>
      r.polls > k && polls(r.polls - 1) == PollRaised(r.result.exc)
      && !IsSubclass(r.result.exc, WebDriverException) && SwallowedBetween(polls, k, r.polls - 1)
    decreases if now < deadline then deadline - now else 0
  {
    if now >= deadline then
      FindReport(Ok([]), k, now)
    else
      var after := now + cost(k);
      match polls(k)
      case Elements(es) =>
        if es != [] then FindReport(Ok(es), k + 1, after)
        else PollLoop(polls, cost, deadline, k + 1, after + 1)
      case PollRaised(e) =>
        if IsSubclass(e, WebDriverException) then PollLoop(polls, cost, deadline, k + 1, after + 1)
        else FindReport(Raised(e), k + 1, after)
  }

  /** `find_all` with an effective timeout in seconds: the first non-empty answer;
      `[]` only once the deadline has passed, and then at most one poll (and its
      pause) late; a non-positive timeout returns `[]` without asking the driver;
      exceptions other than WebDriverException escape. */
  function FindAll(polls: nat -> Poll, cost: nat -> nat, timeout: int): (r: FindReport)
    ensures timeout <= 0 ==> r == FindReport(Ok([]), 0, 0)
    ensures r.polls <= Max(timeout * TicksPerSecond, 0)
    ensures r.result == Ok([]) ==>
      r.elapsed >= timeout * TicksPerSecond && SwallowedBetween(polls, 0, r.polls)
      && (r.polls > 0 ==> r.elapsed <= timeout * TicksPerSecond + cost(r.polls - 1))
    ensures r.result.Ok? && r.result.value != [] ==>
      r.polls > 0 && polls(r.polls - 1) == Elements(r.result.value)
      && SwallowedBetween(polls, 0, r.polls - 1)
    ensures r.result.Raised? ==>
      r.polls > 0 && polls(r.polls - 1) == PollRaised(r.result.exc)
      && !IsSubclass(r.result.exc, WebDriverException)
  {
    PollLoop(polls, cost, timeout * TicksPerSecond, 0, 0)
  }

  /** Against a DOM that does not change while polling, `find_all` answers with what
      the DOM holds: the elements at the first poll, or `[]` at the deadline. */
  lemma {:induction false} SteadyDomFindAll(polls: nat -> Poll, cost: nat -> nat, timeout: int, es: seq<Element>)
    requires forall j: nat :: polls(j) == Elements(es)
    requires timeout > 0
    ensures FindAll(polls, cost, timeout).result == Ok(es)
    ensures es != [] ==> FindAll(polls, cost, timeout).polls == 1
  {
    SteadyDomLoop(polls, cost, timeout * TicksPerSecond, 0, 0, es);
  }

  lemma {:induction false} SteadyDomLoop(polls: nat -> Poll, cost: nat -> nat, deadline: int, k: nat, now: int, es: seq<Element>)
    requires forall j: nat :: polls(j) == Elements(es)
    requires now < deadline || es == []
    ensures PollLoop(polls, cost, deadline, k, now).result == Ok(es)
    ensures es != [] ==> PollLoop(polls, cost, deadline, k, now).polls == k + 1
    decreases if now < deadline then deadline - now else 0
  {
    if now < deadline && es == [] {
      SteadyDomLoop(polls, cost, deadline, k + 1, now + cost(k) + 1, es);
    }
  }
}

=== FILE: category_sidebar.dfy ===
/** The left sidebar of categories: link locators built from a name, the title
    check after choosing a sub-category, and the clicks that expand and choose. */
module CategorySidebar {
  import opened Wrappers
  import opened Exceptions
  import Ascii
  import opened PageKit

  const CategoryList := Locator(XPath, "//div[@id='accordian']")
  const LblCategoryTitle := Locator(XPath, "//h2[@class='title text-center']")

  /** The link whose normalised text is `name`, embedded verbatim. */
  function LinkByText(name: string): (l: Locator)
    ensures l.strategy == XPath
    ensures l.value == "//a[normalize-space()='" + name + "']"
  {
    Locator(XPath, "//a[normalize-space()='" + name + "']")
  }

  /** `_category`. */
  function Category(name: string): (l: Locator)
    ensures l == LinkByText(name)
  {
    LinkByText(name)
  }

  /** `_sub_category`. */
  function SubCategory(name: string): (l: Locator)
    ensures l == LinkByText(name)
  {
    LinkByText(name)
  }

  /** The two generators cannot be told apart, and different names give
      different locators. */
  lemma GeneratorsCoincide(a: string, b: string)
    ensures Category(a) == SubCategory(a)
    ensures Category(a) == Category(b) <==> a == b
  {
    if Category(a) == Category(b) {
      var p := "//a[normalize-space()='";
      assert a == Category(a).value[|p|..|Category(a).value| - 2];
      assert b == Category(b).value[|p|..|Category(b).value| - 2];
    }
  }

  /** `is_visible`. */
  function IsVisible(d: Dom): (r: Run<bool>)
    ensures r == Run([Check(CategoryList)], Ok(CategoryList in d.visible))
  {
    IsDisplayed(d, CategoryList)
  }

  /** The title the page shows for a category and sub-category. */
  function ExpectedTitle(category: string, sub: string): (t: string)
    ensures |t| == |category| + |sub| + 12
    ensures t[..|category|] == Ascii.Upper(category)
  {
    Ascii.Upper(category) + " - " + Ascii.Upper(sub) + " PRODUCTS"
  }

  /** `get_category_title`. */
  function GetCategoryTitle(d: Dom): (r: Run<string>)
    ensures r.result.Ok? <==> LblCategoryTitle in d.visible
    ensures r.result.Ok? && TextOf(d, LblCategoryTitle).Some? ==>
      Ascii.TrimOf(TextOf(d, LblCategoryTitle).value, r.result.value)
  {
    GetText(d, LblCategoryTitle)
  }

  /** `is_category_page_for`: True exactly when the upper-cased expected title
      occurs in the page title; the title itself is not case-folded. A missing
      title raises TimeoutException. */
  function IsCategoryPageFor(d: Dom, category: string, sub: string): (r: Run<bool>)
    ensures r.result.Ok? <==> LblCategoryTitle in d.visible
    ensures r.result.Ok? ==>
      (r.result.value <==> exists i :: Ascii.OccursAt(GetCategoryTitle(d).result.value, ExpectedTitle(category, sub), i))
    ensures r.trace == GetCategoryTitle(d).trace
    ensures NoClicks(r.trace)
  {
    var t := GetCategoryTitle(d);
    match t.result
    case Ok(actual) => Run(t.trace, Ok(Ascii.Contains(actual, ExpectedTitle(category, sub))))
    case Raised(e) => Run(t.trace, Raised(e))
  }

  /** The match is case-sensitive on the page side: a title in lower case never
      matches a category with a letter in it. */
  lemma LowerCaseTitleNeverMatches(d: Dom, category: string, sub: string, k: nat)
    requires LblCategoryTitle in d.visible
    requires forall i :: 0 <= i < |GetCategoryTitle(d).result.value| ==> !Ascii.IsUpperChar(GetCategoryTitle(d).result.value[i])
    requires k < |category| && Ascii.IsLowerChar(category[k])
    ensures IsCategoryPageFor(d, category, sub).result == Ok(false)
  {
    var actual := GetCategoryTitle(d).result.value;
    var expected := ExpectedTitle(category, sub);
    assert expected[k] == Ascii.Upper(category)[k] == Ascii.UpperChar(category[k]);
    assert Ascii.IsUpperChar(expected[k]);
    forall i | 0 <= i && i + |expected| <= |actual|
      ensures !Ascii.OccursAt(actual, expected, i)
    {
      assert actual[i + k] != expected[k];
    }
  }

  /** `expand_category`: one click, on the generated link. */
  function ExpandCategory(d: Dom, category: string): (r: Run<()>)
    ensures r.result.Ok? <==> Category(category) in d.visible
    ensures r.result.Ok? ==> r.trace == [Click(Category(category))]
    ensures r.result.Raised? ==> r.trace == [] && r.result.exc == TimeoutException
  {
    ClickOn(d, Category(category))
  }

  /** `click_sub_category`: one click, on the generated link. */
  function ClickSubCategory(d: Dom, sub: string): (r: Run<()>)
    ensures r.result.Ok? <==> SubCategory(sub) in d.visible
    ensures r.result.Ok? ==> r.trace == [Click(SubCategory(sub))]
    ensures r.result.Raised? ==> r.trace == [] && r.result.exc == TimeoutException
  {
    ClickOn(d, SubCategory(sub))
  }
}

=== FILE: checkout_page.dfy ===
/** `CheckoutPage`: the address and review checks, the order description, and
    placing the order. */
module CheckoutPage {
  import opened Exceptions
  import BasePage
  import opened PageKit

  const LblDeliveryAddress := Locator(XPath, "//h3[normalize-space()='Your delivery address']")
  const LblBillingAddress := Locator(XPath, "//h3[normalize-space()='Your billing address']")
  const AddressBlock := Locator(CssSelector, "ul.address")
  const LblReviewOrder := Locator(XPath, "//h2[normalize-space()='Review Your Order']")
  const RowOrderItems := Locator(XPath, "//tr[contains(@id,'product')]")
  const InputDescription := Locator(XPath, "//textarea[@name='message']")
  const BtnPlaceOrder := Locator(XPath, "//a[normalize-space()='Place Order']")

  /** The chain of `is_address_details_visible`: both headings shown, and at least
      two address blocks. */
  const AddressConds: seq<Cond> := [Displayed(LblDeliveryAddress), Displayed(LblBillingAddress), AtLeast(AddressBlock, 2)]

  /** The chain of `is_review_order_visible`: the heading shown, and at least one
      order row (`> 0`). */
  const ReviewConds: seq<Cond> := [Displayed(LblReviewOrder), AtLeast(RowOrderItems, 1)]

  predicate AddressShown(d: Dom) {
    LblDeliveryAddress in d.visible && LblBillingAddress in d.visible && |ListOf(d, AddressBlock)| >= 2
  }

  predicate ReviewShown(d: Dom) {
    LblReviewOrder in d.visible && |ListOf(d, RowOrderItems)| > 0
  }

  lemma AddressCondsMean(d: Dom)
    ensures AllHold(d, AddressConds) <==> AddressShown(d)
  {
    assert Holds(d, AddressConds[0]) <==> LblDeliveryAddress in d.visible;
    assert Holds(d, AddressConds[1]) <==> LblBillingAddress in d.visible;
    assert Holds(d, AddressConds[2]) <==> |ListOf(d, AddressBlock)| >= 2;
  }

  lemma ReviewCondsMean(d: Dom)
    ensures AllHold(d, ReviewConds) <==> ReviewShown(d)
  {
    assert Holds(d, ReviewConds[0]) <==> LblReviewOrder in d.visible;
    assert Holds(d, ReviewConds[1]) <==> |ListOf(d, RowOrderItems)| >= 1;
  }

  /** `is_address_details_visible`: never raises; checks stop at the first
      false one, so a missing delivery heading is the only thing probed. */
  function IsAddressDetailsVisible(d: Dom): (r: Run<bool>)
    ensures r.result == Ok(AddressShown(d))
    ensures NoEffects(r.trace) && 1 <= |r.trace| <= 3
    ensures LblDeliveryAddress !in d.visible ==> r.trace == [Check(LblDeliveryAddress)]
    ensures AddressShown(d) ==>
      r.trace == [Check(LblDeliveryAddress), Check(LblBillingAddress), Collect(AddressBlock)]
  {
    AddressCondsMean(d);
    var r := AllOf(d, AddressConds);
    assert r.trace[0] == ProbeOf(AddressConds[0]);
    assert AddressShown(d) ==>
      (|r.trace| == 3 && r.trace[1] == ProbeOf(AddressConds[1]) && r.trace[2] == ProbeOf(AddressConds[2]));
    r
  }

  /** `is_review_order_visible`. */
  function IsReviewOrderVisible(d: Dom): (r: Run<bool>)
    ensures r.result == Ok(ReviewShown(d))
    ensures NoEffects(r.trace) && 1 <= |r.trace| <= 2
    ensures LblReviewOrder !in d.visible ==> r.trace == [Check(LblReviewOrder)]
  {
    ReviewCondsMean(d);
    var r := AllOf(d, ReviewConds);
    assert r.trace[0] == ProbeOf(ReviewConds[0]);
    r
  }

  /** `is_checkout_page_valid`: both sections; the review section is not looked
      at when the address section fails. */
  function IsCheckoutPageValid(d: Dom): (r: Run<bool>)
    ensures r.result == Ok(AddressShown(d) && ReviewShown(d))
    ensures !AddressShown(d) ==> r == IsAddressDetailsVisible(d)
    ensures AddressShown(d) ==> r.trace == IsAddressDetailsVisible(d).trace + IsReviewOrderVisible(d).trace
    ensures NoEffects(r.trace)
  {
    AndThen(IsAddressDetailsVisible(d), IsReviewOrderVisible(d))
  }

  /** The validity check changes nothing on the page. */
  lemma ValidityCheckIsPure(d: Dom)
    ensures Apply(d, IsCheckoutPageValid(d).trace) == d
  {
    var t := IsCheckoutPageValid(d).trace;
    assert NoClicks(t) by {
      forall i | 0 <= i < |t|
        ensures !IsClick(t[i])
      {
        assert !IsEffect(t[i]);
      }
    }
  }

  /** `enter_description`: clears the field, then types the message. */
  function EnterDescription(d: Dom, message: string): (r: Run<()>)
    ensures r.result.Ok? <==> InputDescription in d.visible
    ensures r.result.Ok? ==> r.trace == [Type(InputDescription, message, true)]
    ensures r.result.Raised? ==> r.trace == [] && r.result.exc == TimeoutException
  {
    SendKeys(d, InputDescription, message, true)
  }

  /** `place_order`: click Place Order, then a payment page on the same driver. */
  function PlaceOrder(d: Dom, driver: nat): (r: Run<PageObject>)
    ensures r.result.Ok? <==> BtnPlaceOrder in d.visible
    ensures r.result.Ok? ==> r.trace == [Click(BtnPlaceOrder)]
    ensures r.result.Ok? ==> r.result.value == Construct(Payment, driver)
    ensures r.result.Raised? ==> r.trace == [] && r.result.exc == TimeoutException
  {
    Then(ClickOn(d, BtnPlaceOrder), Return(Construct(Payment, driver)))
  }
}

=== FILE: config_reader.dfy ===
/** `ConfigReader`: choosing the environment, and layering the environment's YAML
    mapping over the base one. A YAML document is a tree of mappings whose leaves
    are kept as opaque scalars. */
module ConfigReader {
  import opened Wrappers
  import opened Exceptions
  import Ascii

  /** A YAML value: a mapping, or anything else (kept as its text). */
  datatype Value = Dict(entries: map<string, Value>) | Scalar(text: string)

  type Config = map<string, Value>

  // ---------- _merge_dicts ----------

  /** The inputs on which `_merge_dicts` does not crash: wherever the override
      holds a mapping under a key the base also has, the base holds a mapping
      there too, recursively. */
  predicate Compatible(b: Config, o: Config)
    decreases Dict(o)
  {
    forall k :: k in o && k in b && o[k].Dict? ==>
      b[k].Dict? && Compatible(b[k].entries, o[k].entries)
  }

  /** `_merge_dicts(base, override)`: a copy of `base` in which each override key
      is set to its override value, except that a mapping meeting a base entry
      under the same key is merged into it recursively. */
  function Merge(b: Config, o: Config): (r: Config)
    requires Compatible(b, o)
    ensures r.Keys == b.Keys + o.Keys
    ensures forall k :: k in b && k !in o ==> r[k] == b[k]
    ensures forall k :: k in o && (o[k].Scalar? || k !in b) ==> r[k] == o[k]
    ensures forall k :: k in o && k in b && o[k].Dict? ==>
      r[k].Dict? && r[k].entries.Keys == b[k].entries.Keys + o[k].entries.Keys
    decreases Dict(o)
  {
    map k | k in b.Keys + o.Keys ::
      if k in o then
        (if o[k].Dict? && k in b then Dict(Merge(b[k].entries, o[k].entries)) else o[k])
      else b[k]
  }

  /** Merging in an empty override gives back the base. */
  lemma MergeRightIdentity(b: Config)
    ensures Compatible(b, map[])
    ensures Merge(b, map[]) == b
  {
  }

  /** Merging into an empty base gives back the override. */
  lemma MergeLeftIdentity(o: Config)
    ensures Compatible(map[], o)
    ensures Merge(map[], o) == o
  {
  }

  /** Every mapping is compatible with itself. */
  lemma {:induction false} SelfCompatible(c: Config)
    ensures Compatible(c, c)
    decreases Dict(c)
  {
    forall k | k in c && c[k].Dict?
      ensures Compatible(c[k].entries, c[k].entries)
    {
      SelfCompatible(c[k].entries);
    }
  }

  /** Merging a mapping into itself changes nothing. */
  lemma {:induction false} MergeIdempotent(c: Config)
    ensures Compatible(c, c)
    ensures Merge(c, c) == c
    decreases Dict(c)
  {
    SelfCompatible(c);
    forall k | k in c && c[k].Dict?
      ensures Merge(c[k].entries, c[k].entries) == c[k].entries
    {
      MergeIdempotent(c[k].entries);
    }
    assert forall k | k in c :: Merge(c, c)[k] == c[k];
  }

  // ---------- paths into a configuration ----------

  /** The value at a key path, if every step but the last goes through a mapping. */
  function Lookup(c: Config, path: seq<string>): (v: Option<Value>)
    requires path != []
    ensures v.Some? ==> path[0] in c
    decreases |path|
  {
    if path[0] !in c then None
    else if |path| == 1 then Some(c[path[0]])
    else if c[path[0]].Dict? then Lookup(c[path[0]].entries, path[1..])
    else None
  }

  /** The override says nothing at or above `path`: the first key of the path is
      missing from it, or every prefix reaches a mapping that lacks the next key. */
  predicate Untouched(o: Config, path: seq<string>)
    requires path != []
    decreases |path|
  {
    path[0] !in o
    || (|path| > 1 && o[path[0]].Dict? && Untouched(o[path[0]].entries, path[1..]))
  }

  /** A scalar the override sets at a path is what the merge holds there. */
  lemma {:induction false} OverrideScalarWins(b: Config, o: Config, path: seq<string>, s: string)
    requires Compatible(b, o)
    requires path != [] && Lookup(o, path) == Some(Scalar(s))
    ensures Lookup(Merge(b, o), path) == Some(Scalar(s))
    decreases |path|
  {
    var k := path[0];
    if |path| > 1 && k in b {
      OverrideScalarWins(b[k].entries, o[k].entries, path[1..], s);
    }
  }

  /** A value the base holds at a path the override does not touch survives the
      merge, at any depth. */
  lemma {:induction false} BaseValueSurvives(b: Config, o: Config, path: seq<string>, v: Value)
    requires Compatible(b, o)
    requires path != [] && Lookup(b, path) == Some(v) && Untouched(o, path)
    ensures Lookup(Merge(b, o), path) == Some(v)
    decreases |path|
  {
    var k := path[0];
    if k in o {
      BaseValueSurvives(b[k].entries, o[k].entries, path[1..], v);
    }
  }

  /** Any value the override holds at a path is what the merge holds there,
      unless both sides hold a mapping at that path. */
  lemma {:induction false} OverrideWins(b: Config, o: Config, path: seq<string>, v: Value)
    requires Compatible(b, o)
    requires path != [] && Lookup(o, path) == Some(v)
    requires v.Scalar? || Lookup(b, path).None?
    ensures Lookup(Merge(b, o), path) == Some(v)
    decreases |path|
  {
    var k := path[0];
    if |path| > 1 && k in b {
      OverrideWins(b[k].entries, o[k].entries, path[1..], v);
    }
  }

  /** Where both sides hold a mapping at the same path, at any depth, the merge
      holds the recursive merge of the two. */
  lemma {:induction false} NestedMappingsMerge(b: Config, o: Config, path: seq<string>, be: Config, oe: Config)
    requires Compatible(b, o)
    requires path != [] && Lookup(b, path) == Some(Dict(be)) && Lookup(o, path) == Some(Dict(oe))
    ensures Compatible(be, oe)
    ensures Lookup(Merge(b, o), path) == Some(Dict(Merge(be, oe)))
    decreases |path|
  {
    var k := path[0];
    if |path| > 1 {
      NestedMappingsMerge(b[k].entries, o[k].entries, path[1..], be, oe);
    }
  }

  /** The merge invents nothing: every path it resolves resolves in the base or
      in the override. */
  lemma {:induction false} NothingInvented(b: Config, o: Config, path: seq<string>)
    requires Compatible(b, o)
    requires path != [] && Lookup(Merge(b, o), path).Some?
    ensures Lookup(b, path).Some? || Lookup(o, path).Some?
    decreases |path|
  {
    var k := path[0];
    if |path| > 1 && k in o && k in b && o[k].Dict? {
      NothingInvented(b[k].entries, o[k].entries, path[1..]);
    }
  }

  // ---------- _get_env ----------

  /** The position of the first occurrence of `x` in `xs`, or |xs| (Python's
      `list.index`, with `in` checked first). */
  function IndexOf(xs: seq<string>, x: string): (i: nat)
    ensures i <= |xs|
    ensures i < |xs| ==> xs[i] == x
    ensures forall j :: 0 <= j < i ==> xs[j] != x
  {
    if xs == [] then 0 else if xs[0] == x then 0 else 1 + IndexOf(xs[1..], x)
  }

  /** `_get_env`: the word after the first `--env` on the command line, else the
      non-empty TEST_ENV variable, else "dev"; lower-cased. */
  function GetEnv(argv: seq<string>, testEnv: Option<string>): (env: string)
    ensures IndexOf(argv, "--env") + 1 < |argv| ==> env == Ascii.Lower(argv[IndexOf(argv, "--env") + 1])
    ensures IndexOf(argv, "--env") + 1 >= |argv| && testEnv.Some? && testEnv.value != "" ==>
      env == Ascii.Lower(testEnv.value)
    ensures IndexOf(argv, "--env") + 1 >= |argv| && (testEnv.None? || testEnv.value == "") ==>
      env == "dev"
  {
    var idx := IndexOf(argv, "--env") + 1;
    if idx < |argv| then Ascii.Lower(argv[idx])
    else if testEnv.Some? && testEnv.value != "" then Ascii.Lower(testEnv.value)
    else "dev"
  }

  /** The chosen environment never holds an upper-case ASCII letter. */
  lemma EnvIsLowerCase(argv: seq<string>, testEnv: Option<string>)
    ensures forall i :: 0 <= i < |GetEnv(argv, testEnv)| ==> !Ascii.IsUpperChar(GetEnv(argv, testEnv)[i])
  {
  }

  /** A command-line `--env` followed by a word decides, whatever TEST_ENV says;
      a later `--env` is ignored. */
  lemma CommandLineWins(pre: seq<string>, word: string, post: seq<string>, e1: Option<string>, e2: Option<string>)
    requires "--env" !in pre
    ensures GetEnv(pre + ["--env", word] + post, e1) == GetEnv(pre + ["--env", word] + post, e2)
    ensures GetEnv(pre + ["--env", word] + post, e1) == Ascii.Lower(word)
  {
    var argv := pre + ["--env", word] + post;
    assert argv[|pre|] == "--env" && argv[|pre| + 1] == word;
    IndexOfFirst(argv, |pre|, "--env");
  }

  lemma IndexOfFirst(xs: seq<string>, i: nat, x: string)
    requires i < |xs| && xs[i] == x
    requires forall j :: 0 <= j < i ==> xs[j] != x
    ensures IndexOf(xs, x) == i
  {
    var n := IndexOf(xs, x);
    assert !(n < i);
  }

  /** `--env=staging` is a single word and not `--env`: it selects nothing, so the
      environment falls back to TEST_ENV or "dev". The pytest fixture in
      tests/conftest.py copies its own parsed `--env` into TEST_ENV first, so only
      a reader built outside that fixture sees "dev". */
  lemma EqualsFormIsIgnored()
    ensures GetEnv(["pytest", "--env=staging"], None) == "dev"
  {
    assert IndexOf(["pytest", "--env=staging"], "--env") == 2;
  }

  /** A single-word `--env=NAME` flag. */
  predicate IsEqualsForm(a: string) {
    |a| >= 6 && a[..6] == "--env="
  }

  /** The position of the first `--env` or `--env=NAME` word, or |argv|. */
  function FirstEnvFlag(argv: seq<string>): (i: nat)
    ensures i <= |argv|
    ensures i < |argv| ==> argv[i] == "--env" || IsEqualsForm(argv[i])
    ensures forall j :: 0 <= j < i ==> argv[j] != "--env" && !IsEqualsForm(argv[j])
  {
    if argv == [] then 0
    else if argv[0] == "--env" || IsEqualsForm(argv[0]) then 0
    else 1 + FirstEnvFlag(argv[1..])
  }

  /** `_get_env` as the module's documentation describes it: the first `--env`
      flag decides, written either as `--env NAME` or as `--env=NAME`. */
  function GetEnvIntended(argv: seq<string>, testEnv: Option<string>): (env: string)
    ensures forall i :: 0 <= i < |env| ==> !Ascii.IsUpperChar(env[i])
  {
    var i := FirstEnvFlag(argv);
    if i < |argv| && IsEqualsForm(argv[i]) then Ascii.Lower(argv[i][6..])
    else if i + 1 < |argv| then Ascii.Lower(argv[i + 1])
    else if testEnv.Some? && testEnv.value != "" then Ascii.Lower(testEnv.value)
    else "dev"
  }

  /** The corrected reading honours the documented `--env=staging`. */
  lemma EqualsFormIsHonoured(e: Option<string>)
    ensures GetEnvIntended(["pytest", "--env=staging"], e) == "staging"
  {
    var argv := ["pytest", "--env=staging"];
    var flag := "--env=" + "staging";
    assert argv[1] == flag && flag[..6] == "--env=" && flag[6..] == "staging";
    assert !IsEqualsForm(argv[0]) by { assert argv[0][..6][0] == 'p' != "--env="[0]; }
    assert FirstEnvFlag(argv) == 1;
  }

  /** Under the corrected reading, the first flag written `--env=NAME` selects
      NAME, whatever follows it and whatever TEST_ENV holds. */
  lemma EqualsFormSelects(pre: seq<string>, name: string, post: seq<string>, e: Option<string>)
    requires forall j :: 0 <= j < |pre| ==> pre[j] != "--env" && !IsEqualsForm(pre[j])
    ensures GetEnvIntended(pre + ["--env=" + name] + post, e) == Ascii.Lower(name)
  {
    var argv := pre + ["--env=" + name] + post;
    var flag := "--env=" + name;
    assert argv[|pre|] == flag && flag[..6] == "--env=" && flag[6..] == name;
    FirstEnvFlagIs(argv, |pre|);
  }

  /** The corrected reading keeps the written one's `--env NAME` form: the first
      flag written that way selects the word after it. */
  lemma SpaceFormSelects(pre: seq<string>, word: string, post: seq<string>, e: Option<string>)
    requires forall j :: 0 <= j < |pre| ==> pre[j] != "--env" && !IsEqualsForm(pre[j])
    ensures GetEnvIntended(pre + ["--env", word] + post, e) == Ascii.Lower(word)
  {
    var argv := pre + ["--env", word] + post;
    assert argv[|pre|] == "--env" && argv[|pre| + 1] == word;
    assert !IsEqualsForm("--env");
    FirstEnvFlagIs(argv, |pre|);
  }

  lemma FirstEnvFlagIs(xs: seq<string>, i: nat)
    requires i < |xs| && (xs[i] == "--env" || IsEqualsForm(xs[i]))
    requires forall j :: 0 <= j < i ==> xs[j] != "--env" && !IsEqualsForm(xs[j])
    ensures FirstEnvFlag(xs) == i
  {
    var n := FirstEnvFlag(xs);
    assert !(n < i);
  }

  /** Without an `--env=NAME` word the corrected reading is the one written. */
  lemma IntendedAgreesWithoutEqualsForm(argv: seq<string>, testEnv: Option<string>)
    requires forall j :: 0 <= j < |argv| ==> !IsEqualsForm(argv[j])
    ensures GetEnvIntended(argv, testEnv) == GetEnv(argv, testEnv)
  {
    var i := FirstEnvFlag(argv);
    if i < |argv| {
      IndexOfFirst(argv, i, "--env");
    } else {
      var n := IndexOf(argv, "--env");
      assert !(n < |argv|);
    }
  }

  // ---------- get_config ----------

  const BaseConfigPath: string := "src/configs/config.yaml"
  const EnvConfigFolder: string := "src/configs/"

  /** `os.path.join(ENV_CONFIG_FOLDER, f"{env}.yaml")`: an absolute file name
      replaces the folder. */
  function EnvConfigPath(env: string): (p: string)
    ensures env != [] && env[0] == '/' ==> p == env + ".yaml"
    ensures (env == [] || env[0] != '/') ==> p == EnvConfigFolder + env + ".yaml"
  {
    if env != [] && env[0] == '/' then env + ".yaml" else EnvConfigFolder + env + ".yaml"
  }

  /** `_load_yaml`: an empty document loads as an empty mapping. */
  function LoadYaml(doc: Option<Config>): (c: Config)
    ensures doc.Some? ==> c == doc.value
    ensures doc.None? ==> c == map[]
  {
    doc.GetOr(map[])
  }

  /** The files present, by path, with their parsed documents. */
  type Files = map<string, Option<Config>>

  /** `get_config`: the base file merged with the environment's file when that file
      exists, the base alone otherwise; opening a missing base file raises
      FileNotFoundError. */
  function GetConfig(files: Files, env: string): (r: Result<Config>)
    requires BaseConfigPath in files && EnvConfigPath(env) in files ==>
      Compatible(LoadYaml(files[BaseConfigPath]), LoadYaml(files[EnvConfigPath(env)]))
    ensures r.Raised? <==> BaseConfigPath !in files
    ensures r.Raised? ==> r.exc == FileNotFoundError
    ensures r.Ok? && EnvConfigPath(env) !in files ==> r.value == LoadYaml(files[BaseConfigPath])
    ensures r.Ok? && EnvConfigPath(env) in files ==>
      r.value == Merge(LoadYaml(files[BaseConfigPath]), LoadYaml(files[EnvConfigPath(env)]))
  {
    if BaseConfigPath !in files then Raised(FileNotFoundError)
    else
      var base := LoadYaml(files[BaseConfigPath]);
      var path := EnvConfigPath(env);
      Ok(if path in files then Merge(base, LoadYaml(files[path])) else base)
  }

  /** A scalar the environment file sets at a key path is the configuration's
      value there, whatever the base file says. */
  lemma EnvFileDecides(files: Files, env: string, path: seq<string>, s: string)
    requires BaseConfigPath in files && EnvConfigPath(env) in files
    requires Compatible(LoadYaml(files[BaseConfigPath]), LoadYaml(files[EnvConfigPath(env)]))
    requires path != [] && Lookup(LoadYaml(files[EnvConfigPath(env)]), path) == Some(Scalar(s))
    ensures GetConfig(files, env).Ok?
    ensures Lookup(GetConfig(files, env).value, path) == Some(Scalar(s))
  {
    OverrideScalarWins(LoadYaml(files[BaseConfigPath]), LoadYaml(files[EnvConfigPath(env)]), path, s);
  }

  /** An environment file that is present but empty leaves the base unchanged,
      just as a missing one does. */
  lemma EmptyEnvFileGivesBase(files: Files, env: string)
    requires BaseConfigPath in files
    requires EnvConfigPath(env) in files && files[EnvConfigPath(env)] == None
    ensures Compatible(LoadYaml(files[BaseConfigPath]), LoadYaml(files[EnvConfigPath(env)]))
    ensures GetConfig(files, env) == Ok(LoadYaml(files[BaseConfigPath]))
  {
    MergeRightIdentity(LoadYaml(files[BaseConfigPath]));
  }
}

=== FILE: contact_us_page.dfy ===
/** `ContactUsPage`: the contact form, its attachment upload and the way back
    home. */
module ContactUsPage {
  import opened Exceptions
  import Ascii
  import opened PageKit

  const LblGetInTouch := Locator(XPath, "//h2[normalize-space()='Get In Touch']")
  const BtnUploadFile := Locator(CssSelector, "input[name='upload_file']")
  const BtnSubmit := Locator(CssSelector, "input[value='Submit']")
  const MsgSuccessSubmitted := Locator(XPath, "//div[@class='status alert alert-success']")
  const BtnHome := Locator(CssSelector, ".btn.btn-success")

  /** The text inputs of the form, one per `enter_*` method. */
  datatype Field = Name | Email | Subject | Message

  function FieldLocator(f: Field): Locator {
    match f
    case Name => Locator(CssSelector, "input[placeholder='Name']")
    case Email => Locator(CssSelector, "input[placeholder='Email']")
    case Subject => Locator(CssSelector, "input[placeholder='Subject']")
    case Message => Locator(Id, "message")
  }

  /** Each `enter_*` method types into its own input, and none of them is a
      button of the form. */
  lemma FieldsAreDistinct(f: Field, g: Field)
    ensures FieldLocator(f) == FieldLocator(g) <==> f == g
    ensures FieldLocator(f) != BtnSubmit && FieldLocator(f) != BtnUploadFile
  {
  }

  /** `get_get_in_touch_message`. */
  function GetGetInTouchMessage(d: Dom): (r: Run<string>)
    ensures r.result.Ok? <==> LblGetInTouch in d.visible
    ensures r.result.Ok? && TextOf(d, LblGetInTouch).Some? ==>
      Ascii.TrimOf(TextOf(d, LblGetInTouch).value, r.result.value)
    ensures r.result.Raised? ==> r.result.exc == TimeoutException
    ensures NoEffects(r.trace)
  {
    GetText(d, LblGetInTouch)
  }

  /** `enter_name`, `enter_email`, `enter_subject`, `enter_message`: the
      `send_keys` default clears the field first. */
  function EnterField(d: Dom, f: Field, text: string): (r: Run<()>)
    ensures r.result.Ok? <==> FieldLocator(f) in d.visible
    ensures r.result.Ok? ==> r.trace == [Type(FieldLocator(f), text, true)]
    ensures r.result.Raised? ==> r.trace == [] && r.result.exc == TimeoutException
  {
    SendKeys(d, FieldLocator(f), text, true)
  }

  /** `upload_attachment`: one call to the undefined `upload_file` with the file
      input and the path, unchanged. */
  function UploadAttachment(d: Dom, path: string): (r: Run<()>)
    ensures r.trace == [Delegate(UploadFile(BtnUploadFile, path))]
    ensures r.result.Ok?
  {
    Delegated(d, UploadFile(BtnUploadFile, path))
  }

  /** `click_submit`. */
  function ClickSubmit(d: Dom): (r: Run<()>)
    ensures r.result.Ok? <==> BtnSubmit in d.visible
    ensures r.result.Ok? ==> r.trace == [Click(BtnSubmit)]
    ensures r.result.Raised? ==> r.trace == [] && r.result.exc == TimeoutException
  {
    ClickOn(d, BtnSubmit)
  }

  /** `get_success_submitted_message`. */
  function GetSuccessSubmittedMessage(d: Dom): (r: Run<string>)
    ensures r.result.Ok? <==> MsgSuccessSubmitted in d.visible
    ensures r.result.Ok? && TextOf(d, MsgSuccessSubmitted).Some? ==>
      Ascii.TrimOf(TextOf(d, MsgSuccessSubmitted).value, r.result.value)
    ensures r.result.Raised? ==> r.result.exc == TimeoutException
  {
    GetText(d, MsgSuccessSubmitted)
  }

  /** `click_home`: one click on the Home button, then a guest page (not a
      logged-in home page) on the same driver. */
  function ClickHome(d: Dom, driver: nat): (r: Run<PageObject>)
    ensures r.result.Ok? <==> BtnHome in d.visible
    ensures r.result.Ok? ==> r.trace == [Click(BtnHome)] && r.result.value == Construct(Guest, driver)
    ensures r.result.Raised? ==> r.trace == [] && r.result.exc == TimeoutException
  {
    ThenPage(ClickOn(d, BtnHome), Guest, driver)
  }
}

=== FILE: exceptions.dfy ===
/** The Python and Selenium exception classes that the page-object layer raises or
    catches, with the subclass relation written out. A raised exception is identified
    by its class; `except` clauses are matched in source order. */
module Exceptions {
  import opened Wrappers

  datatype ExcClass =
    | BaseException
    | KeyboardInterrupt
    | Exception
    | AssertionError
    | NameError
    | TypeError
    | AttributeError
    | OSError
    | FileNotFoundError
    | WebDriverException
    | TimeoutException
    | StaleElementReferenceException
    | ElementClickInterceptedException
    | NoSuchElementException
    | InvalidElementStateException
    | ElementNotInteractableException

  /** Either a returned value or the class of the exception that escaped. */
  datatype Result<+T> = Ok(value: T) | Raised(exc: ExcClass)

  /** Distance from the root of the hierarchy. */
  function Depth(c: ExcClass): nat {
    match c
    case BaseException => 0
    case KeyboardInterrupt | Exception => 1
    case AssertionError | NameError | TypeError | AttributeError | OSError | WebDriverException => 2
    case FileNotFoundError => 3
    case TimeoutException | StaleElementReferenceException | ElementClickInterceptedException
      | NoSuchElementException | InvalidElementStateException => 3
    case ElementNotInteractableException => 4
  }

  /** The direct base class, as Python and Selenium declare it. */
  function Parent(c: ExcClass): (p: Option<ExcClass>)
    ensures p.None? <==> c == BaseException
    ensures p.Some? ==> Depth(p.value) + 1 == Depth(c)
  {
    match c
    case BaseException => None
    case KeyboardInterrupt | Exception => Some(BaseException)
    case AssertionError | NameError | TypeError | AttributeError | OSError | WebDriverException => Some(Exception)
    case FileNotFoundError => Some(OSError)
    case TimeoutException | StaleElementReferenceException | ElementClickInterceptedException
      | NoSuchElementException | InvalidElementStateException => Some(WebDriverException)
    case ElementNotInteractableException => Some(InvalidElementStateException)
  }

  /** `issubclass(c, d)`: d is c itself or one of its ancestors. */
  predicate IsSubclass(c: ExcClass, d: ExcClass)
    decreases Depth(c)
  {
    c == d || (Parent(c).Some? && IsSubclass(Parent(c).value, d))
  }

  lemma {:induction false} SubclassTransitive(a: ExcClass, b: ExcClass, c: ExcClass)
    requires IsSubclass(a, b) && IsSubclass(b, c)
    ensures IsSubclass(a, c)
    decreases Depth(a)
  {
    if a != b {
      SubclassTransitive(Parent(a).value, b, c);
    }
  }

  lemma {:induction false} SubclassDepth(a: ExcClass, b: ExcClass)
    requires IsSubclass(a, b)
    ensures Depth(b) <= Depth(a)
    ensures Depth(b) == Depth(a) ==> a == b
    decreases Depth(a)
  {
    if a != b {
      SubclassDepth(Parent(a).value, b);
    }
  }

  lemma SubclassAntisymmetric(a: ExcClass, b: ExcClass)
    requires IsSubclass(a, b) && IsSubclass(b, a)
    ensures a == b
  {
    SubclassDepth(a, b);
    SubclassDepth(b, a);
  }

  /** Every Selenium exception is a WebDriverException, and every class except the
      root and KeyboardInterrupt is caught by `except Exception`. */
  lemma HierarchyFacts(c: ExcClass)
    ensures c != BaseException && c != KeyboardInterrupt <==> IsSubclass(c, Exception)
    ensures IsSubclass(c, WebDriverException) <==>
      c in {WebDriverException, TimeoutException, StaleElementReferenceException,
            ElementClickInterceptedException, NoSuchElementException,
            InvalidElementStateException, ElementNotInteractableException}
  {
  }

  /** One `except (C1, ..., Cn)` clause catches e when e is a subclass of some Ci. */
  predicate Catches(clause: seq<ExcClass>, e: ExcClass) {
    exists i :: 0 <= i < |clause| && IsSubclass(e, clause[i])
  }

  /** Index of the first clause, in source order, that catches e; |clauses| when the
      exception propagates. */
  function FirstCatching(clauses: seq<seq<ExcClass>>, e: ExcClass): (i: nat)
    ensures i <= |clauses|
    ensures i < |clauses| ==> Catches(clauses[i], e)
    ensures forall j :: 0 <= j < i ==> !Catches(clauses[j], e)
  {
    if clauses == [] then 0
    else if Catches(clauses[0], e) then 0
    else 1 + FirstCatching(clauses[1..], e)
  }
}

=== FILE: header_component.dfy ===
/** The site header shared by the pages: two visibility checks and the navigation
    links, each of which is a single click that returns nothing. */
module HeaderComponent {
  import opened Exceptions
  import opened PageKit

  const HdrMain := Locator(CssSelector, ".header-middle")
  const BtnSignupLogin := Locator(CssSelector, "a[href='/login']")
  const BtnLogout := Locator(CssSelector, "a[href='/logout']")
  const BtnDeleteAccount := Locator(CssSelector, "a[href='/delete_account']")
  const BtnContactUs := Locator(CssSelector, "a[href='/contact_us']")
  const BtnTestCases := Locator(XPath, "//a[contains(text(),'Test Cases')]")
  const BtnProducts := Locator(XPath, "//a[@href='/products']")
  const BtnCart := Locator(CssSelector, "a[href='/view_cart']")
  const LblLoggedUser := Locator(XPath, "//li[a[contains(., 'Logged in as')]]")

  /** The header's navigation links. */
  datatype Link = SignupLogin | Logout | DeleteAccount | ContactUs | TestCases | ProductsLink | CartLink

  /** Which locator each `click_*` method clicks. */
  function LinkLocator(l: Link): Locator {
    match l
    case SignupLogin => BtnSignupLogin
    case Logout => BtnLogout
    case DeleteAccount => BtnDeleteAccount
    case ContactUs => BtnContactUs
    case TestCases => BtnTestCases
    case ProductsLink => BtnProducts
    case CartLink => BtnCart
  }

  /** Different links click different elements, none of them the header itself. */
  lemma LinksAreDistinct(l1: Link, l2: Link)
    ensures LinkLocator(l1) == LinkLocator(l2) <==> l1 == l2
    ensures LinkLocator(l1) != HdrMain && LinkLocator(l1) != LblLoggedUser
  {
  }

  /** `is_header_visible`. */
  function IsHeaderVisible(d: Dom): (r: Run<bool>)
    ensures r.result == Ok(HdrMain in d.visible)
    ensures r.trace == [Check(HdrMain)]
  {
    IsDisplayed(d, HdrMain)
  }

  /** `is_logged_user_visible`. */
  function IsLoggedUserVisible(d: Dom): (r: Run<bool>)
    ensures r.result == Ok(LblLoggedUser in d.visible)
    ensures r.trace == [Check(LblLoggedUser)]
  {
    IsDisplayed(d, LblLoggedUser)
  }

  /** The `click_*` methods: one click on the link's own locator, returning
      nothing; TimeoutException when the link is not visible. */
  function ClickLink(d: Dom, l: Link): (r: Run<()>)
    ensures r.result.Ok? <==> LinkLocator(l) in d.visible
    ensures r.result.Ok? ==> r.trace == [Click(LinkLocator(l))]
    ensures r.result.Raised? ==> r.trace == [] && r.result.exc == TimeoutException
  {
    ClickOn(d, LinkLocator(l))
  }
}

=== FILE: home_pages.dfy ===
/** `HomePage`: the logged-in home page; everything it does goes through the
    header. */
module HomePage {
  import opened Exceptions
  import opened PageKit
  import HeaderComponent

  /** `is_home_page_visible`: the header is shown. */
  function IsHomePageVisible(d: Dom): (r: Run<bool>)
    ensures r.result == Ok(HeaderComponent.HdrMain in d.visible)
    ensures r.trace == [Check(HeaderComponent.HdrMain)]
  {
    HeaderComponent.IsHeaderVisible(d)
  }

  /** `is_logged_user_visible`: the "Logged in as" entry is shown. */
  function IsLoggedUserVisible(d: Dom): (r: Run<bool>)
    ensures r.result == Ok(HeaderComponent.LblLoggedUser in d.visible)
    ensures r.trace == [Check(HeaderComponent.LblLoggedUser)]
  {
    HeaderComponent.IsLoggedUserVisible(d)
  }

  /** `delete_account`: the header's Delete Account link, then an account-deleted
      page on the same driver. */
  function DeleteAccount(d: Dom, driver: nat): (r: Run<PageObject>)
    ensures r.result.Ok? <==> HeaderComponent.BtnDeleteAccount in d.visible
    ensures r.result.Ok? ==> r.trace == [Click(HeaderComponent.BtnDeleteAccount)]
                             && r.result.value == Construct(AccountDeleted, driver)
    ensures r.result.Raised? ==> r.trace == [] && r.result.exc == TimeoutException
  {
    ThenPage(HeaderComponent.ClickLink(d, HeaderComponent.DeleteAccount), AccountDeleted, driver)
  }

  /** `logout`: the header's Logout link, then a login page on the same driver. */
  function Logout(d: Dom, driver: nat): (r: Run<PageObject>)
    ensures r.result.Ok? <==> HeaderComponent.BtnLogout in d.visible
    ensures r.result.Ok? ==> r.trace == [Click(HeaderComponent.BtnLogout)] && r.result.value == Construct(Login, driver)
    ensures r.result.Raised? ==> r.trace == [] && r.result.exc == TimeoutException
  {
    ThenPage(HeaderComponent.ClickLink(d, HeaderComponent.Logout), Login, driver)
  }
}

/** `GuestPage`: the home page before logging in; the header's links lead to the
    other pages. */
module GuestPage {
  import opened Exceptions
  import opened PageKit
  import HeaderComponent

  /** The five `navigate_to_*` methods. */
  datatype Destination = SignupLoginPage | ContactUsPage | TestCasesPage | ProductsPage | CartPage

  /** The header link each navigation clicks. */
  function DestinationLink(t: Destination): HeaderComponent.Link {
    match t
    case SignupLoginPage => HeaderComponent.SignupLogin
    case ContactUsPage => HeaderComponent.ContactUs
    case TestCasesPage => HeaderComponent.TestCases
    case ProductsPage => HeaderComponent.ProductsLink
    case CartPage => HeaderComponent.CartLink
  }

  /** The page object each navigation returns. */
  function DestinationKind(t: Destination): PageKind {
    match t
    case SignupLoginPage => Login
    case ContactUsPage => ContactUs
    case TestCasesPage => TestCases
    case ProductsPage => Products
    case CartPage => Cart
  }

  /** Different navigations click different links and reach different pages;
      none of them logs out, deletes the account or stays on a home page. */
  lemma DestinationsAreDistinct(s: Destination, t: Destination)
    ensures DestinationLink(s) == DestinationLink(t) <==> s == t
    ensures DestinationKind(s) == DestinationKind(t) <==> s == t
    ensures DestinationLink(s) != HeaderComponent.Logout && DestinationLink(s) != HeaderComponent.DeleteAccount
    ensures DestinationKind(s) != Guest && DestinationKind(s) != Home
  {
  }

  /** `navigate_to_signup_login_page`, `navigate_to_contact_us_page`,
      `navigate_to_test_cases_page`, `navigate_to_products_page`,
      `navigate_to_cart_page`: one click on the header link, then the target page
      on the same driver. */
  function NavigateTo(d: Dom, t: Destination, driver: nat): (r: Run<PageObject>)
    ensures r.result.Ok? <==> HeaderComponent.LinkLocator(DestinationLink(t)) in d.visible
    ensures r.result.Ok? ==> r.trace == [Click(HeaderComponent.LinkLocator(DestinationLink(t)))]
                             && r.result.value == Construct(DestinationKind(t), driver)
    ensures r.result.Raised? ==> r.trace == [] && r.result.exc == TimeoutException
  {
    ThenPage(HeaderComponent.ClickLink(d, DestinationLink(t)), DestinationKind(t), driver)
  }

  /** `is_home_page_visible`: the header is shown. */
  function IsHomePageVisible(d: Dom): (r: Run<bool>)
    ensures r.result == Ok(HeaderComponent.HdrMain in d.visible)
    ensures r.trace == [Check(HeaderComponent.HdrMain)]
  {
    HeaderComponent.IsHeaderVisible(d)
  }

  /** `scroll_to_footer`: one call to the undefined `footer` member. */
  function ScrollToFooter(d: Dom): (r: Run<()>)
    ensures r.trace == [Delegate(FooterScrollDown)] && r.result.Ok?
  {
    Delegated(d, FooterScrollDown)
  }

  /** `view_product_from_home`: the undefined `products` member opens the named
      product, then a product-details page on the same driver. */
  function ViewProductFromHome(d: Dom, name: string, driver: nat): (r: Run<PageObject>)
    ensures r.trace == [Delegate(ProductsViewProductOf(name))]
    ensures r.result == Ok(Construct(ProductDetails, driver))
  {
    ThenPage(Delegated(d, ProductsViewProductOf(name)), ProductDetails, driver)
  }

  /** `add_product_to_cart_by_item_from_home`: one call to the undefined
      `products` member; no page object follows. */
  function AddProductToCartByItemFromHome(d: Dom, name: string): (r: Run<()>)
    ensures r.trace == [Delegate(ProductsAddToCartByItem(name))] && r.result.Ok?
  {
    Delegated(d, ProductsAddToCartByItem(name))
  }
}

=== FILE: login_page.dfy ===
/** `LoginPage`: the new-user sign-up form. */
module LoginPage {
  import opened Exceptions
  import Ascii
  import opened PageKit

  const LabelNewUserSignup := Locator(CssSelector, "div[class='signup-form'] h2")
  const InputName := Locator(CssSelector, "input[placeholder='Name']")
  const InputEmail := Locator(CssSelector, "input[data-qa='signup-email']")
  const BtnSignup := Locator(CssSelector, "button[data-qa='signup-button']")

  /** `get_new_user_signup_message`: the heading's stripped text. */
  function GetNewUserSignupMessage(d: Dom): (r: Run<string>)
    ensures r.result.Ok? <==> LabelNewUserSignup in d.visible
    ensures r.result.Ok? && TextOf(d, LabelNewUserSignup).Some? ==>
      Ascii.TrimOf(TextOf(d, LabelNewUserSignup).value, r.result.value)
    ensures r.result.Raised? ==> r.result.exc == TimeoutException
    ensures NoEffects(r.trace)
  {
    GetText(d, LabelNewUserSignup)
  }

  /** `enter_name`: the `send_keys` default clears first. */
  function EnterName(d: Dom, name: string): (r: Run<()>)
    ensures r.result.Ok? <==> InputName in d.visible
    ensures r.result.Ok? ==> r.trace == [Type(InputName, name, true)]
    ensures r.result.Raised? ==> r.trace == [] && r.result.exc == TimeoutException
  {
    SendKeys(d, InputName, name, true)
  }

  /** `enter_email`. */
  function EnterEmail(d: Dom, email: string): (r: Run<()>)
    ensures r.result.Ok? <==> InputEmail in d.visible
    ensures r.result.Ok? ==> r.trace == [Type(InputEmail, email, true)]
    ensures r.result.Raised? ==> r.trace == [] && r.result.exc == TimeoutException
  {
    SendKeys(d, InputEmail, email, true)
  }

  /** The two inputs are different fields. */
  lemma InputsAreDistinct()
    ensures InputName != InputEmail
  {
  }

  /** `click_signup`: one click, then a sign-up page on the same driver. */
  function ClickSignup(d: Dom, driver: nat): (r: Run<PageObject>)
    ensures r.result.Ok? <==> BtnSignup in d.visible
    ensures r.result.Ok? ==> r.trace == [Click(BtnSignup)] && r.result.value == Construct(SignUp, driver)
    ensures r.result.Raised? ==> r.trace == [] && r.result.exc == TimeoutException
  {
    ThenPage(ClickOn(d, BtnSignup), SignUp, driver)
  }
}

=== FILE: navigator.dfy ===
/** `Navigator`: the entry point that opens the site and hands out page objects,
    each a fresh instance on the navigator's driver. */
module Navigator {
  import opened Exceptions
  import opened PageKit

  datatype Navigator = Navigator(driver: nat)

  /** The page-object properties, one per page class except the guest page. */
  datatype Property =
    | LoginPage | SignupPage | HomePage | CartPage | ProductsPage | ProductDetailsPage
    | ContactUsPage | CheckoutPage | PaymentPage | OrderPlacedPage | AccountCreatedPage
    | AccountDeletedPage | TestCasesPage

  /** The class each property constructs. */
  function PropertyKind(p: Property): PageKind {
    match p
    case LoginPage => Login
    case SignupPage => SignUp
    case HomePage => Home
    case CartPage => Cart
    case ProductsPage => Products
    case ProductDetailsPage => ProductDetails
    case ContactUsPage => ContactUs
    case CheckoutPage => Checkout
    case PaymentPage => Payment
    case OrderPlacedPage => OrderPlaced
    case AccountCreatedPage => AccountCreated
    case AccountDeletedPage => AccountDeleted
    case TestCasesPage => TestCases
  }

  /** The property that constructs a page class: every class but the guest page
      has exactly one. */
  function PropertyOf(k: PageKind): (p: Property)
    requires k != Guest
    ensures PropertyKind(p) == k
  {
    match k
    case Login => LoginPage
    case SignUp => SignupPage
    case Home => HomePage
    case Cart => CartPage
    case Products => ProductsPage
    case ProductDetails => ProductDetailsPage
    case ContactUs => ContactUsPage
    case Checkout => CheckoutPage
    case Payment => PaymentPage
    case OrderPlaced => OrderPlacedPage
    case AccountCreated => AccountCreatedPage
    case AccountDeleted => AccountDeletedPage
    case TestCases => TestCasesPage
  }

  /** Different properties build different classes, and none builds a guest page. */
  lemma PropertiesAreDistinct(p: Property, q: Property)
    ensures PropertyKind(p) == PropertyKind(q) <==> p == q
    ensures PropertyKind(p) != Guest
    ensures PropertyOf(PropertyKind(p)) == p
  {
  }

  /** Reading a property issues no driver command and builds the page on the
      navigator's own driver with the default instance timeout. */
  function Access(n: Navigator, p: Property): (page: PageObject)
    ensures page.kind == PropertyKind(p) && page.driver == n.driver
    ensures page.timeout == 10
  {
    Construct(PropertyKind(p), n.driver)
  }

  /** No caching: two reads of the same property give equal, independently built
      page objects, and navigators on the same driver hand out the same pages. */
  lemma AccessDependsOnlyOnDriver(n: Navigator, m: Navigator, p: Property)
    requires n.driver == m.driver
    ensures Access(n, p) == Access(m, p)
  {
  }

  /** `open_site`: load the url, then the home page property. */
  function OpenSite(d: Dom, n: Navigator, url: string): (r: Run<PageObject>)
    ensures r.trace == [Navigate(url)]
    ensures r.result == Ok(Access(n, HomePage))
    ensures r.result.value.kind == Home
  {
    var cs := [Navigate(url)];
    assert Enabled(d, cs[0]);
    var load := Perform(d, cs);
    assert load.trace == cs[..Ready(d, cs)] == cs;
    ThenPage(load, Home, n.driver)
  }
}

/** The page-transition graph: which page-returning methods each page class has,
    the command each issues and the class of the page it returns; a step runs
    the page's own method, and a walk chains steps the way a test does. */
module PageFlow {
  import opened Wrappers
  import opened Exceptions
  import opened PageKit
  import HeaderComponent
  import GuestPage
  import HomePage
  import LoginPage
  import SignupPage
  import AccountCreatedPage
  import AccountDeletedPage
  import CheckoutPage
  import PaymentPage
  import OrderPlacedPage
  import ContactUsPage

  /** The transition methods, by what they do. */
  datatype Edge =
    | NavigateTo(dest: GuestPage.Destination)
    | ViewProduct(name: string)
    | DeleteAccountLink
    | LogoutLink
    | Signup
    | CreateAccount
    | Continue
    | PlaceOrder
    | PayAndConfirm
    | BackHome

  /** A transition method: the one command it issues and the class of the page
      object it returns, or None when it returns nothing. */
  datatype Arrow = Arrow(command: Action, target: Option<PageKind>)

  /** The graph, as a table: None when the page class has no such method. */
  function Table(from: PageKind, e: Edge): Option<Arrow> {
    match (from, e)
    case (Guest, NavigateTo(t)) =>
      Some(Arrow(Click(HeaderComponent.LinkLocator(GuestPage.DestinationLink(t))), Some(GuestPage.DestinationKind(t))))
    case (Guest, ViewProduct(name)) => Some(Arrow(Delegate(ProductsViewProductOf(name)), Some(ProductDetails)))
    case (Home, DeleteAccountLink) => Some(Arrow(Click(HeaderComponent.BtnDeleteAccount), Some(AccountDeleted)))
    case (Home, LogoutLink) => Some(Arrow(Click(HeaderComponent.BtnLogout), Some(Login)))
    case (Login, Signup) => Some(Arrow(Click(LoginPage.BtnSignup), Some(SignUp)))
    case (SignUp, CreateAccount) => Some(Arrow(Click(SignupPage.BtnCreateAccount), Some(AccountCreated)))
    case (AccountCreated, Continue) => Some(Arrow(Click(AccountCreatedPage.BtnContinue), Some(Home)))
    case (AccountDeleted, Continue) => Some(Arrow(Click(AccountDeletedPage.BtnContinue), None))
    case (Checkout, PlaceOrder) => Some(Arrow(Click(CheckoutPage.BtnPlaceOrder), Some(Payment)))
    case (Payment, PayAndConfirm) => Some(Arrow(Click(PaymentPage.BtnPayConfirm), Some(OrderPlaced)))
    case (OrderPlaced, Continue) => Some(Arrow(Click(OrderPlacedPage.BtnContinue), Some(Home)))
    case (ContactUs, BackHome) => Some(Arrow(Click(ContactUsPage.BtnHome), Some(Guest)))
    case _ => None
  }

  /** A page-returning run seen as returning an optional page. */
  function Lift(r: Run<PageObject>): (s: Run<Option<PageObject>>)
    ensures s.trace == r.trace
    ensures s.result.Ok? <==> r.result.Ok?
    ensures r.result.Ok? ==> s.result.value == Some(r.result.value)
    ensures r.result.Raised? ==> s.result.exc == r.result.exc
  {
    match r.result
    case Ok(p) => Run(r.trace, Ok(Some(p)))
    case Raised(x) => Run(r.trace, Raised(x))
  }

  /** The page object a transition returns on `driver`. */
  function Landing(target: Option<PageKind>, driver: nat): Option<PageObject> {
    match target
    case Some(k) => Some(Construct(k, driver))
    case None => None
  }

  /** A run takes arrow `a`: it succeeds exactly when the arrow's command can be
      issued, with that one command and the arrow's landing page; otherwise it
      times out having issued nothing. */
  predicate Takes(d: Dom, a: Arrow, driver: nat, r: Run<Option<PageObject>>) {
    && (r.result.Ok? <==> Enabled(d, a.command))
    && (r.result.Ok? ==> r.trace == [a.command] && r.result.value == Landing(a.target, driver))
    && (r.result.Raised? ==> r.trace == [] && r.result.exc == TimeoutException)
  }

  /** Call method `e` on a `from` page: the page's own method, or AttributeError
      when its class has no such method. The run agrees with the table. */
  function Step(d: Dom, from: PageKind, e: Edge, driver: nat): (r: Run<Option<PageObject>>)
    ensures Table(from, e).None? ==> r == Run([], Raised(AttributeError))
    ensures Table(from, e).Some? ==> (r.result.Ok? <==> Enabled(d, Table(from, e).value.command))
    ensures Table(from, e).Some? && r.result.Ok? ==>
      r.trace == [Table(from, e).value.command] && r.result.value == Landing(Table(from, e).value.target, driver)
    ensures Table(from, e).Some? && r.result.Raised? ==> r.trace == [] && r.result.exc == TimeoutException
  {
    var r := match from
      case Guest => StepGuest(d, e, driver)
      case Home => StepHome(d, e, driver)
      case Login | SignUp | AccountCreated | AccountDeleted => StepAccount(d, from, e, driver)
      case Checkout | Payment | OrderPlaced | ContactUs => StepOrder(d, from, e, driver)
      case _ => Run([], Raised(AttributeError));
    assert Table(from, e).Some? ==> Takes(d, Table(from, e).value, driver, r);
    r
  }

  /** The methods of the guest page. */
  function StepGuest(d: Dom, e: Edge, driver: nat): (r: Run<Option<PageObject>>)
    ensures Table(Guest, e).None? ==> r == Run([], Raised(AttributeError))
    ensures Table(Guest, e).Some? ==> Takes(d, Table(Guest, e).value, driver, r)
  {
    match e
    case NavigateTo(t) => Lift(GuestPage.NavigateTo(d, t, driver))
    case ViewProduct(name) => Lift(GuestPage.ViewProductFromHome(d, name, driver))
    case _ => Run([], Raised(AttributeError))
  }

  /** The methods of the logged-in home page. */
  function StepHome(d: Dom, e: Edge, driver: nat): (r: Run<Option<PageObject>>)
    ensures Table(Home, e).None? ==> r == Run([], Raised(AttributeError))
    ensures Table(Home, e).Some? ==> Takes(d, Table(Home, e).value, driver, r)
  {
    match e
    case DeleteAccountLink => Lift(HomePage.DeleteAccount(d, driver))
    case LogoutLink => Lift(HomePage.Logout(d, driver))
    case _ => Run([], Raised(AttributeError))
  }

  /** The pages of the sign-up and account flow. */
  function StepAccount(d: Dom, from: PageKind, e: Edge, driver: nat): (r: Run<Option<PageObject>>)
    requires from in {Login, SignUp, AccountCreated, AccountDeleted}
    ensures Table(from, e).None? ==> r == Run([], Raised(AttributeError))
    ensures Table(from, e).Some? ==> Takes(d, Table(from, e).value, driver, r)
  {
    match (from, e)
    case (Login, Signup) => Lift(LoginPage.ClickSignup(d, driver))
    case (SignUp, CreateAccount) => Lift(SignupPage.ClickCreateAccount(d, driver))
    case (AccountCreated, Continue) => Lift(AccountCreatedPage.ClickContinue(d, driver))
    case (AccountDeleted, Continue) => Then(AccountDeletedPage.ClickContinue(d), Return(None))
    case _ => Run([], Raised(AttributeError))
  }

  /** The pages of the order flow and the contact page. */
  function StepOrder(d: Dom, from: PageKind, e: Edge, driver: nat): (r: Run<Option<PageObject>>)
    requires from in {Checkout, Payment, OrderPlaced, ContactUs}
    ensures Table(from, e).None? ==> r == Run([], Raised(AttributeError))
    ensures Table(from, e).Some? ==> Takes(d, Table(from, e).value, driver, r)
  {
    match (from, e)
    case (Checkout, PlaceOrder) => Lift(CheckoutPage.PlaceOrder(d, driver))
    case (Payment, PayAndConfirm) => Lift(PaymentPage.ClickPayAndConfirm(d, driver))
    case (OrderPlaced, Continue) => Lift(OrderPlacedPage.ClickContinue(d, driver))
    case (ContactUs, BackHome) => Lift(ContactUsPage.ClickHome(d, driver))
    case _ => Run([], Raised(AttributeError))
  }

  /** Where a chain of method calls ends: on a page of some class, on the None a
      method returned, or broken by a call on something without that method. */
  datatype Where = At(kind: PageKind) | Nothing | Broken

  /** The table alone, followed along `es`. */
  function Follow(w: Where, es: seq<Edge>): Where
    decreases |es|
  {
    if es == [] then w
    else match w
      case At(k) =>
        (match Table(k, es[0])
         case None => Broken
         case Some(a) => Follow(if a.target.Some? then At(a.target.value) else Nothing, es[1..]))
      case _ => Broken
  }

  function WhereOf(p: Option<PageObject>): Where {
    if p.Some? then At(p.value.kind) else Nothing
  }

  /** A test's chain `page.m1().m2()...`: step `i` runs against the page as
      `pages(i)` shows it. Calling on a returned None raises AttributeError. The
      chain ends where the table says, after one command per call, and a chain
      the table calls broken never completes. */
  function Walk(pages: nat -> Dom, i: nat, cur: Option<PageObject>, es: seq<Edge>, driver: nat): (r: Run<Option<PageObject>>)
    ensures r.result.Ok? ==> WhereOf(r.result.value) == Follow(WhereOf(cur), es) && |r.trace| == |es|
    ensures r.result.Ok? && r.result.value.Some? && (cur.Some? ==> cur.value.driver == driver) ==> r.result.value.value.driver == driver
    ensures Follow(WhereOf(cur), es).Broken? ==> r.result.Raised?
    ensures r.result.Raised? && r.result.exc == AttributeError ==> Follow(WhereOf(cur), es).Broken?
    decreases |es|
  {
    if es == [] then Run([], Ok(cur))
    else if cur.None? then Run([], Raised(AttributeError))
    else
      var s := Step(pages(i), cur.value.kind, es[0], driver);
      match s.result
      case Raised(x) => Run(s.trace, Raised(x))
      case Ok(next) =>
        var rest := Walk(pages, i + 1, next, es[1..], driver);
        Run(s.trace + rest.trace, rest.result)
  }

  /** Following a chain in two parts is following it whole. */
  lemma {:induction false} FollowAppend(w: Where, a: seq<Edge>, b: seq<Edge>)
    ensures Follow(w, a + b) == Follow(Follow(w, a), b)
    decreases |a|
  {
    if a == [] {
      assert a + b == b;
    } else {
      assert (a + b)[0] == a[0] && (a + b)[1..] == a[1..] + b;
      match w {
        case At(k) =>
          match Table(k, a[0]) {
            case None =>
              BrokenStaysBroken(b);
            case Some(x) =>
              FollowAppend(if x.target.Some? then At(x.target.value) else Nothing, a[1..], b);
          }
        case _ =>
          BrokenStaysBroken(b);
      }
    }
  }

  /** Once broken, a chain stays broken. */
  lemma {:induction false} BrokenStaysBroken(es: seq<Edge>)
    ensures Follow(Broken, es) == Broken
  {
  }

  /** The deleted-account page is a dead end: its Continue returns nothing, so
      any further call breaks the chain. */
  lemma AccountDeletedIsTerminal(e: Edge, rest: seq<Edge>)
    ensures Table(AccountDeleted, e).Some? ==> Table(AccountDeleted, e).value.target.None?
    ensures Follow(At(AccountDeleted), [Continue, e] + rest) == Broken
  {
    assert ([Continue, e] + rest)[1..] == [e] + rest;
    assert ([e] + rest)[0] == e;
  }

  /** The checkout page is reached only through the navigator's property: no
      transition method returns one. The payment page is reached only by placing
      the order, and the order-placed page only by paying. */
  lemma OrderPagesHaveOneWayIn(k: PageKind, e: Edge)
    ensures Table(k, e).Some? ==> Table(k, e).value.target != Some(Checkout)
    ensures Table(k, e).Some? && Table(k, e).value.target == Some(Payment) <==> k == Checkout && e == PlaceOrder
    ensures Table(k, e).Some? && Table(k, e).value.target == Some(OrderPlaced) <==> k == Payment && e == PayAndConfirm
  {
  }

  /** Only the contact page's Home button leads to a guest page; logging out
      leads to the login page, not back to the guest page. */
  lemma GuestPageHasOneWayIn(k: PageKind, e: Edge)
    ensures Table(k, e).Some? && Table(k, e).value.target == Some(Guest) <==> k == ContactUs && e == BackHome
    ensures Table(Home, LogoutLink) == Some(Arrow(Click(HeaderComponent.BtnLogout), Some(Login)))
  {
  }

  /** A step whose trigger is shown takes its arrow: one command, then the rest
      of the chain from the page the arrow lands on. */
  lemma WalkTakesArrow(pages: nat -> Dom, i: nat, p: PageObject, e: Edge, rest: seq<Edge>, driver: nat)
    requires Table(p.kind, e).Some? && Enabled(pages(i), Table(p.kind, e).value.command)
    ensures var a := Table(p.kind, e).value;
            var w := Walk(pages, i + 1, Landing(a.target, driver), rest, driver);
            Walk(pages, i, Some(p), [e] + rest, driver) == Run([a.command] + w.trace, w.result)
  {
    assert ([e] + rest)[0] == e && ([e] + rest)[1..] == rest;
  }

  /** The sign-up journey a test takes: from the guest page to login, sign-up,
      account-created and the logged-in home page, one click per step. */
  lemma SignupJourney(pages: nat -> Dom, driver: nat)
    requires HeaderComponent.BtnSignupLogin in pages(0).visible
    requires LoginPage.BtnSignup in pages(1).visible
    requires SignupPage.BtnCreateAccount in pages(2).visible
    requires AccountCreatedPage.BtnContinue in pages(3).visible
    ensures Walk(pages, 0, Some(Construct(Guest, driver)), [NavigateTo(GuestPage.SignupLoginPage), Signup, CreateAccount, Continue], driver)
      == Run([Click(HeaderComponent.BtnSignupLogin), Click(LoginPage.BtnSignup), Click(SignupPage.BtnCreateAccount),
              Click(AccountCreatedPage.BtnContinue)], Ok(Some(Construct(Home, driver))))
  {
    SigningUpLeadsHome(pages, driver);
    WalkTakesArrow(pages, 0, Construct(Guest, driver), NavigateTo(GuestPage.SignupLoginPage), [Signup, CreateAccount, Continue], driver);
    assert [NavigateTo(GuestPage.SignupLoginPage)] + [Signup, CreateAccount, Continue]
      == [NavigateTo(GuestPage.SignupLoginPage), Signup, CreateAccount, Continue];
  }

  lemma SigningUpLeadsHome(pages: nat -> Dom, driver: nat)
    requires LoginPage.BtnSignup in pages(1).visible
    requires SignupPage.BtnCreateAccount in pages(2).visible
    requires AccountCreatedPage.BtnContinue in pages(3).visible
    ensures Walk(pages, 1, Some(Construct(Login, driver)), [Signup, CreateAccount, Continue], driver)
      == Run([Click(LoginPage.BtnSignup), Click(SignupPage.BtnCreateAccount), Click(AccountCreatedPage.BtnContinue)],
             Ok(Some(Construct(Home, driver))))
  {
    CreatingLeadsHome(pages, driver);
    WalkTakesArrow(pages, 1, Construct(Login, driver), Signup, [CreateAccount, Continue], driver);
    assert [Signup] + [CreateAccount, Continue] == [Signup, CreateAccount, Continue];
  }

  lemma CreatingLeadsHome(pages: nat -> Dom, driver: nat)
    requires SignupPage.BtnCreateAccount in pages(2).visible
    requires AccountCreatedPage.BtnContinue in pages(3).visible
    ensures Walk(pages, 2, Some(Construct(SignUp, driver)), [CreateAccount, Continue], driver)
      == Run([Click(SignupPage.BtnCreateAccount), Click(AccountCreatedPage.BtnContinue)], Ok(Some(Construct(Home, driver))))
  {
    ContinuingLeadsHome(pages, 3, AccountCreated, driver);
    WalkTakesArrow(pages, 2, Construct(SignUp, driver), CreateAccount, [Continue], driver);
    assert [CreateAccount] + [Continue] == [CreateAccount, Continue];
  }

  /** The purchase journey: from checkout through payment to the order-placed page
      and back home. */
  lemma PurchaseJourney(pages: nat -> Dom, driver: nat)
    requires CheckoutPage.BtnPlaceOrder in pages(0).visible
    requires PaymentPage.BtnPayConfirm in pages(1).visible
    requires OrderPlacedPage.BtnContinue in pages(2).visible
    ensures Walk(pages, 0, Some(Construct(Checkout, driver)), [PlaceOrder, PayAndConfirm, Continue], driver)
      == Run([Click(CheckoutPage.BtnPlaceOrder), Click(PaymentPage.BtnPayConfirm), Click(OrderPlacedPage.BtnContinue)],
             Ok(Some(Construct(Home, driver))))
  {
    PayingLeadsHome(pages, driver);
    WalkTakesArrow(pages, 0, Construct(Checkout, driver), PlaceOrder, [PayAndConfirm, Continue], driver);
    assert [PlaceOrder] + [PayAndConfirm, Continue] == [PlaceOrder, PayAndConfirm, Continue];
  }

  lemma PayingLeadsHome(pages: nat -> Dom, driver: nat)
    requires PaymentPage.BtnPayConfirm in pages(1).visible
    requires OrderPlacedPage.BtnContinue in pages(2).visible
    ensures Walk(pages, 1, Some(Construct(Payment, driver)), [PayAndConfirm, Continue], driver)
      == Run([Click(PaymentPage.BtnPayConfirm), Click(OrderPlacedPage.BtnContinue)], Ok(Some(Construct(Home, driver))))
  {
    ContinuingLeadsHome(pages, 2, OrderPlaced, driver);
    WalkTakesArrow(pages, 1, Construct(Payment, driver), PayAndConfirm, [Continue], driver);
    assert [PayAndConfirm] + [Continue] == [PayAndConfirm, Continue];
  }

  /** Continue on the order-placed or the account-created page ends the chain on
      the home page. */
  lemma ContinuingLeadsHome(pages: nat -> Dom, i: nat, k: PageKind, driver: nat)
    requires k == OrderPlaced || k == AccountCreated
    requires Enabled(pages(i), Table(k, Continue).value.command)
    ensures Walk(pages, i, Some(Construct(k, driver)), [Continue], driver)
      == Run([Table(k, Continue).value.command], Ok(Some(Construct(Home, driver))))
  {
    var home := Some(Construct(Home, driver));
    assert Walk(pages, i + 1, home, [], driver) == Run([], Ok(home));
    WalkTakesArrow(pages, i, Construct(k, driver), Continue, [], driver);
    assert [Continue] + [] == [Continue];
  }
}

=== FILE: order_pages.dfy ===
/** `PaymentPage`: the card form and its submit button. */
module PaymentPage {
  import opened Exceptions
  import Ascii
  import opened PageKit

  const InputNameOnCard := Locator(XPath, "//input[@name='name_on_card']")
  const InputCardNumber := Locator(XPath, "//input[@name='card_number']")
  const InputCvc := Locator(XPath, "//input[contains(@class,'card-cvc')]")
  const InputExpiryMonth := Locator(XPath, "//input[contains(@class,'card-expiry-month')]")
  const InputExpiryYear := Locator(XPath, "//input[contains(@class,'card-expiry-year')]")
  const BtnPayConfirm := Locator(XPath, "//button[@id='submit']")
  const MsgSuccess := Locator(XPath, "//div[contains(@class, 'alert-success alert')]")

  /** The card inputs, in the order `enter_payment_details` fills them. */
  const CardInputs: seq<Locator> := [InputNameOnCard, InputCardNumber, InputCvc, InputExpiryMonth, InputExpiryYear]

  /** `enter_payment_details`: the five fields in order, each cleared first; no
      click, whether it completes or stops at a hidden field. */
  function EnterPaymentDetails(d: Dom, nameOnCard: string, cardNumber: string, cvc: string,
                               expiryMonth: string, expiryYear: string): (r: Run<()>)
    ensures r.result.Ok? <==> forall i :: 0 <= i < |CardInputs| ==> CardInputs[i] in d.visible
    ensures r.result.Ok? ==> r.trace == [Type(InputNameOnCard, nameOnCard, true), Type(InputCardNumber, cardNumber, true),
                                         Type(InputCvc, cvc, true), Type(InputExpiryMonth, expiryMonth, true),
                                         Type(InputExpiryYear, expiryYear, true)]
    ensures r.result.Raised? ==> r.result.exc == TimeoutException && |r.trace| < 5
    ensures r.trace <= [Type(InputNameOnCard, nameOnCard, true), Type(InputCardNumber, cardNumber, true),
                        Type(InputCvc, cvc, true), Type(InputExpiryMonth, expiryMonth, true),
                        Type(InputExpiryYear, expiryYear, true)]
    ensures forall i :: 0 <= i < |r.trace| ==> CardInputs[i] in d.visible
    ensures |r.trace| < |CardInputs| ==> CardInputs[|r.trace|] !in d.visible
    ensures NoClicks(r.trace)
  {
    var texts := [nameOnCard, cardNumber, cvc, expiryMonth, expiryYear];
    var cs := [Type(InputNameOnCard, nameOnCard, true), Type(InputCardNumber, cardNumber, true),
               Type(InputCvc, cvc, true), Type(InputExpiryMonth, expiryMonth, true),
               Type(InputExpiryYear, expiryYear, true)];
    assert forall i :: 0 <= i < 5 ==> cs[i] == Type(CardInputs[i], texts[i], true);
    assert forall i :: 0 <= i < 5 ==> (Enabled(d, cs[i]) <==> CardInputs[i] in d.visible);
    Perform(d, cs)
  }

  /** `click_pay_and_confirm`: one click, then an order-placed page. */
  function ClickPayAndConfirm(d: Dom, driver: nat): (r: Run<PageObject>)
    ensures r.result.Ok? <==> BtnPayConfirm in d.visible
    ensures r.result.Ok? ==> r.trace == [Click(BtnPayConfirm)] && r.result.value == Construct(OrderPlaced, driver)
    ensures r.result.Raised? ==> r.trace == [] && r.result.exc == TimeoutException
  {
    ThenPage(ClickOn(d, BtnPayConfirm), OrderPlaced, driver)
  }

  /** `get_success_message`. */
  function GetSuccessMessage(d: Dom): (r: Run<string>)
    ensures r.result.Ok? <==> MsgSuccess in d.visible
    ensures r.result.Ok? && TextOf(d, MsgSuccess).Some? ==> Ascii.TrimOf(TextOf(d, MsgSuccess).value, r.result.value)
    ensures r.result.Raised? ==> r.result.exc == TimeoutException
  {
    GetText(d, MsgSuccess)
  }
}

/** `OrderPlacedPage`: the confirmation after paying. */
module OrderPlacedPage {
  import opened Wrappers
  import opened Exceptions
  import Ascii
  import opened PageKit

  const LblOrderPlaced := Locator(XPath, "//b[normalize-space()='Order Placed!']")
  const BtnContinue := Locator(XPath, "//a[normalize-space()='Continue']")
  const MsgSuccess := Locator(XPath, "//p[normalize-space()='Congratulations! Your order has been confirmed!']")

  /** The text the confirmation paragraph is located by. */
  const ConfirmationText := "Congratulations! Your order has been confirmed!"

  /** `is_order_success_visible`: a check, no clicks or typing. */
  function IsOrderSuccessVisible(d: Dom): (r: Run<bool>)
    ensures r.result == Ok(LblOrderPlaced in d.visible)
    ensures r.trace == [Check(LblOrderPlaced)] && NoEffects(r.trace)
  {
    IsDisplayed(d, LblOrderPlaced)
  }

  /** `get_order_success_message`: a read, no clicks or typing. */
  function GetOrderSuccessMessage(d: Dom): (r: Run<string>)
    ensures r.result.Ok? <==> MsgSuccess in d.visible
    ensures r.result.Ok? && TextOf(d, MsgSuccess).Some? ==> Ascii.TrimOf(TextOf(d, MsgSuccess).value, r.result.value)
    ensures r.result.Raised? ==> r.result.exc == TimeoutException
    ensures NoEffects(r.trace)
  {
    GetText(d, MsgSuccess)
  }

  lemma ConfirmationIsStripped()
    ensures Ascii.IsStripped(ConfirmationText)
  {
    var head, tail := "Congratulations!", " been confirmed!";
    assert ConfirmationText == head + " Your order has" + tail;
    assert ConfirmationText[0] == head[0] && ConfirmationText[46] == tail[15];
  }

  /** A paragraph whose text is the confirmation with surrounding blanks reads
      back as exactly the confirmation. */
  lemma ConfirmationReadsBack(d: Dom, lead: string, trail: string)
    requires MsgSuccess in d.visible && TextOf(d, MsgSuccess) == Some(lead + ConfirmationText + trail)
    requires Ascii.AllSpace(lead) && Ascii.AllSpace(trail)
    ensures GetOrderSuccessMessage(d).result == Ok(ConfirmationText)
  {
    ConfirmationIsStripped();
    Ascii.StripUnique(lead, ConfirmationText, trail);
  }

  /** `click_continue`: one click, then a home page. */
  function ClickContinue(d: Dom, driver: nat): (r: Run<PageObject>)
    ensures r.result.Ok? <==> BtnContinue in d.visible
    ensures r.result.Ok? ==> r.trace == [Click(BtnContinue)] && r.result.value == Construct(Home, driver)
    ensures r.result.Raised? ==> r.trace == [] && r.result.exc == TimeoutException
  {
    ThenPage(ClickOn(d, BtnContinue), Home, driver)
  }
}

=== FILE: page_kit.dfy ===
/** What every page object shares: locators, the primitive driver commands a page
    method issues, a DOM oracle that answers them, and the trace-plus-result record
    a page method returns. The DOM does not change while one page method runs, so
    every wait of `BasePage` ends at once: found when the element is there,
    TimeoutException when it is not. */
module PageKit {
  import opened Wrappers
  import opened Exceptions
  import Ascii
  import BasePage

  // ---------- locators and commands ----------

  datatype Strategy = Id | XPath | CssSelector | ClassName

  /** Selenium's `(By.X, value)` pair. */
  datatype Locator = Locator(strategy: Strategy, value: string)

  /** Calls into members the page classes use but do not define (`products`,
      `footer`, `add_to_cart_modal`, `navigate`, `select_dropdown_by_value`,
      `upload_file`): recorded in the trace, never interpreted. */
  datatype Op =
    | ModalContinueShopping
    | ModalViewCart
    | ProductsViewProductOf(name: string)
    | ProductsAddToCartByItem(name: string)
    | FooterScrollDown
    | NavigateProductDetails
    | NavigateCart
    | SelectDropdownByValue(field: Locator, value: string)
    | UploadFile(field: Locator, path: string)

  /** One driver command: the effects, then the queries `is_displayed` (Check),
      `find_all` (Collect), `get_text` (Read) and `is_selected` (AskSelected). */
  datatype Action =
    | Navigate(url: string)
    | Click(loc: Locator)
    | Type(loc: Locator, text: string, clear: bool)
    | Scroll(loc: Locator)
    | Hover(loc: Locator)
    | Check(loc: Locator)
    | Collect(loc: Locator)
    | Read(loc: Locator)
    | AskSelected(loc: Locator)
    | Delegate(op: Op)

  predicate IsClick(a: Action) {
    a.Click?
  }

  /** The effect commands that change what the page holds. */
  predicate IsEffect(a: Action) {
    a.Navigate? || a.Click? || a.Type? || a.Scroll? || a.Hover? || a.Delegate?
  }

  // ---------- the DOM oracle ----------

  /** The page as the driver sees it: which locators match a present or a visible
      element, the text of each, the elements `find_elements` returns, and which
      checkboxes are ticked. */
  datatype Dom = Dom(
    present: set<Locator>,
    visible: set<Locator>,
    texts: map<Locator, Option<string>>,
    lists: map<Locator, seq<BasePage.Element>>,
    checkboxes: set<Locator>,
    selected: set<Locator>)

  /** A visible element is also present. */
  predicate WellFormed(d: Dom) {
    d.visible <= d.present
  }

  function TextOf(d: Dom, loc: Locator): Option<string> {
    if loc in d.texts then d.texts[loc] else None
  }

  function ListOf(d: Dom, loc: Locator): seq<BasePage.Element> {
    if loc in d.lists then d.lists[loc] else []
  }

  /** The visibility wait of `find_visible` (and the clickable wait) against `d`. */
  function VisibleWait(d: Dom, loc: Locator): (w: BasePage.WaitOutcome)
    ensures w.Found? <==> loc in d.visible
    ensures w.WaitRaised? ==> w.exc == TimeoutException
  {
    if loc in d.visible then BasePage.Found(BasePage.Element(TextOf(d, loc), map[]))
    else BasePage.WaitRaised(TimeoutException)
  }

  /** The presence wait of `find` against `d`. */
  function PresenceWait(d: Dom, loc: Locator): (w: BasePage.WaitOutcome)
    ensures w.Found? <==> loc in d.present
    ensures w.WaitRaised? ==> w.exc == TimeoutException
  {
    if loc in d.present then BasePage.Found(BasePage.Element(TextOf(d, loc), map[]))
    else BasePage.WaitRaised(TimeoutException)
  }

  /** Whether an effect command gets past its wait: clicking, typing and hovering
      need a visible element, scrolling a present one. */
  predicate Enabled(d: Dom, a: Action) {
    match a
    case Click(loc) => loc in d.visible
    case Type(loc, _, _) => loc in d.visible
    case Hover(loc) => loc in d.visible
    case Scroll(loc) => loc in d.present
    case Read(loc) => loc in d.visible
    case _ => true
  }

  // ---------- runs ----------

  /** What a page method did: the commands that completed, in order, and its
      return value or the exception it raised. */
  datatype Run<+T> = Run(trace: seq<Action>, result: Result<T>)

  predicate NoClicks(trace: seq<Action>) {
    forall i :: 0 <= i < |trace| ==> !IsClick(trace[i])
  }

  predicate NoEffects(trace: seq<Action>) {
    forall i :: 0 <= i < |trace| ==> !IsEffect(trace[i])
  }

  /** The index of the first command of `cmds` that cannot run, or |cmds|. */
  function Ready(d: Dom, cmds: seq<Action>): (n: nat)
    ensures n <= |cmds|
    ensures forall i :: 0 <= i < n ==> Enabled(d, cmds[i])
    ensures n < |cmds| ==> !Enabled(d, cmds[n])
  {
    if cmds == [] || !Enabled(d, cmds[0]) then 0 else 1 + Ready(d, cmds[1..])
  }

  /** Issue the effect commands in order; the first whose wait fails raises
      TimeoutException and nothing after it runs. */
  function Perform(d: Dom, cmds: seq<Action>): (r: Run<()>)
    ensures r.result.Ok? <==> forall i :: 0 <= i < |cmds| ==> Enabled(d, cmds[i])
    ensures r.result.Raised? ==> r.result.exc == TimeoutException
    ensures r.trace == cmds[..Ready(d, cmds)]
  {
    if cmds == [] then Run([], Ok(()))
    else if !Enabled(d, cmds[0]) then Run([], Raised(TimeoutException))
    else
      var rest := Perform(d, cmds[1..]);
      assert cmds[..Ready(d, cmds)] == [cmds[0]] + cmds[1..][..Ready(d, cmds[1..])];
      Run([cmds[0]] + rest.trace, rest.result)
  }

  /** Run `first`, then, when it returned, `next`: the traces concatenate and the
      result is `next`'s; an exception in `first` skips `next`. */
  function Then<T>(first: Run<()>, next: Run<T>): (r: Run<T>)
    ensures first.result.Ok? ==> r == Run(first.trace + next.trace, next.result)
    ensures first.result.Raised? ==> r == Run(first.trace, Raised(first.result.exc))
  {
    match first.result
    case Ok(_) => Run(first.trace + next.trace, next.result)
    case Raised(e) => Run(first.trace, Raised(e))
  }

  /** A run that issues no command and returns `v`. */
  function Return<T>(v: T): (r: Run<T>)
    ensures r.trace == [] && r.result == Ok(v)
  {
    Run([], Ok(v))
  }

  // ---------- the BasePage primitives at page level ----------

  /** `is_displayed(loc)`: never raises against a steady DOM. */
  function IsDisplayed(d: Dom, loc: Locator): (r: Run<bool>)
    ensures r == Run([Check(loc)], Ok(loc in d.visible))
  {
    var p := BasePage.Probe(VisibleWait(d, loc));
    assert p.Ok?;
    Run([Check(loc)], p)
  }

  /** `is_present(loc)`. */
  function IsPresent(d: Dom, loc: Locator): (r: Run<bool>)
    ensures r == Run([Check(loc)], Ok(loc in d.present))
  {
    var p := BasePage.Probe(PresenceWait(d, loc));
    assert p.Ok?;
    Run([Check(loc)], p)
  }

  /** `get_text(loc)`: the stripped text of a visible element, `""` for missing
      text, TimeoutException when the element is not visible. */
  function GetText(d: Dom, loc: Locator): (r: Run<string>)
    ensures r.result.Ok? <==> loc in d.visible
    ensures r.result.Ok? ==> r.trace == [Read(loc)]
    ensures r.result.Ok? && TextOf(d, loc).Some? ==> Ascii.TrimOf(TextOf(d, loc).value, r.result.value)
    ensures r.result.Ok? && TextOf(d, loc).None? ==> r.result.value == ""
    ensures r.result.Raised? ==> r.trace == [] && r.result.exc == TimeoutException
  {
    var g := BasePage.GetText(VisibleWait(d, loc));
    if g.Ok? then Run([Read(loc)], g) else Run([], g)
  }

  /** `find_all(loc)` with a positive timeout against a steady DOM: what the DOM
      holds for the locator, possibly nothing. */
  function FindAll(d: Dom, loc: Locator): (r: Run<seq<BasePage.Element>>)
    ensures r == Run([Collect(loc)], Ok(ListOf(d, loc)))
  {
    Run([Collect(loc)], Ok(ListOf(d, loc)))
  }

  /** The `find_all` result above is what the polling loop of `BasePage` returns
      for a driver that answers every poll with the DOM's list. */
  lemma FindAllAgreesWithPolling(d: Dom, loc: Locator, cost: nat -> nat)
    ensures BasePage.FindAll((k: nat) => BasePage.Elements(ListOf(d, loc)), cost,
                             BasePage.InstanceTimeout(None)).result == FindAll(d, loc).result
  {
    var polls := (k: nat) => BasePage.Elements(ListOf(d, loc));
    assert forall j: nat :: polls(j) == BasePage.Elements(ListOf(d, loc));
    BasePage.SteadyDomFindAll(polls, cost, BasePage.InstanceTimeout(None), ListOf(d, loc));
  }

  /** `is_selected(loc)`: the oracle's answer. */
  function IsSelected(d: Dom, loc: Locator): (r: Run<bool>)
    ensures r == Run([AskSelected(loc)], Ok(loc in d.selected))
  {
    Run([AskSelected(loc)], Ok(loc in d.selected))
  }

  /** `send_keys(loc, text, clear_first)` as a command. */
  function SendKeys(d: Dom, loc: Locator, text: string, clearFirst: bool): (r: Run<()>)
    ensures r.result.Ok? <==> loc in d.visible
    ensures r.result.Ok? ==> r.trace == [Type(loc, text, clearFirst)]
    ensures r.result.Raised? ==> r.trace == [] && r.result.exc == TimeoutException
  {
    Perform(d, [Type(loc, text, clearFirst)])
  }

  /** `click(loc)` as a command. */
  function ClickOn(d: Dom, loc: Locator): (r: Run<()>)
    ensures r.result.Ok? <==> loc in d.visible
    ensures r.result.Ok? ==> r.trace == [Click(loc)]
    ensures r.result.Raised? ==> r.trace == [] && r.result.exc == TimeoutException
  {
    Perform(d, [Click(loc)])
  }

  /** A call into an undefined member: recorded, and it returns nothing. */
  function Delegated(d: Dom, op: Op): (r: Run<()>)
    ensures r.trace == [Delegate(op)] && r.result == Ok(())
  {
    var cs := [Delegate(op)];
    assert Enabled(d, cs[0]);
    var r := Perform(d, cs);
    assert r.trace == cs[..Ready(d, cs)] == cs;
    assert r.result.Ok? && r.result.value == ();
    r
  }

  // ---------- short-circuit conjunction of checks ----------

  /** One check in an `a and b and ...` chain. */
  datatype Cond = Displayed(loc: Locator) | AtLeast(loc: Locator, n: nat)

  predicate Holds(d: Dom, c: Cond) {
    match c
    case Displayed(loc) => loc in d.visible
    case AtLeast(loc, n) => |ListOf(d, loc)| >= n
  }

  /** Every check of the chain holds. */
  predicate AllHold(d: Dom, cs: seq<Cond>) {
    forall i :: 0 <= i < |cs| ==> Holds(d, cs[i])
  }

  function ProbeOf(c: Cond): Action {
    match c
    case Displayed(loc) => Check(loc)
    case AtLeast(loc, _) => Collect(loc)
  }

  /** The number of checks Python evaluates: up to and including the first false
      one, or all of them. */
  function Evaluated(d: Dom, cs: seq<Cond>): (n: nat)
    ensures n <= |cs|
    ensures forall i :: 0 <= i < n - 1 ==> Holds(d, cs[i])
    ensures n < |cs| ==> n > 0 && !Holds(d, cs[n - 1])
    ensures AllHold(d, cs) ==> n == |cs|
  {
    if cs == [] then 0
    else if !Holds(d, cs[0]) then 1
    else 1 + Evaluated(d, cs[1..])
  }

  /** `c1 and c2 and ...` over checks: True exactly when every check holds; the
      checks run left to right and stop at the first false one. */
  function AllOf(d: Dom, cs: seq<Cond>): (r: Run<bool>)
    ensures r.result == Ok(AllHold(d, cs))
    ensures |r.trace| == Evaluated(d, cs)
    ensures forall i :: 0 <= i < |r.trace| ==> r.trace[i] == ProbeOf(cs[i])
  {
    if cs == [] then Run([], Ok(true))
    else if !Holds(d, cs[0]) then Run([ProbeOf(cs[0])], Ok(false))
    else
      var rest := AllOf(d, cs[1..]);
      Run([ProbeOf(cs[0])] + rest.trace, rest.result)
  }

  /** Python's `a() and b()` over two such chains. */
  function AndThen(first: Run<bool>, second: Run<bool>): (r: Run<bool>)
    ensures first.result == Ok(false) ==> r == first
    ensures first.result == Ok(true) ==> r == Run(first.trace + second.trace, second.result)
  {
    match first.result
    case Ok(b) => if b then Run(first.trace + second.trace, second.result) else first
    case Raised(e) => first
  }

  // ---------- clicks on checkboxes ----------

  /** The page after a trace: clicking a checkbox toggles it; nothing else in this
      oracle changes. */
  function Apply(d: Dom, trace: seq<Action>): (d': Dom)
    ensures d'.present == d.present && d'.visible == d.visible
    ensures d'.checkboxes == d.checkboxes && d'.texts == d.texts && d'.lists == d.lists
    ensures NoClicks(trace) ==> d' == d
    decreases |trace|
  {
    if trace == [] then d
    else
      var d1 := match trace[0]
        case Click(loc) =>
          if loc in d.checkboxes then
            d.(selected := if loc in d.selected then d.selected - {loc} else d.selected + {loc})
          else d
        case _ => d;
      Apply(d1, trace[1..])
  }

  // ---------- page objects ----------

  /** The page-object classes. */
  datatype PageKind =
    | Guest | Home | Login | SignUp | AccountCreated | AccountDeleted | Cart
    | Products | ProductDetails | ContactUs | Checkout | Payment | OrderPlaced | TestCases

  /** A page object: its class, the driver it is bound to, and its instance timeout. */
  datatype PageObject = PageObject(kind: PageKind, driver: nat, timeout: int)

  /** `SomePage(self.driver)`: the same driver, and the instance timeout that the
      constructor gives when no timeout is passed. */
  function Construct(kind: PageKind, driver: nat): (p: PageObject)
    ensures p.kind == kind && p.driver == driver
    ensures p.timeout == BasePage.DefaultTimeout
  {
    PageObject(kind, driver, BasePage.InstanceTimeout(None))
  }

  /** The page-returning methods: run `first`, then construct the `kind` page on
      the same driver. */
  function ThenPage(first: Run<()>, kind: PageKind, driver: nat): (r: Run<PageObject>)
    ensures r.trace == first.trace
    ensures r.result.Ok? <==> first.result.Ok?
    ensures r.result.Ok? ==> r.result.value == Construct(kind, driver)
    ensures r.result.Raised? ==> r.result.exc == first.result.exc
  {
    Then(first, Return(Construct(kind, driver)))
  }
}

=== FILE: product_details_page.dfy ===
/** `ProductDetailsPage`: the product's details, its quantity and add button, and
    the review form. */
module ProductDetailsPage {
  import opened Exceptions
  import Ascii
  import opened PageKit

  const ProductInfoContainer := Locator(ClassName, "product-information")
  const LblProductName := Locator(CssSelector, ".product-information h2")
  const LblCategory := Locator(XPath, "//p[contains(text(),'Category')]")
  const LblPrice := Locator(XPath, "//span[contains(text(),'Rs.')]")
  const LblAvailability := Locator(XPath, "//b[contains(text(),'Availability')]")
  const LblCondition := Locator(XPath, "//b[normalize-space()='Condition:']")
  const LblBrand := Locator(XPath, "//b[normalize-space()='Brand:']")
  const InputQuantity := Locator(Id, "quantity")
  const BtnAddToCart := Locator(CssSelector, "button.cart")
  const LblReviewTitle := Locator(XPath, "//a[normalize-space()='Write Your Review']")
  const InputReviewName := Locator(Id, "name")
  const InputReviewEmail := Locator(Id, "email")
  const InputReviewContent := Locator(Id, "review")
  const BtnSubmitReview := Locator(Id, "button-review")
  const MsgReviewSuccess := Locator(CssSelector, ".alert-success span")

  /** `is_product_details_page_visible`. */
  function IsProductDetailsPageVisible(d: Dom): (r: Run<bool>)
    ensures r == Run([Check(ProductInfoContainer)], Ok(ProductInfoContainer in d.visible))
  {
    IsDisplayed(d, ProductInfoContainer)
  }

  /** The labels `are_product_details_visible` checks, in its order. */
  const DetailLabels: seq<Locator> := [LblProductName, LblCategory, LblPrice, LblAvailability, LblCondition, LblBrand]

  function DetailConds(): (cs: seq<Cond>)
    ensures |cs| == |DetailLabels|
    ensures forall i :: 0 <= i < |cs| ==> cs[i] == Displayed(DetailLabels[i])
  {
    seq(|DetailLabels|, i requires 0 <= i < |DetailLabels| => Displayed(DetailLabels[i]))
  }

  /** `are_product_details_visible`: `all(...)` over the six labels, which stops at
      the first hidden one. */
  function AreProductDetailsVisible(d: Dom): (r: Run<bool>)
    ensures r.result == Ok(forall i :: 0 <= i < |DetailLabels| ==> DetailLabels[i] in d.visible)
    ensures 1 <= |r.trace| <= 6
    ensures forall i :: 0 <= i < |r.trace| ==> r.trace[i] == Check(DetailLabels[i])
    ensures forall i :: 0 <= i < |r.trace| - 1 ==> DetailLabels[i] in d.visible
    ensures |r.trace| < 6 ==> DetailLabels[|r.trace| - 1] !in d.visible
  {
    var cs := DetailConds();
    var r := AllOf(d, cs);
    assert AllHold(d, cs) <==> forall i :: 0 <= i < |DetailLabels| ==> DetailLabels[i] in d.visible by {
      assert forall i :: 0 <= i < |cs| ==> (Holds(d, cs[i]) <==> DetailLabels[i] in d.visible);
    }
    r
  }

  /** A hidden product name is the only label looked at. */
  lemma HiddenNameStopsAtOnce(d: Dom)
    requires LblProductName !in d.visible
    ensures AreProductDetailsVisible(d) == Run([Check(LblProductName)], Ok(false))
  {
    var r := AreProductDetailsVisible(d);
    assert DetailLabels[0] !in d.visible;
    assert |r.trace| == 1;
    assert r.trace == [r.trace[0]];
  }

  /** `is_review_section_visible`: scroll the review title into view (a presence
      wait), then check it is shown. An absent title raises TimeoutException from
      the scroll; a present but hidden one answers False. */
  function IsReviewSectionVisible(d: Dom): (r: Run<bool>)
    ensures r.result.Raised? <==> LblReviewTitle !in d.present
    ensures r.result.Raised? ==> r == Run([], Raised(TimeoutException))
    ensures r.result.Ok? ==> r == Run([Scroll(LblReviewTitle), Check(LblReviewTitle)], Ok(LblReviewTitle in d.visible))
  {
    Then(Perform(d, [Scroll(LblReviewTitle)]), IsDisplayed(d, LblReviewTitle))
  }

  /** On a well-formed page the check answers True exactly when the title is
      shown, and never raises then. */
  lemma ReviewSectionShown(d: Dom)
    requires WellFormed(d) && LblReviewTitle in d.visible
    ensures IsReviewSectionVisible(d).result == Ok(true)
  {
  }

  /** `set_quantity`: clears the quantity field, then types. */
  function SetQuantity(d: Dom, quantity: string): (r: Run<()>)
    ensures r.result.Ok? <==> InputQuantity in d.visible
    ensures r.result.Ok? ==> r.trace == [Type(InputQuantity, quantity, true)]
    ensures r.result.Raised? ==> r.trace == [] && r.result.exc == TimeoutException
  {
    SendKeys(d, InputQuantity, quantity, true)
  }

  /** `click_add_to_cart`. */
  function ClickAddToCart(d: Dom): (r: Run<()>)
    ensures r.result.Ok? <==> BtnAddToCart in d.visible
    ensures r.result.Ok? ==> r.trace == [Click(BtnAddToCart)]
    ensures r.result.Raised? ==> r.trace == [] && r.result.exc == TimeoutException
  {
    ClickOn(d, BtnAddToCart)
  }

  /** `enter_review_name`, `enter_review_email`, `enter_review_content`: each
      clears its field (the `send_keys` default) and types. */
  function EnterReviewName(d: Dom, name: string): (r: Run<()>)
    ensures r.result.Ok? <==> InputReviewName in d.visible
    ensures r.result.Ok? ==> r.trace == [Type(InputReviewName, name, true)]
    ensures r.result.Raised? ==> r.trace == [] && r.result.exc == TimeoutException
  {
    SendKeys(d, InputReviewName, name, true)
  }

  function EnterReviewEmail(d: Dom, email: string): (r: Run<()>)
    ensures r.result.Ok? <==> InputReviewEmail in d.visible
    ensures r.result.Ok? ==> r.trace == [Type(InputReviewEmail, email, true)]
    ensures r.result.Raised? ==> r.trace == [] && r.result.exc == TimeoutException
  {
    SendKeys(d, InputReviewEmail, email, true)
  }

  function EnterReviewContent(d: Dom, content: string): (r: Run<()>)
    ensures r.result.Ok? <==> InputReviewContent in d.visible
    ensures r.result.Ok? ==> r.trace == [Type(InputReviewContent, content, true)]
    ensures r.result.Raised? ==> r.trace == [] && r.result.exc == TimeoutException
  {
    SendKeys(d, InputReviewContent, content, true)
  }

  /** `click_submit`. */
  function ClickSubmit(d: Dom): (r: Run<()>)
    ensures r.result.Ok? <==> BtnSubmitReview in d.visible
    ensures r.result.Ok? ==> r.trace == [Click(BtnSubmitReview)]
    ensures r.result.Raised? ==> r.trace == [] && r.result.exc == TimeoutException
  {
    ClickOn(d, BtnSubmitReview)
  }

  /** The review form is usable: all three fields and the submit button shown. */
  predicate ReviewFormShown(d: Dom) {
    InputReviewName in d.visible && InputReviewEmail in d.visible
    && InputReviewContent in d.visible && BtnSubmitReview in d.visible
  }

  /** `submit_product_review`: name, email and review typed in that order, each
      field cleared first, then Submit clicked. */
  function SubmitProductReview(d: Dom, name: string, email: string, content: string): (r: Run<()>)
    ensures r.result.Ok? <==> ReviewFormShown(d)
    ensures r.result.Ok? ==> r.trace == [Type(InputReviewName, name, true), Type(InputReviewEmail, email, true),
                                         Type(InputReviewContent, content, true), Click(BtnSubmitReview)]
    ensures r.result.Raised? ==> r.result.exc == TimeoutException && |r.trace| < 4
  {
    var cs := [Type(InputReviewName, name, true), Type(InputReviewEmail, email, true),
               Type(InputReviewContent, content, true), Click(BtnSubmitReview)];
    assert Enabled(d, cs[0]) <==> InputReviewName in d.visible;
    assert Enabled(d, cs[1]) <==> InputReviewEmail in d.visible;
    assert Enabled(d, cs[2]) <==> InputReviewContent in d.visible;
    assert Enabled(d, cs[3]) <==> BtnSubmitReview in d.visible;
    Perform(d, cs)
  }

  /** Submitting the review is the same as the four single-step methods one
      after the other, whichever of them fails. */
  lemma SubmitIsTheSingleSteps(d: Dom, name: string, email: string, content: string)
    ensures SubmitProductReview(d, name, email, content) ==
      Then(EnterReviewName(d, name), Then(EnterReviewEmail(d, email),
        Then(EnterReviewContent(d, content), ClickSubmit(d))))
  {
    var cs := [Type(InputReviewName, name, true), Type(InputReviewEmail, email, true),
               Type(InputReviewContent, content, true), Click(BtnSubmitReview)];
    var k := Ready(d, cs);
    if k < 4 {
      assert !Enabled(d, cs[k]);
      assert cs[..k] == cs[..4][..k];
    } else {
      assert cs[..4] == cs;
      var r := SubmitProductReview(d, name, email, content);
      assert r.result.Ok? && r.result.value == ();
      assert ClickSubmit(d).result.Ok? && ClickSubmit(d).result.value == ();
      assert [cs[0]] + ([cs[1]] + ([cs[2]] + [cs[3]])) == cs;
    }
  }

  /** `add_to_cart_and_view_cart`: click Add to cart, then View Cart on the modal;
      returns the modal's None. */
  function AddToCartAndViewCart(d: Dom): (r: Run<()>)
    ensures r.result.Ok? <==> BtnAddToCart in d.visible
    ensures r.result.Ok? ==> r.trace == [Click(BtnAddToCart), Delegate(ModalViewCart)]
    ensures r.result.Raised? ==> r == Run([], Raised(TimeoutException))
  {
    Then(ClickAddToCart(d), Delegated(d, ModalViewCart))
  }

  /** `navigate_to_cart_via_modal`: View Cart on the modal, then the cart page off
      the undefined `navigate` member. */
  function NavigateToCartViaModal(d: Dom): (r: Run<()>)
    ensures r.trace == [Delegate(ModalViewCart), Delegate(NavigateCart)]
    ensures r.result.Ok?
  {
    Then(Delegated(d, ModalViewCart), Delegated(d, NavigateCart))
  }

  /** `get_review_success_message`. */
  function GetReviewSuccessMessage(d: Dom): (r: Run<string>)
    ensures r.result.Ok? <==> MsgReviewSuccess in d.visible
    ensures r.result.Ok? && TextOf(d, MsgReviewSuccess).Some? ==>
      Ascii.TrimOf(TextOf(d, MsgReviewSuccess).value, r.result.value)
    ensures r.result.Raised? ==> r.result.exc == TimeoutException
  {
    GetText(d, MsgReviewSuccess)
  }
}

=== FILE: products_page.dfy ===
/** `ProductsPage`: product listing, search, and adding products to the cart. */
module ProductsPage {
  import opened Wrappers
  import opened Exceptions
  import Ascii
  import BasePage
  import opened PageKit

  const LblAllProductsTitle := Locator(XPath, "//h2[normalize-space()='All Products']")
  const LstProductItems := Locator(XPath, "//div[@class='single-products']")
  const InputSearch := Locator(XPath, "//input[@id='search_product']")
  const BtnSearch := Locator(XPath, "//button[@id='submit_search']")
  const LblSearchedProducts := Locator(XPath, "//h2[normalize-space()='Searched Products']")
  const LblProductNames := Locator(CssSelector, ".productinfo p")

  // ---------- visibility ----------

  function IsProductsPageVisible(d: Dom): (r: Run<bool>)
    ensures r == Run([Check(LblAllProductsTitle)], Ok(LblAllProductsTitle in d.visible))
  {
    IsDisplayed(d, LblAllProductsTitle)
  }

  function IsProductsListVisible(d: Dom): (r: Run<bool>)
    ensures r == Run([Check(LstProductItems)], Ok(LstProductItems in d.visible))
  {
    IsDisplayed(d, LstProductItems)
  }

  function IsSearchedProductsVisible(d: Dom): (r: Run<bool>)
    ensures r == Run([Check(LblSearchedProducts)], Ok(LblSearchedProducts in d.visible))
  {
    IsDisplayed(d, LblSearchedProducts)
  }

  // ---------- locator generators ----------

  /** A template with the name placed verbatim between `prefix` and `suffix`. */
  function Embed(prefix: string, name: string, suffix: string): (v: string)
    ensures |v| == |prefix| + |name| + |suffix|
    ensures v[..|prefix|] == prefix && v[|v| - |suffix|..] == suffix
  {
    prefix + name + suffix
  }

  /** Read the name back out of a generated value. */
  function Extract(prefix: string, suffix: string, v: string): (name: string)
    requires |prefix| + |suffix| <= |v|
  {
    v[|prefix|..|v| - |suffix|]
  }

  /** Nothing is escaped or lost: the name comes back out unchanged. */
  lemma ExtractEmbed(prefix: string, name: string, suffix: string)
    ensures Extract(prefix, suffix, Embed(prefix, name, suffix)) == name
  {
    var v := Embed(prefix, name, suffix);
    assert v == prefix + name + suffix;
    assert v[|prefix|..|v| - |suffix|] == name;
  }

  const ViewPrefix := "//div[contains(@class,'product-image-wrapper')][.//p[normalize-space()='"
  const ViewSuffix := "']]//a[normalize-space()='View Product']"
  const ContainerPrefix := "//p[contains(.,'"
  const ContainerSuffix := "')]/parent::div[contains(@class ,'productinfo')]"
  const AddPrefix := "//p[normalize-space()='"
  const AddSuffix := "']/parent::div[@class='overlay-content']//a[contains(@class,'add-to-cart')]"

  /** `_get_btn_view_product`. */
  function BtnViewProduct(name: string): (l: Locator)
    ensures l.strategy == XPath && l.value == Embed(ViewPrefix, name, ViewSuffix)
  {
    Locator(XPath, Embed(ViewPrefix, name, ViewSuffix))
  }

  /** `_get_product_container`. */
  function ProductContainer(name: string): (l: Locator)
    ensures l.strategy == XPath && l.value == Embed(ContainerPrefix, name, ContainerSuffix)
  {
    Locator(XPath, Embed(ContainerPrefix, name, ContainerSuffix))
  }

  /** `_get_btn_add_to_cart`. */
  function BtnAddToCart(name: string): (l: Locator)
    ensures l.strategy == XPath && l.value == Embed(AddPrefix, name, AddSuffix)
  {
    Locator(XPath, Embed(AddPrefix, name, AddSuffix))
  }

  /** Each generator embeds the name verbatim: reading it back gives the name, so
      different names give different locators. */
  lemma GeneratorsRoundTrip(name: string)
    ensures Extract(ViewPrefix, ViewSuffix, BtnViewProduct(name).value) == name
    ensures Extract(ContainerPrefix, ContainerSuffix, ProductContainer(name).value) == name
    ensures Extract(AddPrefix, AddSuffix, BtnAddToCart(name).value) == name
  {
    ExtractEmbed(ViewPrefix, name, ViewSuffix);
    ExtractEmbed(ContainerPrefix, name, ContainerSuffix);
    ExtractEmbed(AddPrefix, name, AddSuffix);
  }

  lemma GeneratorsInjective(a: string, b: string)
    ensures BtnViewProduct(a) == BtnViewProduct(b) ==> a == b
    ensures ProductContainer(a) == ProductContainer(b) ==> a == b
    ensures BtnAddToCart(a) == BtnAddToCart(b) ==> a == b
  {
    GeneratorsRoundTrip(a);
    GeneratorsRoundTrip(b);
  }

  // ---------- search ----------

  /** `search_product`: type the name (clearing first), then click Search. */
  function SearchProduct(d: Dom, name: string): (r: Run<()>)
    ensures r.result.Ok? <==> InputSearch in d.visible && BtnSearch in d.visible
    ensures r.result.Ok? ==> r.trace == [Type(InputSearch, name, true), Click(BtnSearch)]
    ensures InputSearch !in d.visible ==> r == Run([], Raised(TimeoutException))
    ensures InputSearch in d.visible && BtnSearch !in d.visible ==>
      r == Run([Type(InputSearch, name, true)], Raised(TimeoutException))
  {
    Perform(d, [Type(InputSearch, name, true), Click(BtnSearch)])
  }

  // ---------- displayed product names ----------

  /** The name one element contributes: its stripped text, nothing when that is
      blank, and AttributeError when it has no text, since None has no `strip`. */
  function NameOf(e: BasePage.Element): (r: Result<seq<string>>)
    ensures r.Raised? <==> e.text.None?
    ensures r.Raised? ==> r.exc == AttributeError
    ensures r.Ok? ==> r.value == (if Ascii.Strip(e.text.value) == "" then [] else [Ascii.Strip(e.text.value)])
  {
    match e.text
    case None => Raised(AttributeError)
    case Some(t) => var s := Ascii.Strip(t); Ok(if s == "" then [] else [s])
  }

  /** Prepend the name of one element to the names of the rest; the first
      exception wins, as in a left-to-right comprehension. */
  function Cons(head: Result<seq<string>>, rest: Result<seq<string>>): Result<seq<string>> {
    match head
    case Raised(e) => Raised(e)
    case Ok(h) =>
      match rest
      case Raised(e) => Raised(e)
      case Ok(t) => Ok(h + t)
  }

  /** Every element has a text. */
  predicate AllHaveText(es: seq<BasePage.Element>) {
    forall i :: 0 <= i < |es| ==> es[i].text.Some?
  }

  /** `[el.text.strip() for el in elements if el.text.strip()]`. */
  function NamesOf(es: seq<BasePage.Element>): (r: Result<seq<string>>)
    ensures r.Ok? <==> AllHaveText(es)
    ensures r.Raised? ==> r.exc == AttributeError
  {
    if es == [] then Ok([])
    else Cons(NameOf(es[0]), NamesOf(es[1..]))
  }

  /** Each listed name is stripped and not blank. */
  lemma {:induction false} NamesAreClean(es: seq<BasePage.Element>)
    requires NamesOf(es).Ok?
    ensures forall j :: 0 <= j < |NamesOf(es).value| ==>
      NamesOf(es).value[j] != "" && Ascii.IsStripped(NamesOf(es).value[j])
  {
    if es != [] {
      NamesAreClean(es[1..]);
      Ascii.StripIdempotent(es[0].text.value);
    }
  }

  /** A name is listed exactly when some element's stripped text is that name and
      is not blank. */
  lemma {:induction false} NamesOfMembers(es: seq<BasePage.Element>, s: string)
    requires NamesOf(es).Ok?
    ensures s in NamesOf(es).value <==>
      s != "" && exists i :: 0 <= i < |es| && Ascii.Strip(es[i].text.value) == s
  {
    if es != [] {
      NamesOfMembers(es[1..], s);
      assert NamesOf(es).value == NameOf(es[0]).value + NamesOf(es[1..]).value;
      if s != "" && Ascii.Strip(es[0].text.value) != s && exists i :: 0 <= i < |es| && Ascii.Strip(es[i].text.value) == s {
        var i :| 0 <= i < |es| && Ascii.Strip(es[i].text.value) == s;
        assert es[1..][i - 1] == es[i];
      }
      if s != "" && exists i :: 0 <= i < |es[1..]| && Ascii.Strip(es[1..][i].text.value) == s {
        var i :| 0 <= i < |es[1..]| && Ascii.Strip(es[1..][i].text.value) == s;
        assert es[i + 1] == es[1..][i];
      }
    }
  }

  lemma SplitHead<T>(a: seq<T>, b: seq<T>)
    requires a != []
    ensures a + b != [] && (a + b)[0] == a[0] && (a + b)[1..] == a[1..] + b
  {
  }

  /** DOM order is kept: the names of two runs of elements are the names of the
      first followed by the names of the second. */
  lemma {:induction false} NamesOfAppend(a: seq<BasePage.Element>, b: seq<BasePage.Element>)
    requires NamesOf(a).Ok? && NamesOf(b).Ok?
    ensures NamesOf(a + b) == Ok(NamesOf(a).value + NamesOf(b).value)
  {
    if a == [] {
      assert a + b == b;
      assert NamesOf(a).value + NamesOf(b).value == NamesOf(b).value;
    } else {
      SplitHead(a, b);
      var rest := a[1..];
      NamesOfAppend(rest, b);
      var h := NameOf(a[0]);
      assert NamesOf(a) == Cons(h, NamesOf(rest));
      assert NamesOf(a + b) == Cons(h, NamesOf(rest + b));
      var x, y := NamesOf(rest).value, NamesOf(b).value;
      assert h.value + (x + y) == (h.value + x) + y;
    }
  }

  /** `get_displayed_product_names`. */
  function GetDisplayedProductNames(d: Dom): (r: Run<seq<string>>)
    ensures r.trace == [Collect(LblProductNames)]
    ensures r.result == NamesOf(ListOf(d, LblProductNames))
  {
    var found := FindAll(d, LblProductNames);
    Run(found.trace, NamesOf(found.result.value))
  }

  // ---------- search relevance ----------

  /** Every name contains the keyword, ignoring ASCII case. */
  function AllMention(names: seq<string>, keyword: string): (b: bool)
    ensures b <==> forall i :: 0 <= i < |names| ==> Ascii.Contains(Ascii.Lower(names[i]), Ascii.Lower(keyword))
  {
    if names == [] then true
    else Ascii.Contains(Ascii.Lower(names[0]), Ascii.Lower(keyword)) && AllMention(names[1..], keyword)
  }

  /** `are_all_products_related_to_search`: False when nothing is listed; otherwise
      True exactly when every listed name contains the keyword, ignoring case. */
  function AreAllProductsRelatedToSearch(d: Dom, keyword: string): (r: Run<bool>)
    ensures r.trace == [Collect(LblProductNames)]
    ensures r.result.Raised? <==> NamesOf(ListOf(d, LblProductNames)).Raised?
    ensures NamesOf(ListOf(d, LblProductNames)) == Ok([]) ==> r.result == Ok(false)
    ensures r.result.Ok? ==> (r.result.value <==>
      NamesOf(ListOf(d, LblProductNames)).value != [] &&
      forall i :: 0 <= i < |NamesOf(ListOf(d, LblProductNames)).value| ==>
        Ascii.Contains(Ascii.Lower(NamesOf(ListOf(d, LblProductNames)).value[i]), Ascii.Lower(keyword)))
  {
    var shown := GetDisplayedProductNames(d);
    match shown.result
    case Raised(e) => Run(shown.trace, Raised(e))
    case Ok(names) => Run(shown.trace, Ok(names != [] && AllMention(names, keyword)))
  }

  /** An empty keyword matches any non-empty listing. */
  lemma EmptyKeywordMatchesAll(d: Dom)
    requires NamesOf(ListOf(d, LblProductNames)).Ok? && NamesOf(ListOf(d, LblProductNames)).value != []
    ensures AreAllProductsRelatedToSearch(d, "").result == Ok(true)
  {
    var names := NamesOf(ListOf(d, LblProductNames)).value;
    forall i | 0 <= i < |names|
      ensures Ascii.Contains(Ascii.Lower(names[i]), Ascii.Lower(""))
    {
      assert Ascii.Lower("") == "";
      Ascii.ContainsTrivial(Ascii.Lower(names[i]));
    }
  }

  // ---------- cart actions ----------

  /** `click_view_product_of`: scroll to the product's View Product link, click it,
      then read the details page off the undefined `navigate` member. */
  function ClickViewProductOf(d: Dom, name: string): (r: Run<()>)
    ensures r.result.Ok? <==> BtnViewProduct(name) in d.visible && BtnViewProduct(name) in d.present
    ensures r.result.Ok? ==>
      r.trace == [Scroll(BtnViewProduct(name)), Click(BtnViewProduct(name)), Delegate(NavigateProductDetails)]
  {
    var cs := [Scroll(BtnViewProduct(name)), Click(BtnViewProduct(name)), Delegate(NavigateProductDetails)];
    assert Enabled(d, cs[2]);
    Perform(d, cs)
  }

  /** The commands of `add_product_to_cart(name)`. */
  function AddCommands(name: string): (cs: seq<Action>)
    ensures |cs| == 3
  {
    [Scroll(ProductContainer(name)), Hover(ProductContainer(name)), Click(BtnAddToCart(name))]
  }

  /** `add_product_to_cart`: scroll to the product's box, hover it, then click its
      add button; both locators come from the same name. */
  function AddProductToCart(d: Dom, name: string): (r: Run<()>)
    ensures r.result.Ok? <==>
      ProductContainer(name) in d.present && ProductContainer(name) in d.visible && BtnAddToCart(name) in d.visible
    ensures r.result.Ok? ==> r.trace == AddCommands(name)
    ensures r.result.Raised? ==> r.result.exc == TimeoutException && |r.trace| < 3
    ensures ProductContainer(name) !in d.present ==> r.trace == []
    ensures ProductContainer(name) in d.present && ProductContainer(name) !in d.visible ==>
      r.trace == [Scroll(ProductContainer(name))]
    ensures ProductContainer(name) in d.present && ProductContainer(name) in d.visible && BtnAddToCart(name) !in d.visible ==>
      r.trace == [Scroll(ProductContainer(name)), Hover(ProductContainer(name))]
  {
    var cs := AddCommands(name);
    assert Enabled(d, cs[0]) <==> ProductContainer(name) in d.present;
    assert Enabled(d, cs[1]) <==> ProductContainer(name) in d.visible;
    assert Enabled(d, cs[2]) <==> BtnAddToCart(name) in d.visible;
    Perform(d, cs)
  }

  /** Both locators of one add name the same product. */
  lemma AddTargetsOneProduct(name: string)
    ensures Extract(ContainerPrefix, ContainerSuffix, AddCommands(name)[0].loc.value) == name
    ensures Extract(ContainerPrefix, ContainerSuffix, AddCommands(name)[1].loc.value) == name
    ensures Extract(AddPrefix, AddSuffix, AddCommands(name)[2].loc.value) == name
  {
    GeneratorsRoundTrip(name);
  }

  /** Step i of `add_all_displayed_products_to_cart`: add names[i], then continue
      shopping unless it was the last. */
  function StepCommands(names: seq<string>, i: nat): seq<Action>
    requires i < |names|
  {
    AddCommands(names[i]) + (if i < |names| - 1 then [Delegate(ModalContinueShopping)] else [])
  }

  /** The commands of the first n steps. */
  function PlanUpTo(names: seq<string>, n: nat): seq<Action>
    requires n <= |names|
  {
    if n == 0 then [] else PlanUpTo(names, n - 1) + StepCommands(names, n - 1)
  }

  function Plan(names: seq<string>): seq<Action> {
    PlanUpTo(names, |names|)
  }

  predicate AllEnabled(d: Dom, cs: seq<Action>) {
    forall i :: 0 <= i < |cs| ==> Enabled(d, cs[i])
  }

  lemma {:induction false} PlanPrefix(names: seq<string>, m: nat, n: nat)
    requires m <= n <= |names|
    ensures PlanUpTo(names, m) <= PlanUpTo(names, n)
    decreases n - m
  {
    if m < n {
      PlanPrefix(names, m, n - 1);
    }
  }

  lemma EnabledAppend(d: Dom, a: seq<Action>, b: seq<Action>)
    requires AllEnabled(d, a) && AllEnabled(d, b)
    ensures AllEnabled(d, a + b)
  {
    forall i | 0 <= i < |a + b|
      ensures Enabled(d, (a + b)[i])
    {
      if i >= |a| {
        assert (a + b)[i] == b[i - |a|];
      }
    }
  }

  /** When step i stops at its first disabled command, the whole plan is not
      enabled, and what ran is a prefix of the plan. */
  lemma FailedStep(d: Dom, names: seq<string>, i: nat)
    requires i < |names| && Ready(d, StepCommands(names, i)) < |StepCommands(names, i)|
    ensures !AllEnabled(d, Plan(names))
    ensures PlanUpTo(names, i) + StepCommands(names, i)[..Ready(d, StepCommands(names, i))] <= Plan(names)
    ensures AllEnabled(d, PlanUpTo(names, i)) ==>
      Ready(d, Plan(names)) == |PlanUpTo(names, i)| + Ready(d, StepCommands(names, i))
  {
    var step := StepCommands(names, i);
    var k := Ready(d, step);
    var p := PlanUpTo(names, i);
    PlanPrefix(names, i + 1, |names|);
    assert PlanUpTo(names, i + 1) == p + step;
    assert Plan(names)[|p| + k] == (p + step)[|p| + k] == step[k];
    assert p + step[..k] == (p + step)[..|p| + k];
    if AllEnabled(d, p) {
      var plan := Plan(names);
      forall j | 0 <= j < |p| + k
        ensures Enabled(d, plan[j])
      {
        assert plan[j] == (p + step)[j];
        if j >= |p| {
          assert (p + step)[j] == step[j - |p|];
        }
      }
      var n := Ready(d, plan);
      assert !(n < |p| + k);
      assert !(n > |p| + k);
    }
  }

  /** The adds of `add_all_displayed_products_to_cart` for a list of names. */
  method AddAll(d: Dom, names: seq<string>) returns (r: Run<()>)
    ensures r.result.Ok? <==> AllEnabled(d, Plan(names))
    ensures r.result.Ok? ==> r.trace == Plan(names)
    ensures r.result.Raised? ==> r.result.exc == TimeoutException && r.trace <= Plan(names)
    ensures r.trace == Plan(names)[..Ready(d, Plan(names))]
  {
    var trace := [];
    var i := 0;
    while i < |names|
      invariant 0 <= i <= |names|
      invariant trace == PlanUpTo(names, i)
      invariant AllEnabled(d, PlanUpTo(names, i))
    {
      var step := StepCommands(names, i);
      var part := Perform(d, step);
      if part.result.Raised? {
        FailedStep(d, names, i);
        assert trace + part.trace == Plan(names)[..|trace| + |part.trace|];
        return Run(trace + part.trace, Raised(TimeoutException));
      }
      EnabledAppend(d, PlanUpTo(names, i), step);
      trace := trace + part.trace;
      i := i + 1;
    }
    assert !(Ready(d, trace) < |trace|);
    return Run(trace, Ok(()));
  }

  /** `add_all_displayed_products_to_cart`: read the names, then add each in
      order, continuing shopping between adds. A name read from an element
      without text raises AttributeError before any add; otherwise the first
      command whose wait fails raises TimeoutException and ends the run. */
  method AddAllDisplayedProductsToCart(d: Dom) returns (r: Run<()>)
    ensures NamesOf(ListOf(d, LblProductNames)).Raised? ==>
      r == Run([Collect(LblProductNames)], Raised(AttributeError))
    ensures NamesOf(ListOf(d, LblProductNames)).Ok? ==>
      (r.result.Ok? <==> AllEnabled(d, Plan(NamesOf(ListOf(d, LblProductNames)).value)))
    ensures r.result.Ok? ==> r.trace == [Collect(LblProductNames)] + Plan(NamesOf(ListOf(d, LblProductNames)).value)
    ensures NamesOf(ListOf(d, LblProductNames)).Ok? && r.result.Raised? ==>
      r.result.exc == TimeoutException
      && r.trace <= [Collect(LblProductNames)] + Plan(NamesOf(ListOf(d, LblProductNames)).value)
    ensures NamesOf(ListOf(d, LblProductNames)).Ok? ==>
      var plan := Plan(NamesOf(ListOf(d, LblProductNames)).value);
      r.trace == [Collect(LblProductNames)] + plan[..Ready(d, plan)]
  {
    var shown := GetDisplayedProductNames(d);
    if shown.result.Raised? {
      return Run(shown.trace, Raised(shown.result.exc));
    }
    var adds := AddAll(d, shown.result.value);
    return Run(shown.trace + adds.trace, adds.result);
  }

  /** One continue-shopping per add except the last: k - 1 in all, none for an
      empty listing. */
  lemma {:induction false} ContinueShoppingCount(names: seq<string>, n: nat)
    requires n <= |names|
    ensures multiset(PlanUpTo(names, n))[Delegate(ModalContinueShopping)]
      == if n == 0 then 0 else if n < |names| then n else n - 1
  {
    if n > 0 {
      ContinueShoppingCount(names, n - 1);
      StepContinueCount(names, n - 1);
      var x := Delegate(ModalContinueShopping);
      assert PlanUpTo(names, n) == PlanUpTo(names, n - 1) + StepCommands(names, n - 1);
      assert multiset(PlanUpTo(names, n)) == multiset(PlanUpTo(names, n - 1)) + multiset(StepCommands(names, n - 1));
    }
  }

  /** Step i presses Continue Shopping once, unless it is the last step. */
  lemma StepContinueCount(names: seq<string>, i: nat)
    requires i < |names|
    ensures multiset(StepCommands(names, i))[Delegate(ModalContinueShopping)] == if i < |names| - 1 then 1 else 0
  {
    var x := Delegate(ModalContinueShopping);
    var adds := AddCommands(names[i]);
    assert multiset(adds)[x] == 0 by {
      assert adds == [adds[0], adds[1], adds[2]];
      assert adds[0] != x && adds[1] != x && adds[2] != x;
    }
  }

  /** The add buttons clicked by a trace, in order. */
  function ClickedButtons(trace: seq<Action>): seq<Locator> {
    if trace == [] then []
    else (if trace[0].Click? then [trace[0].loc] else []) + ClickedButtons(trace[1..])
  }

  lemma {:induction false} ClickedButtonsAppend(a: seq<Action>, b: seq<Action>)
    ensures ClickedButtons(a + b) == ClickedButtons(a) + ClickedButtons(b)
  {
    if a == [] {
      assert a + b == b;
    } else {
      assert (a + b)[0] == a[0];
      assert (a + b)[1..] == a[1..] + b;
      ClickedButtonsAppend(a[1..], b);
    }
  }

  /** The products are added in listing order, each once: the clicks of the plan
      are exactly the add buttons of the names, in order. */
  lemma {:induction false} AddsInOrder(names: seq<string>, n: nat)
    requires n <= |names|
    ensures ClickedButtons(PlanUpTo(names, n)) == seq(n, i requires 0 <= i < n => BtnAddToCart(names[i]))
  {
    if n > 0 {
      AddsInOrder(names, n - 1);
      var name := names[n - 1];
      var step := StepCommands(names, n - 1);
      var tail := if n - 1 < |names| - 1 then [Delegate(ModalContinueShopping)] else [];
      ClickedButtonsAppend(PlanUpTo(names, n - 1), step);
      ClickedButtonsAppend(AddCommands(name), tail);
      assert ClickedButtons(tail) == [] by {
        if tail != [] {
          assert tail[1..] == [];
        }
      }
      var add := AddCommands(name);
      var a1 := add[1..];
      var a2 := a1[1..];
      assert a2[1..] == [];
      assert ClickedButtons(a2) == [BtnAddToCart(name)] + ClickedButtons(a2[1..]);
      assert ClickedButtons(a1) == ClickedButtons(a2);
      assert ClickedButtons(add) == ClickedButtons(a1);
      var before := seq(n - 1, i requires 0 <= i < n - 1 => BtnAddToCart(names[i]));
      assert seq(n, i requires 0 <= i < n => BtnAddToCart(names[i])) == before + [BtnAddToCart(name)];
    }
  }

  /** An empty listing adds nothing and issues no command after the read. */
  lemma EmptyListingDoesNothing()
    ensures Plan([]) == []
  {
  }

  /** `click_view_cart` and `continue_shopping`: calls on the undefined modal and
      `navigate` members. */
  function ClickViewCart(d: Dom): (r: Run<()>)
    ensures r == Run([Delegate(ModalViewCart), Delegate(NavigateCart)], Ok(()))
  {
    Then(Delegated(d, ModalViewCart), Delegated(d, NavigateCart))
  }

  function ContinueShopping(d: Dom): (r: Run<()>)
    ensures r == Run([Delegate(ModalContinueShopping)], Ok(()))
  {
    Delegated(d, ModalContinueShopping)
  }
}

=== FILE: signup_page.dfy ===
/** `SignUpPage`: the account-information form. */
module SignupPage {
  import opened Exceptions
  import Ascii
  import opened PageKit

  const LabelEnterAccountInformation := Locator(XPath, "//b[normalize-space()='Enter Account Information']")
  const RadioBtnMr := Locator(XPath, "//input[@id='id_gender1']")
  const RadioBtnMrs := Locator(XPath, "//input[@id='id_gender2']")
  const CheckboxNewsletter := Locator(XPath, "//input[@id='newsletter']")
  const CheckboxOffers := Locator(XPath, "//input[@id='optin']")
  const BtnCreateAccount := Locator(XPath, "//button[contains(text(),'Create Account')]")

  /** `get_enter_account_information_message`. */
  function GetEnterAccountInformationMessage(d: Dom): (r: Run<string>)
    ensures r.result.Ok? <==> LabelEnterAccountInformation in d.visible
    ensures r.result.Ok? && TextOf(d, LabelEnterAccountInformation).Some? ==>
      Ascii.TrimOf(TextOf(d, LabelEnterAccountInformation).value, r.result.value)
    ensures r.result.Raised? ==> r.result.exc == TimeoutException
  {
    GetText(d, LabelEnterAccountInformation)
  }

  // ---------- title ----------

  /** `select_title`: "mr" or "mrs" in any ASCII case clicks the matching radio
      button; any other title does nothing, without complaint. */
  function SelectTitle(d: Dom, title: string): (r: Run<()>)
    ensures r.trace == [Click(RadioBtnMr)] <==> Ascii.Lower(title) == "mr" && RadioBtnMr in d.visible
    ensures r.trace == [Click(RadioBtnMrs)] <==> Ascii.Lower(title) == "mrs" && RadioBtnMrs in d.visible
    ensures r.result.Raised? <==>
      (Ascii.Lower(title) == "mr" && RadioBtnMr !in d.visible) || (Ascii.Lower(title) == "mrs" && RadioBtnMrs !in d.visible)
    ensures r.result.Raised? ==> r.result.exc == TimeoutException
    ensures r.trace == [] || r.trace == [Click(RadioBtnMr)] || r.trace == [Click(RadioBtnMrs)]
  {
    var t := Ascii.Lower(title);
    if t == "mr" then ClickOn(d, RadioBtnMr)
    else if t == "mrs" then ClickOn(d, RadioBtnMrs)
    else Return(())
  }

  /** Only case is ignored: the title and its lower- and upper-case forms select
      alike. */
  lemma SelectTitleIgnoresCase(d: Dom, title: string)
    ensures SelectTitle(d, Ascii.Lower(title)) == SelectTitle(d, title)
    ensures SelectTitle(d, Ascii.Upper(title)) == SelectTitle(d, title)
  {
    Ascii.LowerForgetsCase(title);
  }

  /** A title with surrounding space, or an abbreviation dot, clicks nothing. */
  lemma SelectTitleIsExact(d: Dom)
    requires RadioBtnMrs in d.visible
    ensures SelectTitle(d, "Mr.") == Run([], Ok(()))
    ensures SelectTitle(d, " mrs") == Run([], Ok(()))
    ensures SelectTitle(d, "MRS").trace == [Click(RadioBtnMrs)]
  {
    assert Ascii.Lower("Mr.") == "mr.";
    assert Ascii.Lower(" mrs") == " mrs";
    assert Ascii.Lower("MRS") == "mrs";
  }

  // ---------- text fields ----------

  /** The text inputs of the form, one per `enter_*` method. */
  datatype Field = Name | Password | FirstName | LastName | Company | Address | Address2 | State | City | Zipcode | MobileNumber

  function FieldLocator(f: Field): Locator {
    match f
    case Name => Locator(XPath, "//input[@id='name']")
    case Password => Locator(XPath, "//input[@id='password']")
    case FirstName => Locator(XPath, "//input[@id='first_name']")
    case LastName => Locator(XPath, "//input[@id='last_name']")
    case Company => Locator(XPath, "//input[@id='company']")
    case Address => Locator(XPath, "//input[@id='address1']")
    case Address2 => Locator(XPath, "//input[@id='address2']")
    case State => Locator(XPath, "//input[@id='state']")
    case City => Locator(XPath, "//input[@id='city']")
    case Zipcode => Locator(XPath, "//input[@id='zipcode']")
    case MobileNumber => Locator(XPath, "//input[@id='mobile_number']")
  }

  /** Each `enter_*` method types into its own input. */
  lemma FieldsAreDistinct(f: Field, g: Field)
    ensures FieldLocator(f) == FieldLocator(g) <==> f == g
  {
  }

  /** `enter_name`, `enter_password`, `enter_first_name`, ...: clear the field,
      then type. */
  function EnterField(d: Dom, f: Field, text: string): (r: Run<()>)
    ensures r.result.Ok? <==> FieldLocator(f) in d.visible
    ensures r.result.Ok? ==> r.trace == [Type(FieldLocator(f), text, true)]
    ensures r.result.Raised? ==> r.trace == [] && r.result.exc == TimeoutException
  {
    SendKeys(d, FieldLocator(f), text, true)
  }

  // ---------- drop-downs ----------

  datatype Dropdown = DayOfBirth | MonthOfBirth | YearOfBirth | Country

  function DropdownLocator(s: Dropdown): Locator {
    match s
    case DayOfBirth => Locator(XPath, "//select[@id='days']")
    case MonthOfBirth => Locator(XPath, "//select[@id='months']")
    case YearOfBirth => Locator(XPath, "//select[@id='years']")
    case Country => Locator(XPath, "//select[@id='country']")
  }

  /** `select_day_of_birth`, `select_month_of_birth`, `select_year_of_birth`,
      `select_country`: one call to the undefined `select_dropdown_by_value`
      with the drop-down's locator and the value. */
  function SelectDropdown(d: Dom, s: Dropdown, value: string): (r: Run<()>)
    ensures r.trace == [Delegate(SelectDropdownByValue(DropdownLocator(s), value))]
    ensures r.result.Ok?
  {
    Delegated(d, SelectDropdownByValue(DropdownLocator(s), value))
  }

  // ---------- check boxes ----------

  /** `select_newsletter` and `select_offers`: ask whether the box is ticked, and
      click it only when it is not. */
  function SelectCheckbox(d: Dom, box: Locator): (r: Run<()>)
    ensures box in d.selected ==> r == Run([AskSelected(box)], Ok(()))
    ensures box !in d.selected && box in d.visible ==> r == Run([AskSelected(box), Click(box)], Ok(()))
    ensures box !in d.selected && box !in d.visible ==> r == Run([AskSelected(box)], Raised(TimeoutException))
  {
    var ticked := IsSelected(d, box);
    if ticked.result.value then Run(ticked.trace, Ok(()))
    else
      var click := ClickOn(d, box);
      assert click.result.Ok? ==> click.result.value == ();
      Then(Run(ticked.trace, Ok(())), click)
  }

  function SelectNewsletter(d: Dom): (r: Run<()>)
    ensures CheckboxNewsletter in d.selected ==> r == Run([AskSelected(CheckboxNewsletter)], Ok(()))
    ensures CheckboxNewsletter !in d.selected && CheckboxNewsletter in d.visible ==> r == Run([AskSelected(CheckboxNewsletter), Click(CheckboxNewsletter)], Ok(()))
    ensures CheckboxNewsletter !in d.selected && CheckboxNewsletter !in d.visible ==> r == Run([AskSelected(CheckboxNewsletter)], Raised(TimeoutException))
  {
    SelectCheckbox(d, CheckboxNewsletter)
  }

  function SelectOffers(d: Dom): (r: Run<()>)
    ensures CheckboxOffers in d.selected ==> r == Run([AskSelected(CheckboxOffers)], Ok(()))
    ensures CheckboxOffers !in d.selected && CheckboxOffers in d.visible ==> r == Run([AskSelected(CheckboxOffers), Click(CheckboxOffers)], Ok(()))
    ensures CheckboxOffers !in d.selected && CheckboxOffers !in d.visible ==> r == Run([AskSelected(CheckboxOffers)], Raised(TimeoutException))
  {
    SelectCheckbox(d, CheckboxOffers)
  }

  /** Ticking is idempotent: after one call a shown box is ticked, and a second
      call clicks nothing and leaves the page as it is. */
  lemma SelectCheckboxIdempotent(d: Dom, box: Locator)
    requires box in d.checkboxes && box in d.visible
    ensures box in Apply(d, SelectCheckbox(d, box).trace).selected
    ensures NoClicks(SelectCheckbox(Apply(d, SelectCheckbox(d, box).trace), box).trace)
    ensures Apply(Apply(d, SelectCheckbox(d, box).trace), SelectCheckbox(Apply(d, SelectCheckbox(d, box).trace), box).trace)
      == Apply(d, SelectCheckbox(d, box).trace)
  {
    var t := SelectCheckbox(d, box).trace;
    if box !in d.selected {
      assert t == [AskSelected(box), Click(box)];
      assert t[1..] == [Click(box)];
      assert t[1..][1..] == [];
    } else {
      assert NoClicks(t);
    }
  }

  /** A box that is already ticked is never clicked, so it is never unticked. */
  lemma TickedBoxStaysTicked(d: Dom, box: Locator)
    requires box in d.selected
    ensures Apply(d, SelectCheckbox(d, box).trace) == d
  {
    assert NoClicks([AskSelected(box)]);
  }

  // ---------- submit ----------

  /** `click_create_account`: click Create Account, then an account-created page
      on the same driver. */
  function ClickCreateAccount(d: Dom, driver: nat): (r: Run<PageObject>)
    ensures r.result.Ok? <==> BtnCreateAccount in d.visible
    ensures r.result.Ok? ==> r.trace == [Click(BtnCreateAccount)] && r.result.value == Construct(AccountCreated, driver)
    ensures r.result.Raised? ==> r.trace == [] && r.result.exc == TimeoutException
  {
    Then(ClickOn(d, BtnCreateAccount), Return(Construct(AccountCreated, driver)))
  }
}

=== FILE: wrappers.dfy ===
/** Optional values, standing in for Python's `None`-or-value. */
module Wrappers {

  datatype Option<+T> = None | Some(value: T) {

    /** The value, or `default` when there is none. */
    function GetOr(default: T): T {
      match this
      case Some(v) => v
      case None => default
    }
  }

  function Max(a: int, b: int): int {
    if a < b then b else a
  }
}
